=== FILE: README.md ===
# AdminMock back office — a Dafny model of its record store

AdminMock is a Flask back office for a meal-kit service. An operator looks
up a customer by account identifier (the "GR"), edits personal details and
the subscription, generates and cancels orders, logs and edits complaints,
and reads or clears the customer's activity log. Under the routes sits an
in-memory record store: six lists loaded from JSON (customers, orders,
message threads, complaints, subscriptions, activity events) and three
dictionaries keyed on the normalised GR. This project models that store
and the command logic of every handler that reads or changes it.

Layout, one module per concern:

- `results.dfy` (`Results`): `Option`, `Result`, and the error kinds the handlers answer with. `Validation` is HTTP 400 for bad input. `NotFound` is 404. `Conflict` is 400 for a violated domain precondition. `Internal` is 500 for a Python exception.
- `text.dfy`, `words.dfy`, `numbers.dfy`, `email.dfy`: the Python string operations the handlers rely on.
  - `str.strip` with Python's `isspace` set; `upper`, `lower` and `capitalize` on ASCII letters.
  - `re.sub(r'[^\d]', '', ...)`; `split()` and `' '.join`.
  - `str(n)`, `int(s)`, and `:.2f` on an amount in pence.
  - The email pattern of `re.match`.
- `seqs.dfy`, `sorting.dfy`: list-comprehension filters, the `for ... break` first-match search, the `{key(x): x}` dictionaries, and the stable `sorted(..., reverse=True)`.
- `normalise.dfy` (`Normalise`): `GR` and `norm`.
- `records.dfy` (`Records`): the record datatypes, the store, and the consistency invariant `Valid`. The invariant says the index dictionaries mirror their lists and the identifiers are unique.
- `queries.dfy`, `payments.dfy`: the read side.
  - The per-account lists and the activity page filters.
  - The dashboard search, the customer banner and the message lookup.
  - The derived payments page.
- `audit.dfy` (`Audit`): the field-by-field diff behind the "changes" list of an activity event.
- `personal.dfy`, `subscriptions.dfy`, `orders.dfy`, `complaints.dfy`, `activitylog.dfy`: the eight commands.

How the commands are modelled:

- Each command is a pure function from the store, an environment and the JSON body. It returns `Err(error)` or `Ok` of the new store and the reply.
- The environment `Env` stands for what the handlers read from the outside world: the clock text, the `%Y%m%d` date stamp, and the eight-character `uuid4` prefix.
- The outcome of the delivery-date check is a parameter of type `DateVerdict`, because it compares a parsed date against the clock.
- A string field that the JSON leaves out or sets to `""` is the empty string in the model. A `null` string is not represented; the places where it would behave differently are listed under Left out.
- `Option` is used where the presence of a key matters, such as the fallback to the stored value in a subscription update and the optional edits of a complaint.
- Money is held in whole pence.

Behaviour worth noting:

- First and last names are `capitalize`d as a whole (app.py:211-212), not word by word.
- The postcode check looks only at the compacted length (app.py:237-244), not at which characters are present.
- `update_complaint` logs an event on every successful edit, even when nothing changed (app.py:889-897).
- `cancel_order` matches on the order identifier alone, with no account check (app.py:585).
- Two handlers can mutate the in-memory record before failing: `update_subscription` (see Findings) and `update_complaint` (see Left out).

## Model

| member | source | states |
|---|---|---|
| Normalise.GR | app.py:28-29 | the normalised identifier has no surrounding whitespace and no lower-case ASCII letter |
| Normalise.GRIdempotent | app.py:28-29 | normalising an identifier twice gives the same key as normalising it once |
| Normalise.GRIgnoresCase | app.py:28-29 | identifiers that differ only in ASCII letter case normalise to the same key |
| Normalise.GRIgnoresMargins | app.py:28-29 | identifiers that differ only in surrounding whitespace normalise to the same key |
| Normalise.Norm | app.py:31-32 | the search form of a text contains no space character |
| Normalise.NormIgnoresCase | app.py:31-32 | texts that differ only in letter case have the same search form |
| Normalise.NormIdempotent | app.py:31-32 | the search form is a fixed point of the search normaliser |
| Text.Strip | app.py:29 | `strip()` returns a trimmed string no longer than its input |
| Text.StripFixesTrimmed | app.py:29 | `strip()` leaves a string unchanged exactly when it has no leading or trailing whitespace |
| Text.StripIdempotent | app.py:29 | stripping twice is stripping once |
| Text.StripEmptyIffAllSpace | app.py:205 | a field counts as blank after `strip()` exactly when every character is whitespace |
| Text.StripMargins | app.py:29 | whitespace added around a string is removed again by `strip()` |
| Text.StripUpper | app.py:29 | stripping and upper-casing commute |
| Text.CaseCharFacts | app.py:29-32 | the ASCII case maps are idempotent, absorb each other, and keep whitespace whitespace |
| Text.UpperIdempotent | app.py:29 | upper-casing twice is upper-casing once |
| Text.CaseMapsAbsorb | app.py:29-32 | upper-casing a lower-cased string equals upper-casing the original, and the converse |
| Text.CapitalizeFacts | app.py:211-212 | `capitalize` is idempotent, adds no whitespace, and keeps a trimmed string trimmed |
| Text.Digits | app.py:226 | the result of removing every non-digit consists of digits only |
| Text.KeepAppend | app.py:226 | filtering characters distributes over concatenation |
| Text.KeepMap | app.py:234 | dropping spaces commutes with a case map that keeps spaces spaces |
| Text.Contains | app.py:155-161 | the substring test holds exactly when the needle occurs at some position of the haystack |
| Text.LexLessTransitive | app.py:62 | the string order used to sort by date is transitive |
| Text.LexLessTotal | app.py:62 | two different strings are always ordered one way or the other |
| Words.Split | app.py:252 | `split()` yields non-empty words that contain no whitespace |
| Words.SplitJoin | app.py:252 | splitting the single-space join of a word list gives back the same words |
| Words.CapitalizeWords | app.py:250-257 | the capitalised address or city text is trimmed |
| Words.CapitalizeWordsIdempotent | app.py:250-257 | re-applying the address and city clean-up changes nothing, and its words are the capitalised input words |
| Numbers.NatToStringRoundTrip | app.py:407 | the decimal digits of `str(n)` have the value n |
| Numbers.ParseIntRoundTrip | app.py:378-379 | `int(str(n)) == n` for every integer, negative ones included |
| Numbers.ParseNegative | app.py:378-379 | `int` reads a minus sign followed by digits as the negated value |
| Email.Accepts | app.py:221-223 | the scanner accepts exactly the strings the anchored email pattern matches at their start |
| Email.AcceptsIffMatches | app.py:221-223 | the single-pass scan agrees with the declarative pattern on every string |
| Email.AcceptedHasAt | app.py:216-223 | every accepted address contains '@', so the pattern subsumes the earlier '@' check |
| Email.AcceptsExample | app.py:221 | an address with `+`, `-` and `.` in it is accepted |
| Email.TrailingTextExample | app.py:221-223 | text after the top-level domain is allowed, since the match is anchored only at the start |
| Email.RejectsExample | app.py:221-223 | an address without a dotted domain, or with an empty local part, is rejected |
| Seqs.KeepKey | app.py:102 | the account filter keeps only elements of that account and never grows the list |
| Seqs.KeepKeyMembers | app.py:102 | an element survives the account filter exactly when it is in the list and has the key |
| Seqs.DropKeyMembers | app.py:686 | an element survives the removal filter exactly when it is in the list and lacks the key |
| Seqs.KeepDropPartition | app.py:684-687 | keeping and dropping one key split the list without loss, so the two lengths add up to the original |
| Seqs.KeepAfterDrop | app.py:686 | after dropping one key, every other key's elements are exactly as before, in the same order |
| Seqs.FirstWithKey | app.py:263-278 | the search with `break` finds the lowest position holding the key, or reports that none holds it |
| Seqs.BuildIndex | app.py:34-36 | the dictionary comprehension knows exactly the keys of the list; for each key it holds the last element with that key |
| Seqs.BuildIndexFaithful | app.py:34-36 | with unique keys the comprehension maps every key to the one element holding it |
| Seqs.ReplaceKeepsIndex | app.py:289 | writing back a record with the same key, into both the list and the dictionary, keeps the dictionary faithful |
| Seqs.RemoveAt | app.py:595 | `pop(i)` removes exactly one element; the others keep their order |
| Seqs.AppendKeepsUnique | app.py:532 | appending a record under a fresh identifier keeps identifiers unique |
| Sorting.SortDesc | app.py:110-114 | the newest-first sort returns a permutation of its input, ordered by non-increasing key |
| Sorting.SortDescStable | app.py:110-114 | elements with equal keys keep their original relative order, as Python's sort guarantees |
| Records.Load | app.py:17-36 | the loaded indices know exactly the normalised accounts of their lists |
| Records.LoadValid | app.py:17-36 | loading data whose accounts and identifiers are unique gives a consistent store |
| Queries.OrdersFor | app.py:100-102 | every order listed for an account belongs to that normalised account |
| Queries.AccountListsExact | app.py:100-106 | the order and complaint lists of an account hold exactly the stored records whose normalised GR matches |
| Queries.ActivityFor | app.py:108-114 | the activity list holds the account's events, each exactly as often as logged, newest first |
| Queries.ActivityForMembers | app.py:108-114 | an event is listed exactly when it is logged under the same normalised account |
| Queries.ActivityForStable | app.py:110-114 | events with the same timestamp appear in the order they were logged |
| Queries.Narrow | app.py:660-663 | a non-blank filter keeps exactly the events whose category or actor equals it; a blank filter keeps everything |
| Queries.ActivityPage | app.py:652-663 | the activity page lists, newest first, exactly the account's events that pass both filters, and nothing when no GR is given |
| Queries.TextSearch | app.py:153-162 | a customer is a hit exactly when the normalised query occurs in the chosen field's search form |
| Queries.Search | app.py:143-162 | a blank field name or a blank query finds nothing |
| Queries.SearchExact | app.py:147-162 | a GR search finds exactly the customers of that normalised account; the other fields find exactly the substring hits |
| Queries.SearchIgnoresQueryCase | app.py:143-162 | upper- or lower-casing the query does not change the results |
| Queries.InfoFor | app.py:116-127 | the banner exists exactly when the customer index knows the normalised account |
| Queries.InfoForExact | app.py:116-127 | in a consistent store the banner exists exactly when a customer of the account exists, and shows that customer's stored GR and postcode |
| Queries.MessagesFor | app.py:979-993 | no GR gives no messages; a known account gives its thread's log |
| Queries.MessagesForExact | app.py:979-993 | in a consistent store the messages shown are the log of the account's stored thread, and none when it has none |
| Payments.TxnId | app.py:58 | the transaction id is "txn_" followed by the order id character by character, lower-cased and with each dash turned into an underscore, so no dash is left |
| Payments.EntryOf | app.py:53-59 | a log entry copies the order's date, id and amount and carries the order's transaction id; it is "paid" exactly when the order is committed, else "pending" |
| Payments.MethodKey | app.py:65 | the method key is the last three characters of the GR as given, or "001" when it is shorter |
| Payments.PaymentsFor | app.py:42-81 | no view exactly when the account has no order; otherwise the log is a newest-first permutation of the entries of the account's orders, with the method label chosen by the key |
| Payments.PaymentsForStable | app.py:61-62 | log entries with the same date keep the order of the account's orders in the stored list |
| Payments.NoneForAccount | app.py:45-48 | the account's order list is empty exactly when no order has the account |
| Payments.PaymentsLogExact | app.py:45-62 | an entry is in the log exactly when it comes from an order of the account, and there is one entry per such order |
| Payments.MethodExamples | app.py:65-75 | "GR-002" shows the Mastercard label; a short GR shows "Visa **** 1234"; an unknown key, or a raw GR with a trailing space, shows the default |
| Audit.Changed | app.py:292-306 | only fields whose old and new values differ are reported, and never more than the field list holds |
| Audit.ChangedCount | app.py:292-306 | the number of change entries equals the number of differing positions in the field list |
| Audit.ChangedMembers | app.py:395-416 | a field is reported exactly when it is in the list and its values differ |
| Audit.ChangedEmptyIff | app.py:308 | the change list is empty exactly when every field's old and new values agree |
| Audit.Render | app.py:407 | a number is rendered as text that `int` reads back as the same number |
| Audit.ChangedAppend | app.py:292-306 | the changes of two field lists in sequence are the changes of the first followed by those of the second, so reported fields keep the order they are compared in |
| Audit.ChangeLines | app.py:292-306 | one change line per differing field, the k-th line rendering the k-th differing field |
| Audit.ChangeDetails | app.py:396-416 | one structured entry per differing field, each with distinct old and new values |
| Audit.DetailTextExample | app.py:315 | the summary reads "1 field modified" for one change and "3 fields modified" for three |
| Personal.FormatPhone | app.py:226-231 | accepted exactly when 11 digits remain; the stored form is 12 characters with a space at index 5, and removing it gives the digits back |
| Personal.FormatPhoneStable | app.py:226-231 | the stored phone number has the same digits and re-formats to itself |
| Personal.FormatPhoneExample | app.py:226-231 | "0712 345 6789" is stored as "07123 456789" |
| Personal.FormatPhoneShortExample | app.py:227-228 | "(0712) 345-678" has ten digits and is rejected |
| Personal.CompactPostcode | app.py:234 | the compacted postcode has no space |
| Personal.FormatPostcode | app.py:234-244 | accepted exactly when the compacted length is 5, 6 or 7; the stored form is the compacted text with one space before its last three characters |
| Personal.FormatPostcodeCompacts | app.py:237-242 | removing the space from the stored postcode gives back the compacted form |
| Personal.FormatPostcodeExample | app.py:234-242 | "sw1a 1aa" is stored as "SW1A 1AA" |
| Personal.FormatPostcodeLongExample | app.py:243-244 | "EC1A1BBX" compacts to eight characters and is rejected |
| Personal.CleanGr | app.py:247 | the cleaned GR is already in normalised form |
| Personal.CleanGrStable | app.py:247 | cleaning a GR twice is cleaning it once |
| Personal.CleanWords | app.py:250-257 | the cleaned address or city is trimmed |
| Personal.CleanWordsStable | app.py:250-257 | cleaning an address twice is cleaning it once |
| Personal.MissingField | app.py:203-206 | the reported field is the first of first_name, last_name, email, phone, postcode that is blank after stripping, every earlier one being non-blank; none is reported exactly when all five are non-blank |
| Personal.Sanitise | app.py:198-257 | sanitising succeeds exactly when the form is acceptable; otherwise it fails with the first failing check's validation message, in order: "GR is required", "Missing required field: <field>", the missing-@ message, the pattern message, the 11-digit phone message, the postcode-format message |
| Personal.AtCheckSubsumed | app.py:215-223 | an email the pattern accepts always contains '@' |
| Personal.SanitiseFixedPoint | app.py:203-257 | submitting the stored values again sanitises to the same record |
| Personal.NameStable | app.py:211-212 | a stored name is non-blank and re-sanitises to itself |
| Personal.EmailStable | app.py:215 | a stored email is trimmed and re-sanitises to itself |
| Personal.PhoneStable | app.py:226-231 | a stored phone number is non-blank and re-formats to itself |
| Personal.PostcodeStable | app.py:234-244 | a stored postcode is non-blank and re-formats to itself |
| Personal.PersonalFields | app.py:292-306 | the personal diff compares exactly seven fields |
| Personal.Overwrite | app.py:268-274 | the write keeps the record's stored GR and takes every other field from the sanitised data |
| Personal.ApplyPersonal | app.py:259-323 | the update succeeds exactly when a customer of the normalised account exists, and otherwise fails as "Customer not found"; other collections are untouched |
| Personal.PersonalFieldsSame | app.py:292-308 | for records with the same GR, no field is reported changed exactly when the records are equal |
| Personal.WriteCustomer | app.py:263-320 | only the matched customer changes: it keeps its GR and takes every other field from the data; the customer index follows it; orders, complaints, subscriptions, messages and the other two indices are untouched; the log keeps its entries and gains one event exactly when the record changed |
| Personal.UpdatePersonal | app.py:191-329 | an unacceptable form fails with exactly the sanitiser's error; an acceptable one applies its sanitised record |
| Personal.ApplyPersonalEffect | app.py:263-318 | the first customer of the account takes the new values; an event is logged exactly when the seven-field diff is non-empty, with one change line per differing field |
| Personal.ApplyPersonalValid | app.py:263-289 | the update keeps the store consistent |
| Personal.ApplyPersonalResubmit | app.py:292-318 | applying the same record again changes nothing and logs nothing |
| Personal.UpdatePersonalResubmit | app.py:191-329 | resubmitting an identical form leaves the store as it is, with no new activity event |
| Personal.UpdatePersonalValid | app.py:191-329 | a successful update keeps the store consistent |
| Subscriptions.ToInt | app.py:378-379 | `int()` converts booleans, integers and integer text; other text is a ValueError and other types a TypeError |
| Subscriptions.ToIntOfText | app.py:378-379 | the decimal text of any integer converts back to it |
| Subscriptions.Count | app.py:378-379 | an absent count keeps the stored value; a present one must convert; unreadable text fails as bad data, a wrong type as a server error |
| Subscriptions.SubscriptionFields | app.py:398-416 | the subscription diff compares exactly five fields |
| Subscriptions.Applied | app.py:376-380 | every absent field keeps its prior value, and the counts are the converted ones |
| Subscriptions.SubscriptionFieldsSame | app.py:395-418 | no field is reported changed exactly when the records agree apart from the GR |
| Subscriptions.Commit | app.py:389-440 | the matched record is replaced in the list and in the index under the normalised GR; the customers, orders, complaints, messages and other indices are untouched; the changes are empty exactly when the records agree apart from the GR, and the log keeps its entries and gains one event exactly when there are changes |
| Subscriptions.ConversionError | app.py:442-445 | a refused count answers a validation error exactly for unreadable text, and a server error exactly for null or compound values |
| Subscriptions.UpdateSubscription | app.py:356-445 | no GR fails; otherwise the update succeeds exactly when a subscription of the account exists and both counts convert; no subscription answers "Subscription not found"; a refused count answers its conversion error, recipes checked before box size; other collections and indices are untouched |
| Subscriptions.UpdateSubscriptionEffect | app.py:372-433 | the first subscription of the account takes the form's values, with each absent field keeping its prior value |
| Subscriptions.CommitEffect | app.py:395-433 | the change list is empty exactly when the new record equals the old; an event is logged exactly when it is non-empty |
| Subscriptions.UpdateSubscriptionValid | app.py:389-393 | the update keeps the store consistent |
| Subscriptions.UpdateSubscriptionResubmit | app.py:372-440 | sending the same form again changes nothing, logs nothing and reports no changes |
| Subscriptions.AssignInPlace | app.py:376-380 | the status and frequency are assigned before the counts are converted |
| Subscriptions.UpdateSubscriptionAsWritten | app.py:357-393 | the handler as written refuses a blank GR and an unknown account with the corrected command's errors and leaves the store alone; on success the index answers the account with the returned record |
| Subscriptions.WriteInPlace | app.py:372-393 | a refused count leaves the record with the writes made before it, changes the index entry only when that entry is the edited record, logs nothing and touches nothing else; otherwise the written record is stored in the list and the index |
| Subscriptions.AsWrittenIndexFollows | app.py:372-393 | in a consistent store the index entry for the account is the edited record, so after the handler as written the index and the list agree on it |
| Subscriptions.AsWrittenAgrees | app.py:372-445 | the handler as written gives the same reply as the corrected command, and the same store whenever it succeeds |
| Subscriptions.AsWrittenPartialWrite | app.py:372-387 | a new status with unreadable recipes fails as "Invalid data format", yet the stored status has changed; the corrected command fails the same way |
| Subscriptions.PartialWriteExample | app.py:376-378 | status "paused" with recipes "x" leaves "GR-001" paused behind a failed request |
| Orders.RecipePrice | app.py:499-507 | every listed recipe costs between 599 and 899 pence |
| Orders.Total | app.py:509-513 | the order total is at most the dearest price times the box size times the recipe count |
| Orders.TotalFactors | app.py:509-513 | the total is the box size times the sum of the listed unit prices; unknown recipes add nothing |
| Orders.BoxSize | app.py:492-493 | a box size is accepted exactly when it is an integer from 1 to 5 (JSON `true` counts as 1); null, text and compound values are refused |
| Orders.NewOrder | app.py:517-529 | the new order is pending, belongs to the given GR, has the generated identifier, and is priced at box size times the price sum |
| Orders.OrderProblem | app.py:472-510 | no check fails exactly when the order is acceptable; each failing check, taken in the handler's order, reports its own error: no GR, an absent date (500), a malformed date, a date under three days away, a bad box size, a recipe count outside 2-5, a recipe entry that is not an object (500) |
| Orders.PlaceOrder | app.py:520-548 | the order list keeps its orders and gains the new one at the end: pending, under the account and the generated id, with the box size, the recipes and their price times the box size; one event is appended; the other collections and indices are untouched |
| Orders.GenerateOrder | app.py:465-559 | success exactly when every check passes, else the first failing check's error; on success one pending order priced from the table is appended, with one event, and nothing else changes |
| Orders.GenerateOrderValid | app.py:517-532 | a new order under a fresh identifier keeps the store consistent |
| Orders.GeneratedOrderIsPendingPayment | app.py:520-529 | the new order appears on the account's payments page as a pending payment of its price |
| Orders.GenerateOrderPriceExample | app.py:499-527 | two boxes of honey-garlic chicken and beef tacos cost 2896 pence |
| Orders.CancelOrder | app.py:568-627 | a missing id fails; otherwise the cancel succeeds exactly when the first order with the id is pending; no such order answers "Order not found", a non-pending first match answers "Only pending orders can be cancelled"; success removes one order and leaves the other collections and indices alone |
| Orders.CancelOrderEffect | app.py:584-622 | exactly the first order with the id leaves the list, the rest keep their order, and the event is logged exactly when that order names an account |
| Orders.CancelOrderValid | app.py:595 | a cancellation keeps the store consistent |
| Orders.CancelTwiceNotFound | app.py:584-600 | in a consistent store a second cancel of the same id fails as "Order not found" |
| Orders.GenerateThenCancel | app.py:532 | cancelling a just-generated order under a fresh identifier restores the order list |
| Complaints.MissingComplaintField | app.py:736-739 | the reported field is the first of gr, order_id, recipe, description, compensation_type, compensation_amount that is falsy, every earlier one being truthy; none is reported exactly when all six are truthy |
| Complaints.ReadAmount | app.py:752-758 | the amount is accepted exactly when `float` reads it and it is not negative; an unreadable amount answers "Invalid compensation amount" and a negative one "Compensation amount cannot be negative" |
| Complaints.HasRecipe | app.py:773-782 | the recipe is found exactly when some entry's name, or the bare string, equals it |
| Complaints.FormProblem | app.py:736-758 | the form passes exactly when nothing is missing, the type is credit or refund, and the amount is readable and not negative; otherwise the first failing check answers, in order, "Missing required field: <field>", "Invalid compensation type", "Invalid compensation amount" or "Compensation amount cannot be negative" |
| Complaints.OrderProblem | app.py:760-782 | the order check passes exactly when the account's first order with the id is committed and lists the recipe; no such order is "not found", an uncommitted one or a missing recipe is a conflict, each with its message |
| Complaints.CreateComplaint | app.py:728-830 | success exactly when the form and order checks pass, with the first failing check's error otherwise; on success one complaint and one "complaint_created" event are appended |
| Complaints.CreateComplaintNeedsCommittedOrder | app.py:760-782 | a complaint is only ever logged against a committed order of the same account that lists the recipe |
| Complaints.CreateComplaintValid | app.py:786-803 | a new complaint under a fresh identifier keeps the store consistent |
| Complaints.FindComplaint | app.py:856-858 | a found position holds a complaint with that id and normalised account |
| Complaints.FindComplaintIff | app.py:856-858 | a complaint is found exactly when one with the id belongs to the account, and no earlier one matches |
| Complaints.Edited | app.py:862-874 | every field sent replaces the stored one, every absent field keeps it, and the modification date and actor are stamped |
| Complaints.UpdateComplaint | app.py:839-911 | a missing id or GR fails; otherwise the edit succeeds exactly when a complaint of the account has the id and any sent amount is readable; no complaint answers "Complaint not found", an unreadable amount a server error; on success one event is logged and every other collection and index is untouched |
| Complaints.UpdateComplaintEffect | app.py:856-878 | exactly the matched complaint changes, as edited |
| Complaints.UpdateComplaintValid | app.py:856-878 | an edit keeps the store consistent |
| Complaints.DeleteComplaint | app.py:917-970 | a missing id or GR fails; otherwise the delete succeeds exactly when a complaint of the account has the id, and "Complaint not found" answers otherwise; success removes one complaint, appends one event and leaves every other collection and index alone |
| Complaints.DeleteComplaintEffect | app.py:934-960 | exactly the matched complaint leaves the list, nothing else is lost, and the event records it |
| Complaints.DeleteComplaintValid | app.py:939 | a deletion keeps the store consistent |
| Complaints.DeleteTwiceNotFound | app.py:934-944 | in a consistent store a second delete fails as "Complaint not found" |
| Complaints.CreateThenDelete | app.py:803 | deleting a just-created complaint under a fresh identifier restores the complaint list |
| ActivityLog.ClearActivityLog | app.py:672-698 | no GR fails; otherwise no event of the account remains, the count plus the remaining length is the original length, the message reports the count, and every other collection and index is untouched |
| ActivityLog.ClearActivityValid | app.py:683-688 | clearing an account's log keeps the store consistent |
| ActivityLog.ClearActivityExact | app.py:683-688 | the kept events are exactly the logged events of other accounts, a subsequence of the log in its original order, and the count is the number of the account's events |
| ActivityLog.ClearActivityPages | app.py:683-688 | afterwards the account's activity page is empty, while every other account keeps all its events in logged order |
| ActivityLog.ClearActivityTwice | app.py:683-688 | a second clear removes nothing and reports zero |

## Left out

- Subscriptions.WriteInPlace: the source shares one record object between the list and the index (app.py:36); the model has no object identity and compares records by value, so an index entry that equals the edited record without being it would show the partial write here but not in the source. This needs two identical subscription records for one account.
- Flask routing, templates, `jsonify` and HTTP status codes. The codes become the `ErrorKind` of an error.
- The "No data provided" check on an empty JSON body.
- File I/O: `load_json` and every `json.dump` rewrite. A command returns the new store instead of writing files.
- The clock and `uuid4`. They become the fields of `Env`.
- `strptime` and the three-day comparison. They become the `DateVerdict` parameter.
- Floating point. Prices and amounts are whole pence, so `round(total, 2)` and binary rounding of the price sum are not modelled.
- Complaints.ReadAmount: `float()` also reads "nan", "inf", exponents and underscores. The model gives a readable amount as pence, and so has no NaN or infinite amount.
- Unicode beyond ASCII: the case maps, the regex `\d` of the phone clean-up (app.py:226) and the digits `int()` reads (app.py:378-379) cover ASCII only; Python also accepts other Unicode digits. Other whitespace characters follow Python's `isspace` set.
- Subscriptions.ToInt: `int()` on a float truncates, and on text with underscores it also succeeds. The model treats a JSON float as a compound value (TypeError), and text with underscores as unreadable.
- Orders.BoxSize: a JSON `true` box size passes the check and Python stores `true`. The model stores 1.
- JSON values of the wrong type in string fields, such as a number as a name: the handlers would raise and answer 500. The model's string fields are strings.
- A `recipes` value that is not a list, in `generate_order`.
- The text of Python exceptions inside "Server error: …" and "Invalid data format: …" messages. The model keeps the fixed prefix.
- Complaints.UpdateComplaint: when `float()` refuses an edited amount (`AmountEdit.Refused`), the source answers 500 after the description and compensation type have already been written to the record in memory (app.py:863-868). The model answers the same 500 "Server error" but returns no store, so that in-memory partial write is not modelled.
- `null` sent for a string field of the subscription form: `data.get("status", stored)` returns `None` when the key is present, so status, frequency or delivery day is stored as `None` and the change line reads "Status: active → None" (app.py:376-377, app.py:380, app.py:398-418). The model's `Option<string>` field has no such value.
- `null` sent for the description, compensation type or status of a complaint edit: it is stored as `None` (app.py:863-870). The model's `Option<string>` field has no such value.
- `null` in a string field of the personal-details form: `.get('address', '').strip()` and the same for the city raise on `null` and answer 500 (app.py:250, app.py:255). A stored `null` field prints as "None" in the change lines (app.py:293-306). The model has no `null` string, so neither case is representable.
- Complaints.DeleteComplaint: the event detail falls back to "compensation" when the stored record has no `compensation_type` key. Absent and empty are one value in the model, so the stored (empty) type is printed.
- `get_all_payments` and the `__ping`, `__datacheck` and `__peek_*` endpoints, which are diagnostics. So are the debug prints of the messages page.
- `ctx_for` and the page routes that only call the modelled queries.

## Findings

| source | as written | input that shows it | evidently intended | confidence | as-written member | corrected member |
|---|---|---|---|---|---|---|
| app.py:372-387, app.py:442-443 | `update_subscription` assigns status and frequency to the stored record before `int()` converts the counts; a ValueError then answers 400 "Invalid data format", yet the record in memory (and, in a consistent store, its index entry) keeps the new status | stored "GR-001" subscription with status "active"; form `{"gr": "GR-001", "status": "paused", "recipes": "x"}` | a rejected update leaves the subscription unchanged | not executed | Subscriptions.AsWrittenPartialWrite | Subscriptions.UpdateSubscription |

=== FILE: activitylog.dfy ===
/** Clearing an account's activity log: every event whose normalised
    account matches is removed from the log, the others stay in the order
    they were logged, and the reply counts what went. */
module ActivityLog {
  import opened Results
  import opened Numbers
  import opened Seqs
  import opened Normalise
  import opened Records
  import opened Queries

  datatype Cleared = Cleared(count: nat, message: string)

  /** `clear_activity_log`: drop the account's events and report how many
      there were. */
  function ClearActivityLog(st: Store, gr: string): (r: Result<(Store, Cleared)>)
    ensures gr == "" <==> r.Err?
    ensures r.Err? ==> r.error == Error(Validation, "No GR provided")
    ensures r.Ok? ==> && (forall k :: 0 <= k < |r.value.0.activity| ==> GR(r.value.0.activity[k].gr) != GR(gr))
                      && r.value.1.count + |r.value.0.activity| == |st.activity|
                      && r.value.1.message == "Cleared " + NatToString(r.value.1.count) + " activity entries for " + gr
    ensures r.Ok? ==> && r.value.0.customers == st.customers && r.value.0.orders == st.orders
                      && r.value.0.complaints == st.complaints && r.value.0.subscriptions == st.subscriptions
                      && r.value.0.messages == st.messages
                      && r.value.0.customersByGr == st.customersByGr && r.value.0.messagesByGr == st.messagesByGr
                      && r.value.0.subscriptionsByGr == st.subscriptionsByGr
  {
    if gr == "" then
      Fail(Validation, "No GR provided")
    else
      var kept := DropKey(st.activity, EventAccount, GR(gr));
      var count := |st.activity| - |kept|;
      Ok((st.(activity := kept), Cleared(count, "Cleared " + NatToString(count) + " activity entries for " + gr)))
  }

  /** Clearing touches only the activity log, so it keeps the store
      consistent. */
  lemma ClearActivityValid(st: Store, gr: string)
    requires Valid(st) && gr != ""
    ensures Valid(ClearActivityLog(st, gr).value.0)
  {
  }

  /** The events kept are exactly the logged events of other accounts,
      still in the order they were logged, and the count is the number of
      the account's events. */
  lemma ClearActivityExact(st: Store, gr: string)
    requires gr != ""
    ensures var (st', c) := ClearActivityLog(st, gr).value;
            && (forall e :: e in st'.activity <==> e in st.activity && GR(e.gr) != GR(gr))
            && c.count == |KeepKey(st.activity, EventAccount, GR(gr))|
    ensures IsSubsequence(ClearActivityLog(st, gr).value.0.activity, st.activity)
  {
    DropKeySubsequence(st.activity, EventAccount, GR(gr));
    DropKeyMembers(st.activity, EventAccount, GR(gr));
    KeepDropPartition(st.activity, EventAccount, GR(gr));
  }

  /** After clearing, the account's activity page is empty; every other
      account keeps all its events, in the order they were logged, and so
      keeps its page as it was. */
  lemma ClearActivityPages(st: Store, gr: string, other: string)
    requires gr != ""
    ensures ActivityFor(ClearActivityLog(st, gr).value.0, gr) == []
    ensures GR(other) != GR(gr) ==>
              KeepKey(ClearActivityLog(st, gr).value.0.activity, EventAccount, GR(other))
              == KeepKey(st.activity, EventAccount, GR(other))
    ensures GR(other) != GR(gr) ==> ActivityFor(ClearActivityLog(st, gr).value.0, other) == ActivityFor(st, other)
  {
    KeepAfterDrop(st.activity, EventAccount, GR(gr), GR(gr));
    KeepAfterDrop(st.activity, EventAccount, GR(gr), GR(other));
  }

  /** Clearing twice: the second clear removes nothing and reports zero. */
  lemma ClearActivityTwice(st: Store, gr: string)
    requires gr != ""
    ensures var st1 := ClearActivityLog(st, gr).value.0;
            && ClearActivityLog(st1, gr).value.0 == st1
            && ClearActivityLog(st1, gr).value.1.count == 0
  {
    var st1 := ClearActivityLog(st, gr).value.0;
    DropKeyNone(st1.activity, EventAccount, GR(gr));
  }
}

=== FILE: audit.dfy ===
/** The field-by-field comparison behind the personal-details and
    subscription updates: a fixed list of fields is compared old against
    new, each differing field gives one line "Label: old → new" (and, for
    subscriptions, one `details` entry), and the event's summary reads
    "N field(s) modified". */
module Audit {
  import opened Text
  import opened Numbers
  import opened Records
  import opened Results
  import opened Seqs

  /** One compared field: its JSON key, its caption in the change line, and
      the values before and after the update. */
  datatype Field = Field(key: string, caption: string, before: Value, after: Value)

  predicate Differs(f: Field) {
    f.before != f.after
  }

  /** The differing fields, in list order. */
  function Changed(fs: seq<Field>): (r: seq<Field>)
    ensures |r| <= |fs|
    ensures forall k :: 0 <= k < |r| ==> Differs(r[k])
    decreases |fs|
  {
    if fs == [] then
      []
    else
      var n := |fs| - 1;
      Changed(fs[..n]) + (if Differs(fs[n]) then [fs[n]] else [])
  }

  /** The change list of two field lists one after the other is the change
      list of the first followed by that of the second: comparing keeps the
      fields in the order they are listed. */
  lemma {:induction false} ChangedAppend(a: seq<Field>, b: seq<Field>)
    ensures Changed(a + b) == Changed(a) + Changed(b)
    decreases |b|
  {
    if b == [] {
      assert a + b == a;
    } else {
      var n := |b| - 1;
      ChangedAppend(a, b[..n]);
      assert (a + b)[..|a + b| - 1] == a + b[..n];
      assert (a + b)[|a + b| - 1] == b[n];
      AppendAssoc(Changed(a), Changed(b[..n]), if Differs(b[n]) then [b[n]] else []);
    }
  }

  /** The positions whose field differs. */
  function DiffPositions(fs: seq<Field>): set<nat> {
    set k: nat | k < |fs| && Differs(fs[k])
  }

  /** One entry per differing field: the change list is as long as the
      set of differing positions. */
  lemma {:induction false} ChangedCount(fs: seq<Field>)
    ensures |Changed(fs)| == |DiffPositions(fs)|
    decreases |fs|
  {
    if fs != [] {
      var n := |fs| - 1;
      ChangedCount(fs[..n]);
      DiffPositionsStep(fs);
    }
  }

  lemma DiffPositionsStep(fs: seq<Field>)
    requires fs != []
    ensures DiffPositions(fs) == DiffPositions(fs[..|fs| - 1])
                                 + (if Differs(fs[|fs| - 1]) then {|fs| - 1} else {})
  {
    var n := |fs| - 1;
    var p := fs[..n];
    assert forall k :: 0 <= k < n ==> p[k] == fs[k];
  }

  /** A field is in the change list exactly when it is among the compared
      fields and differs. */
  lemma {:induction false} ChangedMembers(fs: seq<Field>)
    ensures forall f :: f in Changed(fs) <==> f in fs && Differs(f)
    decreases |fs|
  {
    if fs != [] {
      var n := |fs| - 1;
      ChangedMembers(fs[..n]);
      assert fs == fs[..n] + [fs[n]];
    }
  }

  /** Nothing changed exactly when every field is equal before and after. */
  lemma ChangedEmptyIff(fs: seq<Field>)
    ensures Changed(fs) == [] <==> forall k :: 0 <= k < |fs| ==> fs[k].before == fs[k].after
  {
    ChangedMembers(fs);
    if Changed(fs) == [] {
      forall k | 0 <= k < |fs|
        ensures fs[k].before == fs[k].after
      {
        assert fs[k] in fs;
      }
    } else {
      assert Changed(fs)[0] in fs;
    }
  }

  /** A field's value as an f-string renders it. */
  function Render(v: Value): (r: string)
    ensures v.Num? ==> ParseInt(r) == Some(v.n)
  {
    match v
    case Str(s) => s
    case Num(n) => ParseIntRoundTrip(n); IntToString(n)
  }

  function ChangeLine(f: Field): string {
    f.caption + ": " + Render(f.before) + " \U{2192} " + Render(f.after)
  }

  /** The `changes` list of the event. */
  function ChangeLines(fs: seq<Field>): (r: seq<string>)
    ensures |r| == |Changed(fs)|
    ensures forall k :: 0 <= k < |r| ==> r[k] == ChangeLine(Changed(fs)[k])
  {
    var c := Changed(fs);
    seq(|c|, k requires 0 <= k < |c| => ChangeLine(c[k]))
  }

  /** The `details` object of the event, one entry per changed field. */
  function ChangeDetails(fs: seq<Field>): (r: seq<FieldChange>)
    ensures |r| == |Changed(fs)|
    ensures forall k :: 0 <= k < |r| ==> r[k].before != r[k].after
  {
    var c := Changed(fs);
    seq(|c|, k requires 0 <= k < |c| => FieldChange(c[k].key, c[k].before, c[k].after))
  }

  /** `f"{n} field{'s' if n > 1 else ''} modified"`. */
  function DetailText(n: nat): string {
    IntToString(n) + " field" + (if n > 1 then "s" else "") + " modified"
  }

  lemma DetailTextExample()
    ensures DetailText(1) == "1 field modified"
    ensures DetailText(3) == "3 fields modified"
  {
  }
}

=== FILE: complaints.dfy ===
/** Complaints: logged against a committed order of the account and one of
    its recipes, with a credit or refund; edited field by field; deleted
    outright. Each command logs an event. Complaints are found by their
    identifier together with the normalised account. */
module Complaints {
  import opened Results
  import opened Numbers
  import opened Seqs
  import opened Normalise
  import opened Records

  /** `compensation_amount` as it reaches the handler: absent (or another
      falsy JSON value), a JSON number, a string `float()` reads, or a
      string it refuses. Amounts are in pence. */
  datatype AmountInput = Absent | Number(pence: int) | Numeral(pence: int) | Unreadable(text: string)

  /** Python's truthiness of the amount: `0` and `""` are falsy, the
      string "0" is not. */
  predicate AmountGiven(a: AmountInput) {
    match a
    case Absent => false
    case Number(p) => p != 0
    case Numeral(_) => true
    case Unreadable(t) => t != ""
  }

  /** The JSON body of the create form; an absent string is empty. */
  datatype ComplaintForm = ComplaintForm(
    gr: string,
    orderId: string,
    recipe: string,
    description: string,
    compensationType: string,
    amount: AmountInput)

  /** The first required field that is missing or falsy, in the order the
      form checks them. */
  function MissingComplaintField(f: ComplaintForm): (r: Option<string>)
    ensures r.None? <==> f.gr != "" && f.orderId != "" && f.recipe != "" && f.description != ""
                         && f.compensationType != "" && AmountGiven(f.amount)
    ensures r == Some("gr") <==> f.gr == ""
    ensures r == Some("order_id") <==> f.gr != "" && f.orderId == ""
    ensures r == Some("recipe") <==> f.gr != "" && f.orderId != "" && f.recipe == ""
    ensures r == Some("description") <==> f.gr != "" && f.orderId != "" && f.recipe != "" && f.description == ""
    ensures r == Some("compensation_type") <==> f.gr != "" && f.orderId != "" && f.recipe != "" && f.description != ""
                                                && f.compensationType == ""
    ensures r == Some("compensation_amount") <==> f.gr != "" && f.orderId != "" && f.recipe != "" && f.description != ""
                                                  && f.compensationType != "" && !AmountGiven(f.amount)
  {
    if f.gr == "" then Some("gr")
    else if f.orderId == "" then Some("order_id")
    else if f.recipe == "" then Some("recipe")
    else if f.description == "" then Some("description")
    else if f.compensationType == "" then Some("compensation_type")
    else if !AmountGiven(f.amount) then Some("compensation_amount")
    else None
  }

  /** The amount `float()` gives, refused when unreadable or negative. */
  function ReadAmount(a: AmountInput): (r: Result<int>)
    requires AmountGiven(a)
    ensures r.Ok? <==> (a.Number? || a.Numeral?) && a.pence >= 0
    ensures r.Ok? ==> r.value == a.pence
    ensures r.Err? ==> r.error.kind == Validation
    ensures a.Unreadable? ==> r == Fail(Validation, "Invalid compensation amount")
    ensures (a.Number? || a.Numeral?) && a.pence < 0 ==> r == Fail(Validation, "Compensation amount cannot be negative")
  {
    match a
    case Unreadable(_) => Fail(Validation, "Invalid compensation amount")
    case Number(p) => if p < 0 then Fail(Validation, "Compensation amount cannot be negative") else Ok(p)
    case Numeral(p) => if p < 0 then Fail(Validation, "Compensation amount cannot be negative") else Ok(p)
  }

  /** An order is matched by its identifier and its normalised account. */
  function OrderRef(o: Order): (string, string) {
    (o.orderId, OrderAccount(o))
  }

  /** A complaint is matched by its identifier and its normalised account. */
  function ComplaintRef(c: Complaint): (string, string) {
    (c.complaintId, ComplaintAccount(c))
  }

  /** The name an order's recipe entry is compared under: an object's
      `name`, or the bare string. */
  function RecipeName(e: RecipeEntry): Option<string> {
    match e
    case RecipeObj(_, name) => name
    case RecipeText(t) => Some(t)
  }

  /** Whether the order lists the recipe. */
  function HasRecipe(rs: seq<RecipeEntry>, recipe: string): (b: bool)
    ensures b <==> exists k :: 0 <= k < |rs| && RecipeName(rs[k]) == Some(recipe)
  {
    if rs == [] then false
    else if RecipeName(rs[0]) == Some(recipe) then true
    else
      var b := HasRecipe(rs[1..], recipe);
      assert forall k :: 1 <= k < |rs| ==> rs[k] == rs[1..][k - 1];
      assert b ==> exists k :: 0 <= k < |rs| && RecipeName(rs[k]) == Some(recipe) by {
        if b {
          var j :| 0 <= j < |rs[1..]| && RecipeName(rs[1..][j]) == Some(recipe);
          assert rs[j + 1] == rs[1..][j];
        }
      }
      b
  }

  function ComplaintIdFor(env: Env): string {
    "COMP-" + env.dateStamp + "-" + env.token
  }

  function NewComplaint(f: ComplaintForm, env: Env, pence: int): Complaint {
    Complaint(ComplaintIdFor(env), f.gr, f.orderId, f.recipe, f.description, f.compensationType,
              pence, "resolved", env.now, "admin", None, None)
  }

  function ComplaintCreatedEvent(f: ComplaintForm, env: Env, pence: int): Event {
    Event(f.gr, env.now, "complaint_created", "admin", "Complaint logged",
          "Complaint " + ComplaintIdFor(env) + " created for order " + f.orderId + " - "
          + f.compensationType + " of £" + FormatPounds(pence) + " issued", None, None)
  }

  /** Every check `create_complaint` makes, before the order lookup. */
  function FormProblem(f: ComplaintForm): (r: Option<Error>)
    ensures r.None? <==> && MissingComplaintField(f).None?
                         && (f.compensationType == "credit" || f.compensationType == "refund")
                         && ReadAmount(f.amount).Ok?
    ensures r.Some? ==> r.value.kind == Validation
    ensures MissingComplaintField(f).Some? ==>
              r == Some(Error(Validation, "Missing required field: " + MissingComplaintField(f).value))
    ensures MissingComplaintField(f).None? && f.compensationType != "credit" && f.compensationType != "refund" ==>
              r == Some(Error(Validation, "Invalid compensation type"))
    ensures MissingComplaintField(f).None? && (f.compensationType == "credit" || f.compensationType == "refund")
            && f.amount.Unreadable? ==>
              r == Some(Error(Validation, "Invalid compensation amount"))
    ensures MissingComplaintField(f).None? && (f.compensationType == "credit" || f.compensationType == "refund")
            && (f.amount.Number? || f.amount.Numeral?) && f.amount.pence < 0 ==>
              r == Some(Error(Validation, "Compensation amount cannot be negative"))
  {
    match MissingComplaintField(f)
    case Some(field) => Some(Error(Validation, "Missing required field: " + field))
    case None =>
      if f.compensationType != "credit" && f.compensationType != "refund" then
        Some(Error(Validation, "Invalid compensation type"))
      else
        match ReadAmount(f.amount)
        case Err(e) => Some(e)
        case Ok(_) => None
  }

  /** The order check: the account's first order with the identifier must
      be committed and must list the recipe. */
  function OrderProblem(orders: seq<Order>, f: ComplaintForm): (r: Option<Error>)
    ensures r.None? <==> match FirstWithKey(orders, OrderRef, (f.orderId, GR(f.gr)))
                         case None => false
                         case Some(i) => orders[i].status == "committed" && HasRecipe(orders[i].recipes, f.recipe)
    ensures FirstWithKey(orders, OrderRef, (f.orderId, GR(f.gr))).None? ==>
              r == Some(Error(NotFound, "Order not found or not accessible"))
    ensures FirstWithKey(orders, OrderRef, (f.orderId, GR(f.gr))).Some? ==>
              var o := orders[FirstWithKey(orders, OrderRef, (f.orderId, GR(f.gr))).value];
              && (o.status != "committed" ==>
                    r == Some(Error(Conflict, "Can only create complaints for committed orders")))
              && (o.status == "committed" && !HasRecipe(o.recipes, f.recipe) ==>
                    r == Some(Error(Conflict, "Recipe not found in selected order")))
  {
    match FirstWithKey(orders, OrderRef, (f.orderId, GR(f.gr)))
    case None => Some(Error(NotFound, "Order not found or not accessible"))
    case Some(i) =>
      if orders[i].status != "committed" then
        Some(Error(Conflict, "Can only create complaints for committed orders"))
      else if !HasRecipe(orders[i].recipes, f.recipe) then
        Some(Error(Conflict, "Recipe not found in selected order"))
      else
        None
  }

  /** `create_complaint`: the form checks, the order checks, then the new
      complaint (already "resolved") and its event are appended. */
  function CreateComplaint(st: Store, env: Env, f: ComplaintForm): (r: Result<(Store, Complaint)>)
    ensures r.Ok? <==> FormProblem(f).None? && OrderProblem(st.orders, f).None?
    ensures FormProblem(f).Some? ==> r == Err(FormProblem(f).value)
    ensures FormProblem(f).None? && OrderProblem(st.orders, f).Some? ==> r == Err(OrderProblem(st.orders, f).value)
    ensures r.Ok? ==> && r.value.0.complaints == st.complaints + [r.value.1]
                      && r.value.0.orders == st.orders && r.value.0.customers == st.customers
                      && r.value.0.subscriptions == st.subscriptions && r.value.0.messages == st.messages
                      && r.value.0.customersByGr == st.customersByGr && r.value.0.messagesByGr == st.messagesByGr
                      && r.value.0.subscriptionsByGr == st.subscriptionsByGr
                      && r.value.0.activity == st.activity + [ComplaintCreatedEvent(f, env, f.amount.pence)]
    ensures r.Ok? ==> r.value.1 == NewComplaint(f, env, f.amount.pence) && r.value.1.compensation >= 0
  {
    if FormProblem(f).Some? then
      Err(FormProblem(f).value)
    else if OrderProblem(st.orders, f).Some? then
      Err(OrderProblem(st.orders, f).value)
    else
      var pence := f.amount.pence;
      var c := NewComplaint(f, env, pence);
      Ok((st.(complaints := st.complaints + [c], activity := st.activity + [ComplaintCreatedEvent(f, env, pence)]), c))
  }

  /** A complaint is only ever logged against a committed order of the same
      account that lists the recipe. */
  lemma CreateComplaintNeedsCommittedOrder(st: Store, env: Env, f: ComplaintForm)
    requires CreateComplaint(st, env, f).Ok?
    ensures exists k :: && 0 <= k < |st.orders| && st.orders[k].orderId == f.orderId
                        && GR(st.orders[k].gr) == GR(f.gr) && st.orders[k].status == "committed"
                        && HasRecipe(st.orders[k].recipes, f.recipe)
  {
    var i := FirstWithKey(st.orders, OrderRef, (f.orderId, GR(f.gr))).value;
    assert OrderRef(st.orders[i]) == (f.orderId, GR(f.gr));
  }

  /** A new complaint under an identifier no stored complaint has keeps the
      store consistent. */
  lemma CreateComplaintValid(st: Store, env: Env, f: ComplaintForm)
    requires Valid(st) && CreateComplaint(st, env, f).Ok?
    requires forall k :: 0 <= k < |st.complaints| ==> st.complaints[k].complaintId != ComplaintIdFor(env)
    ensures Valid(CreateComplaint(st, env, f).value.0)
  {
    AppendKeepsUnique(st.complaints, ComplaintIdOf, CreateComplaint(st, env, f).value.1);
  }

  /** The position of the account's first complaint with the identifier. */
  function FindComplaint(cs: seq<Complaint>, complaintId: string, gr: string): (r: Option<nat>)
    ensures r.Some? ==> r.value < |cs| && cs[r.value].complaintId == complaintId && GR(cs[r.value].gr) == GR(gr)
  {
    FirstWithKey(cs, ComplaintRef, (complaintId, GR(gr)))
  }

  /** A complaint is found exactly when one with the identifier belongs to
      the account, and the first such is the one found. */
  lemma FindComplaintIff(cs: seq<Complaint>, complaintId: string, gr: string)
    ensures FindComplaint(cs, complaintId, gr).Some? <==>
              exists k :: 0 <= k < |cs| && cs[k].complaintId == complaintId && GR(cs[k].gr) == GR(gr)
    ensures FindComplaint(cs, complaintId, gr).Some? ==>
              forall j :: 0 <= j < FindComplaint(cs, complaintId, gr).value ==>
                cs[j].complaintId != complaintId || GR(cs[j].gr) != GR(gr)
  {
    if FindComplaint(cs, complaintId, gr).None? {
      forall k | 0 <= k < |cs|
        ensures cs[k].complaintId != complaintId || GR(cs[k].gr) != GR(gr)
      {
        assert ComplaintRef(cs[k]) != (complaintId, GR(gr));
      }
    }
    else {
      var i := FindComplaint(cs, complaintId, gr).value;
      forall j | 0 <= j < i
        ensures cs[j].complaintId != complaintId || GR(cs[j].gr) != GR(gr)
      {
        assert ComplaintRef(cs[j]) != (complaintId, GR(gr));
      }
    }
  }

  // ---------------------------------------------------------------------------
  // Editing
  // ---------------------------------------------------------------------------

  /** `compensation_amount` in the edit form: absent, a value `float()`
      reads (in pence; a negative amount is not refused here), or one it
      refuses (`null`, a list or object, unreadable text). */
  datatype AmountEdit = Kept | Amount(pence: int) | Refused

  /** The edit form: the complaint's identifier and account, and each
      editable field when its key is present. */
  datatype ComplaintEdit = ComplaintEdit(
    complaintId: string,
    gr: string,
    description: Option<string>,
    compensationType: Option<string>,
    amount: AmountEdit,
    status: Option<string>)

  /** The complaint with the edit applied and the modification stamped. */
  function Edited(c: Complaint, e: ComplaintEdit, env: Env): (r: Complaint)
    ensures r.complaintId == c.complaintId && r.gr == c.gr && r.orderId == c.orderId && r.recipe == c.recipe
    ensures r.date == c.date && r.createdBy == c.createdBy
    ensures r.issue == e.description.GetOr(c.issue)
    ensures r.compensationType == e.compensationType.GetOr(c.compensationType)
    ensures r.compensation == (if e.amount.Amount? then e.amount.pence else c.compensation)
    ensures r.status == e.status.GetOr(c.status)
    ensures r.modifiedDate == Some(env.now) && r.modifiedBy == Some("admin")
  {
    c.(issue := e.description.GetOr(c.issue),
       compensationType := e.compensationType.GetOr(c.compensationType),
       compensation := if e.amount.Amount? then e.amount.pence else c.compensation,
       status := e.status.GetOr(c.status),
       modifiedDate := Some(env.now),
       modifiedBy := Some("admin"))
  }

  function ComplaintUpdatedEvent(e: ComplaintEdit, env: Env): Event {
    Event(e.gr, env.now, "complaint_updated", "admin", "Complaint modified",
          "Complaint " + e.complaintId + " updated", None, None)
  }

  /** `update_complaint`: the account's first complaint with the
      identifier takes the edit; an event is logged on every success. An
      amount `float()` refuses only raises once the complaint is found. */
  function UpdateComplaint(st: Store, env: Env, e: ComplaintEdit): (r: Result<(Store, Complaint)>)
    ensures e.complaintId == "" || e.gr == "" ==> r == Err(Error(Validation, "Missing complaint ID or GR"))
    ensures e.complaintId != "" && e.gr != "" ==>
              (r.Ok? <==> FindComplaint(st.complaints, e.complaintId, e.gr).Some? && !e.amount.Refused?)
    ensures e.complaintId != "" && e.gr != "" && FindComplaint(st.complaints, e.complaintId, e.gr).None? ==>
              r == Err(Error(NotFound, "Complaint not found"))
    ensures e.complaintId != "" && e.gr != "" && e.amount.Refused?
            && FindComplaint(st.complaints, e.complaintId, e.gr).Some? ==>
              r == Err(Error(Internal, "Server error"))
    ensures r.Ok? ==> && |r.value.0.complaints| == |st.complaints|
                      && r.value.0.activity == st.activity + [ComplaintUpdatedEvent(e, env)]
                      && r.value.0.orders == st.orders && r.value.0.customers == st.customers
                      && r.value.0.subscriptions == st.subscriptions && r.value.0.messages == st.messages
                      && r.value.0.customersByGr == st.customersByGr && r.value.0.messagesByGr == st.messagesByGr
                      && r.value.0.subscriptionsByGr == st.subscriptionsByGr
  {
    if e.complaintId == "" || e.gr == "" then
      Fail(Validation, "Missing complaint ID or GR")
    else
      match FindComplaint(st.complaints, e.complaintId, e.gr)
      case None => Fail(NotFound, "Complaint not found")
      case Some(i) =>
        if e.amount.Refused? then
          Fail(Internal, "Server error")
        else
          var c := Edited(st.complaints[i], e, env);
          Ok((Replaced(st, i, c, ComplaintUpdatedEvent(e, env)), c))
  }

  /** The store with complaint `i` replaced, with the edit logged. */
  function Replaced(st: Store, i: nat, c: Complaint, ev: Event): Store
    requires i < |st.complaints|
  {
    st.(complaints := st.complaints[i := c], activity := st.activity + [ev])
  }

  /** Exactly the matched complaint changes, and it changes as edited. */
  lemma UpdateComplaintEffect(st: Store, env: Env, e: ComplaintEdit)
    requires UpdateComplaint(st, env, e).Ok?
    ensures var i := FindComplaint(st.complaints, e.complaintId, e.gr).value;
            var (st', c) := UpdateComplaint(st, env, e).value;
            && st.complaints[i].complaintId == e.complaintId && GR(st.complaints[i].gr) == GR(e.gr)
            && c == Edited(st.complaints[i], e, env)
            && st'.complaints == st.complaints[i := c]
            && (forall k :: 0 <= k < |st.complaints| && k != i ==> st'.complaints[k] == st.complaints[k])
  {
    var i := FindComplaint(st.complaints, e.complaintId, e.gr).value;
    var c := Edited(st.complaints[i], e, env);
    assert st.complaints[i].complaintId == e.complaintId && GR(st.complaints[i].gr) == GR(e.gr);
    assert UpdateComplaint(st, env, e).value == (Replaced(st, i, c, ComplaintUpdatedEvent(e, env)), c);
  }

  /** An edit keeps the store consistent. */
  lemma UpdateComplaintValid(st: Store, env: Env, e: ComplaintEdit)
    requires Valid(st) && UpdateComplaint(st, env, e).Ok?
    ensures Valid(UpdateComplaint(st, env, e).value.0)
  {
    var i := FindComplaint(st.complaints, e.complaintId, e.gr).value;
    ReplaceKeepsUnique(st.complaints, ComplaintIdOf, i, Edited(st.complaints[i], e, env));
  }

  // ---------------------------------------------------------------------------
  // Deleting
  // ---------------------------------------------------------------------------

  function ComplaintDeletedEvent(c: Complaint, gr: string, env: Env): Event {
    Event(gr, env.now, "complaint_deleted", "admin", "Complaint deleted",
          "Complaint " + c.complaintId + " permanently removed (£" + FormatPounds(c.compensation) + " "
          + c.compensationType + ")", None, None)
  }

  /** `delete_complaint`: the account's first complaint with the
      identifier is removed and the removal logged with its amount. */
  function DeleteComplaint(st: Store, env: Env, complaintId: string, gr: string): (r: Result<Store>)
    ensures complaintId == "" || gr == "" ==> r == Err(Error(Validation, "Missing complaint ID or GR"))
    ensures complaintId != "" && gr != "" ==>
              (r.Ok? <==> FindComplaint(st.complaints, complaintId, gr).Some?)
    ensures complaintId != "" && gr != "" && FindComplaint(st.complaints, complaintId, gr).None? ==>
              r == Err(Error(NotFound, "Complaint not found"))
    ensures r.Ok? ==> && |r.value.complaints| == |st.complaints| - 1
                      && |r.value.activity| == |st.activity| + 1
                      && r.value.activity[..|st.activity|] == st.activity
                      && r.value.orders == st.orders && r.value.customers == st.customers
                      && r.value.subscriptions == st.subscriptions && r.value.messages == st.messages
                      && r.value.customersByGr == st.customersByGr && r.value.messagesByGr == st.messagesByGr
                      && r.value.subscriptionsByGr == st.subscriptionsByGr
  {
    if complaintId == "" || gr == "" then
      Fail(Validation, "Missing complaint ID or GR")
    else
      match FindComplaint(st.complaints, complaintId, gr)
      case None => Fail(NotFound, "Complaint not found")
      case Some(i) =>
        Ok(Removed(st, i, ComplaintDeletedEvent(st.complaints[i], gr, env)))
  }

  /** The store without complaint `i`, with the removal logged. */
  function Removed(st: Store, i: nat, ev: Event): Store
    requires i < |st.complaints|
  {
    st.(complaints := st.complaints[..i] + st.complaints[i + 1..], activity := st.activity + [ev])
  }

  /** Exactly the matched complaint leaves the list; the others keep their
      order. */
  lemma DeleteComplaintEffect(st: Store, env: Env, complaintId: string, gr: string)
    requires DeleteComplaint(st, env, complaintId, gr).Ok?
    ensures var i := FindComplaint(st.complaints, complaintId, gr).value;
            var st' := DeleteComplaint(st, env, complaintId, gr).value;
            && st'.complaints == st.complaints[..i] + st.complaints[i + 1..]
            && multiset(st'.complaints) + multiset{st.complaints[i]} == multiset(st.complaints)
            && st'.activity == st.activity + [ComplaintDeletedEvent(st.complaints[i], gr, env)]
  {
    var i := FindComplaint(st.complaints, complaintId, gr).value;
    RemoveAt(st.complaints, i);
  }

  /** A deletion keeps the store consistent. */
  lemma DeleteComplaintValid(st: Store, env: Env, complaintId: string, gr: string)
    requires Valid(st) && DeleteComplaint(st, env, complaintId, gr).Ok?
    ensures Valid(DeleteComplaint(st, env, complaintId, gr).value)
  {
    var i := FindComplaint(st.complaints, complaintId, gr).value;
    RemoveKeepsUnique(st.complaints, ComplaintIdOf, i);
  }

  /** In a consistent store a deleted complaint is gone: deleting it again
      finds nothing. */
  lemma DeleteTwiceNotFound(st: Store, env: Env, env': Env, complaintId: string, gr: string)
    requires Valid(st) && DeleteComplaint(st, env, complaintId, gr).Ok?
    ensures DeleteComplaint(DeleteComplaint(st, env, complaintId, gr).value, env', complaintId, gr)
            == Err(Error(NotFound, "Complaint not found"))
  {
    var i := FindComplaint(st.complaints, complaintId, gr).value;
    var st' := Removed(st, i, ComplaintDeletedEvent(st.complaints[i], gr, env));
    assert DeleteComplaint(st, env, complaintId, gr).value == st';
    FindRemoved(st.complaints, i, gr);
    assert FindComplaint(st'.complaints, complaintId, gr).None?;
  }

  /** With unique identifiers, a removed complaint's identifier is found
      nowhere in what remains. */
  lemma FindRemoved(cs: seq<Complaint>, i: nat, gr: string)
    requires UniqueKeys(cs, ComplaintIdOf) && i < |cs|
    ensures FindComplaint(cs[..i] + cs[i + 1..], cs[i].complaintId, gr).None?
  {
    var rest := cs[..i] + cs[i + 1..];
    RemoveAt(cs, i);
    assert forall k :: 0 <= k < |rest| ==> rest[k].complaintId != cs[i].complaintId;
    FindComplaintIff(rest, cs[i].complaintId, gr);
  }

  /** A complaint appended under a fresh identifier is the one found for
      that identifier and its own account. */
  lemma FindAppended(cs: seq<Complaint>, c: Complaint)
    requires forall k :: 0 <= k < |cs| ==> cs[k].complaintId != c.complaintId
    ensures FindComplaint(cs + [c], c.complaintId, c.gr) == Some(|cs|)
  {
    var s := cs + [c];
    var r := FindComplaint(s, c.complaintId, c.gr);
    assert s[|cs|] == c;
    assert r.Some? by {
      FindComplaintIff(s, c.complaintId, c.gr);
    }
    assert r.value == |cs|;
  }

  /** Deleting a complaint just created, under a fresh identifier, gives
      back the complaint list as it was. */
  lemma CreateThenDelete(st: Store, env: Env, env': Env, f: ComplaintForm)
    requires CreateComplaint(st, env, f).Ok?
    requires forall k :: 0 <= k < |st.complaints| ==> st.complaints[k].complaintId != ComplaintIdFor(env)
    requires ComplaintIdFor(env) != ""
    ensures var st1 := CreateComplaint(st, env, f).value.0;
            DeleteComplaint(st1, env', ComplaintIdFor(env), f.gr).Ok?
            && DeleteComplaint(st1, env', ComplaintIdFor(env), f.gr).value.complaints == st.complaints
  {
    var (st1, c) := CreateComplaint(st, env, f).value;
    var n := |st.complaints|;
    assert st1.complaints[n] == c;
    FindAppended(st.complaints, c);
    assert st1.complaints[..n] + st1.complaints[n + 1..] == st.complaints;
  }
}

=== FILE: email.dfy ===
/** The address check of the personal-details form: the pattern
    `^[a-zA-Z0-9._+-]+@[a-zA-Z0-9.-]+\.[a-zA-Z]{2,}` applied with
    `re.match`, which anchors at the start only, so anything may follow a
    matching prefix. `Matches` states the pattern as a split of the text;
    `Accepts` decides it by a left-to-right scan, and the two agree. */
module Email {
  import opened Text

  predicate LocalChar(c: char) {
    IsAsciiLetter(c) || IsDigit(c) || c == '.' || c == '_' || c == '+' || c == '-'
  }

  predicate DomainChar(c: char) {
    IsAsciiLetter(c) || IsDigit(c) || c == '.' || c == '-'
  }

  /** The pattern matches with the `@` at `i` and the final-label dot at `j`:
      a non-empty local part, a non-empty domain part, a dot and two
      letters (`{2,}` needs no more than two to match a prefix). */
  predicate SplitsAt(s: string, i: int, j: int) {
    && 1 <= i && i + 1 < j && j + 2 < |s|
    && (forall m :: 0 <= m < i ==> LocalChar(s[m]))
    && s[i] == '@'
    && (forall m :: i < m < j ==> DomainChar(s[m]))
    && s[j] == '.'
    && IsAsciiLetter(s[j + 1]) && IsAsciiLetter(s[j + 2])
  }

  ghost predicate Matches(s: string) {
    exists i, j :: SplitsAt(s, i, j)
  }

  /** The length of the longest prefix of local-part characters. */
  function LocalEnd(s: string): (n: nat)
    ensures n <= |s|
    ensures forall m :: 0 <= m < n ==> LocalChar(s[m])
    ensures n < |s| ==> !LocalChar(s[n])
  {
    if s == [] || !LocalChar(s[0]) then 0 else 1 + LocalEnd(s[1..])
  }

  /** A non-empty run of domain characters from `lo` ends at a dot at `j`
      that two letters follow. */
  predicate DomainThenDot(s: string, lo: int, j: int) {
    && 0 <= lo < j && j + 2 < |s|
    && (forall m :: lo <= m < j ==> DomainChar(s[m]))
    && s[j] == '.'
    && IsAsciiLetter(s[j + 1]) && IsAsciiLetter(s[j + 2])
  }

  /** Looks for the dot and two letters at or after `k`, every character
      from `lo` up to the dot being a domain character. */
  function DomainScan(s: string, lo: nat, k: nat): (b: bool)
    requires lo <= k <= |s|
    requires forall m :: lo <= m < k ==> DomainChar(s[m])
    ensures b <==> exists j :: k <= j && DomainThenDot(s, lo, j)
    decreases |s| - k
  {
    if k + 2 >= |s| then
      false
    else if lo < k && s[k] == '.' && IsAsciiLetter(s[k + 1]) && IsAsciiLetter(s[k + 2]) then
      assert DomainThenDot(s, lo, k);
      true
    else if DomainChar(s[k]) then
      DomainScan(s, lo, k + 1)
    else
      false
  }

  /** `re.match(pattern, s)` succeeds. */
  function Accepts(s: string): (b: bool)
    ensures b <==> Matches(s)
  {
    AcceptsIffMatches(s);
    Scan(s)
  }

  function Scan(s: string): bool {
    var i := LocalEnd(s);
    0 < i < |s| && s[i] == '@' && DomainScan(s, i + 1, i + 1)
  }

  lemma AcceptsIffMatches(s: string)
    ensures Scan(s) <==> Matches(s)
  {
    var i := LocalEnd(s);
    if Scan(s) {
      var j :| i + 1 <= j && DomainThenDot(s, i + 1, j);
      assert SplitsAt(s, i, j);
    }
    if Matches(s) {
      var i', j :| SplitsAt(s, i', j);
      SplitAtLocalEnd(s, i', j);
      assert DomainThenDot(s, i + 1, j);
    }
  }

  /** The `@` of any match sits where the local-part characters end. */
  lemma SplitAtLocalEnd(s: string, i: int, j: int)
    requires SplitsAt(s, i, j)
    ensures i == LocalEnd(s)
  {
    var n := LocalEnd(s);
    assert !LocalChar(s[i]);
    assert n < |s| ==> !LocalChar(s[n]);
  }

  /** A text the pattern accepts holds an `@`, so the pattern check never
      accepts what the earlier `@` check rejects. */
  lemma AcceptedHasAt(s: string)
    requires Accepts(s)
    ensures '@' in s
  {
    var i, j :| SplitsAt(s, i, j);
    assert s[i] == '@';
  }

  lemma AcceptsExample()
    ensures Accepts("j.o+x@a-b.cd")
  {
    var s := "j.o+x@a-b.cd";
    assert forall m :: 0 <= m < 5 ==> LocalChar(s[m]) by {
      assert s[..5] == "j.o+x";
    }
    assert SplitsAt(s, 5, 9);
  }

  /** Only a prefix has to match: text after the two letters is allowed. */
  lemma TrailingTextExample()
    ensures Accepts("a@b.cd!!")
  {
    assert SplitsAt("a@b.cd!!", 1, 3);
  }

  /** Without a dot after the `@`, or without a local part, no match. */
  lemma RejectsExample()
    ensures !Accepts("jo@example")
    ensures !Accepts("@example.com")
  {
    var s := "jo@example";
    assert forall m :: 0 <= m < |s| ==> s[m] != '.';
    var t := "@example.com";
    assert !LocalChar(t[0]);
  }
}

=== FILE: normalise.dfy ===
/** The two normalisers every lookup goes through: `GR` for account
    identifiers (all matching and index keys) and `norm` for the free-text
    search of the dashboard. An absent value (Python's `None`) is the empty
    string here, as `(s or "")` makes it in the source. */
module Normalise {
  import opened Text

  /** `GR(s)`: strip surrounding whitespace, then upper-case. */
  function GR(s: string): (r: string)
    ensures Trimmed(r)
    ensures Upper(r) == r
  {
    TrimmedCase(Strip(s));
    UpperIdempotent(Strip(s));
    Upper(Strip(s))
  }

  /** `norm(s)`: strip, lower-case, drop every blank. */
  function Norm(s: string): (r: string)
    ensures forall k :: 0 <= k < |r| ==> r[k] != ' '
  {
    RemoveBlanks(Lower(Strip(s)))
  }

  /** Normalising an identifier twice is normalising it once. */
  lemma GRIdempotent(s: string)
    ensures GR(GR(s)) == GR(s)
  {
    StripFixesTrimmed(GR(s));
  }

  /** Identifiers that differ only in letter case name the same account. */
  lemma GRIgnoresCase(s: string)
    ensures GR(Upper(s)) == GR(s)
    ensures GR(Lower(s)) == GR(s)
  {
    StripUpper(s);
    StripLower(s);
    UpperIdempotent(Strip(s));
    CaseMapsAbsorb(Strip(s));
  }

  /** Identifiers that differ only in surrounding whitespace name the same
      account. */
  lemma GRIgnoresMargins(a: string, s: string, b: string)
    requires AllSpace(a) && AllSpace(b)
    ensures GR(a + s + b) == GR(s)
  {
    StripMargins(a, s, b);
  }

  /** The search text of a query does not depend on its letter case. */
  lemma NormIgnoresCase(s: string)
    ensures Norm(Upper(s)) == Norm(s)
    ensures Norm(Lower(s)) == Norm(s)
  {
    StripUpper(s);
    StripLower(s);
    CaseMapsAbsorb(Strip(s));
    LowerIdempotent(Strip(s));
  }

  /** Normalising search text twice is normalising it once. */
  lemma NormIdempotent(s: string)
    ensures Norm(Norm(s)) == Norm(s)
  {
    var l := Lower(Strip(s));
    var n := RemoveBlanks(l);
    TrimmedCase(Strip(s));
    TrimmedRemoveBlanks(l);
    StripFixesTrimmed(n);
    assert Strip(n) == n;
    LowerIdempotent(Strip(s));
    LowerOfBlankFree(l);
    assert Lower(n) == n;
    KeepAll(n, NotBlank);
  }

  lemma LowerOfBlankFree(l: string)
    requires Lower(l) == l
    ensures Lower(RemoveBlanks(l)) == RemoveBlanks(l)
  {
    forall c: char
      ensures NotBlank(LowerChar(c)) <==> NotBlank(c)
    {
    }
    KeepMap(l, NotBlank, LowerChar);
  }
}

=== FILE: numbers.dfy ===
/** Decimal text for integers: Python's `str(n)` and `int(s)` on base-10
    text, and the `:.2f` rendering of an amount held in pence. */
module Numbers {
  import opened Text
  import opened Results

  function DigitChar(d: nat): char
    requires d < 10
  {
    ('0' as int + d) as char
  }

  function DigitValue(c: char): nat
    requires IsDigit(c)
  {
    c as int - '0' as int
  }

  /** `str(n)` for a natural number. */
  function NatToString(n: nat): (r: string)
    ensures r != [] && AllDigits(r)
    decreases n
  {
    if n < 10 then [DigitChar(n)] else NatToString(n / 10) + [DigitChar(n % 10)]
  }

  /** The value of a string of decimal digits (leading zeros allowed). */
  function DigitsValue(s: string): nat
    requires AllDigits(s)
    decreases |s|
  {
    if s == [] then 0 else DigitsValue(s[..|s| - 1]) * 10 + DigitValue(s[|s| - 1])
  }

  lemma {:induction false} NatToStringRoundTrip(n: nat)
    ensures DigitsValue(NatToString(n)) == n
    decreases n
  {
    if n >= 10 {
      var s := NatToString(n);
      assert s[..|s| - 1] == NatToString(n / 10);
      NatToStringRoundTrip(n / 10);
    }
  }

  /** `str(n)`. */
  function IntToString(n: int): (r: string)
    ensures r != [] && Trimmed(r)
  {
    if n < 0 then "-" + NatToString(-n) else NatToString(n)
  }

  /** `int(s)` for a `str` argument: surrounding whitespace, an optional sign
      and at least one ASCII digit; anything else is Python's ValueError,
      here `None`. */
  function ParseInt(s: string): Option<int> {
    ParseLiteral(Strip(s))
  }

  /** `int(t)` once the surrounding whitespace is gone. */
  function ParseLiteral(t: string): Option<int> {
    if t == [] then
      None
    else if t[0] == '-' || t[0] == '+' then
      var body := t[1..];
      if body != [] && AllDigits(body) then
        var v: int := DigitsValue(body);
        Some(if t[0] == '-' then -v else v)
      else
        None
    else if AllDigits(t) then
      Some(DigitsValue(t))
    else
      None
  }

  lemma ParseNatText(n: nat)
    ensures ParseInt(NatToString(n)) == Some(n)
  {
    var s := NatToString(n);
    assert Trimmed(s) by {
      assert IsDigit(s[0]) && IsDigit(s[|s| - 1]);
    }
    StripFixesTrimmed(s);
    LiteralNat(s);
    NatToStringRoundTrip(n);
  }

  lemma LiteralNat(s: string)
    requires s != [] && AllDigits(s)
    ensures ParseLiteral(s) == Some(DigitsValue(s) as int)
  {
    assert IsDigit(s[0]);
  }

  lemma LiteralNegative(d: string)
    requires d != [] && AllDigits(d)
    ensures Trimmed("-" + d)
    ensures ParseLiteral("-" + d) == Some(-(DigitsValue(d) as int))
  {
    var s := "-" + d;
    assert s[0] == '-';
    assert s[|s| - 1] == d[|d| - 1];
    assert s[1..] == d;
  }

  lemma ParseNegative(d: string)
    requires d != [] && AllDigits(d)
    ensures ParseInt("-" + d) == Some(-(DigitsValue(d) as int))
  {
    LiteralNegative(d);
    StripFixesTrimmed("-" + d);
  }

  /** `int(str(n)) == n`. */
  lemma ParseIntRoundTrip(n: int)
    ensures ParseInt(IntToString(n)) == Some(n)
  {
    if n < 0 {
      ParseNegative(NatToString(-n));
      NatToStringRoundTrip(-n);
    } else {
      ParseNatText(n);
    }
  }

  /** `f"{amount:.2f}"` for an amount held in pence. */
  function FormatPounds(pence: int): string {
    var a: nat := if pence < 0 then -pence else pence;
    (if pence < 0 then "-" else "") + NatToString(a / 100) + "."
    + [DigitChar(a % 100 / 10), DigitChar(a % 10)]
  }
}

=== FILE: orders.dfy ===
/** Creating and cancelling orders. A generated order is priced from a
    fixed recipe price list, enters the store as "pending" and is logged;
    only a pending order can be cancelled, which removes it outright and
    logs the refund amount. */
module Orders {
  import opened Results
  import opened Numbers
  import opened Seqs
  import opened Normalise
  import opened Records
  import opened Payments

  // ---------------------------------------------------------------------------
  // Generating an order
  // ---------------------------------------------------------------------------

  /** How the requested delivery date compares with the clock: not a
      `%Y-%m-%d` date, earlier than three days from now, or acceptable.
      Parsing the date and reading the clock are outside the model; the
      caller supplies the verdict. */
  datatype DateVerdict = Malformed | TooSoon | Acceptable

  /** The JSON body; `deliveryDate` is `None` when the key is absent and
      an absent recipe list is empty. */
  datatype OrderForm = OrderForm(gr: string, deliveryDate: Option<string>, boxSize: Scalar, recipes: seq<RecipeEntry>)

  /** The price list, per recipe and per box, in pence. */
  function RecipePrice(id: string): (r: Option<nat>)
    ensures r.Some? ==> 599 <= r.value <= 899
  {
    match id
    case "honey-garlic-chicken" => Some(699)
    case "beef-tacos" => Some(749)
    case "salmon-teriyaki" => Some(899)
    case "vegetarian-curry" => Some(599)
    case "pasta-carbonara" => Some(649)
    case "thai-green-curry" => Some(799)
    case "mushroom-risotto" => Some(699)
    case _ => None
  }

  /** What one recipe entry adds to the running total: its price times the
      box size, nothing for an id the list does not know. */
  function LinePrice(e: RecipeEntry, box: nat): nat {
    match e
    case RecipeObj(id, _) => RecipePrice(id).GetOr(0) * box
    case RecipeText(_) => 0
  }

  /** The loop `for recipe in recipes: total += price * box_size`. */
  function Total(rs: seq<RecipeEntry>, box: nat): (r: nat)
    ensures r <= (899 * box) * |rs|
  {
    if rs == [] then 0
    else
      var rest := Total(rs[1..], box);
      LineBound(rs[0], box);
      MulSucc(899 * box, |rs| - 1);
      LinePrice(rs[0], box) + rest
  }

  lemma LineBound(e: RecipeEntry, box: nat)
    ensures LinePrice(e, box) <= 899 * box
  {
    if e.RecipeObj? {
      MulMono(RecipePrice(e.id).GetOr(0), 899, box);
    }
  }

  lemma MulMono(a: nat, b: nat, c: nat)
    requires a <= b
    ensures a * c <= b * c
  {
  }

  lemma MulSucc(a: nat, n: nat)
    ensures a * (n + 1) == a * n + a
  {
  }

  /** The sum of the known prices, once per entry. */
  function PriceSum(rs: seq<RecipeEntry>): nat {
    if rs == [] then 0 else LinePrice(rs[0], 1) + PriceSum(rs[1..])
  }

  /** The loop's total is the box size times the sum of the prices. */
  lemma {:induction false} TotalFactors(rs: seq<RecipeEntry>, box: nat)
    ensures Total(rs, box) == box * PriceSum(rs)
  {
    if rs != [] {
      TotalFactors(rs[1..], box);
      LineFactors(rs[0], box);
      MulDistributes(box, LinePrice(rs[0], 1), PriceSum(rs[1..]));
    }
  }

  lemma LineFactors(e: RecipeEntry, box: nat)
    ensures LinePrice(e, box) == box * LinePrice(e, 1)
  {
  }

  lemma MulDistributes(a: nat, x: nat, y: nat)
    ensures a * (x + y) == a * x + a * y
  {
  }

  /** `box_size`: a whole number from 1 to 5; JSON `true` passes Python's
      `isinstance(box_size, int)` as 1. */
  function BoxSize(v: Scalar): (r: Option<nat>)
    ensures r.Some? ==> 1 <= r.value <= 5
    ensures v.Int? ==> (r.Some? <==> 1 <= v.i <= 5)
    ensures v.Int? && r.Some? ==> r.value == v.i
    ensures v.Null? || v.Text? || v.Compound? ==> r.None?
  {
    match v
    case Int(i) => if 1 <= i <= 5 then Some(i) else None
    case Bool(b) => if b then Some(1) else None
    case _ => None
  }

  predicate IsText(e: RecipeEntry) {
    e.RecipeText?
  }

  function OrderIdFor(env: Env): string {
    "ORD-" + env.dateStamp + "-" + env.token
  }

  /** The order the form describes, once every check has passed. */
  function NewOrder(f: OrderForm, env: Env, date: string, box: nat): (o: Order)
    ensures o.gr == f.gr && o.orderId == OrderIdFor(env) && o.status == "pending"
    ensures o.boxSize == box && o.recipes == f.recipes
    ensures o.payment == box * PriceSum(f.recipes)
  {
    TotalFactors(f.recipes, box);
    Order(f.gr, OrderIdFor(env), date + "T12:00:00Z", "pending", box, f.recipes, Total(f.recipes, box), None)
  }

  function OrderCreatedEvent(f: OrderForm, env: Env, date: string): Event {
    Event(f.gr, env.now, "order_created", "admin", "Order generated",
          "Order " + OrderIdFor(env) + " created for " + date, None, None)
  }

  /** Every check `generate_order` makes, as one condition. */
  predicate OrderAcceptable(verdict: DateVerdict, f: OrderForm) {
    && f.gr != "" && f.deliveryDate.Some? && verdict == Acceptable
    && BoxSize(f.boxSize).Some? && 2 <= |f.recipes| <= 5
    && (forall k :: 0 <= k < |f.recipes| ==> !IsText(f.recipes[k]))
  }

  /** The first check that fails, in the handler's order. An absent date
      makes `strptime` raise a TypeError, and a recipe entry that is not an
      object makes `.get` raise; both are answered as server errors. */
  function OrderProblem(verdict: DateVerdict, f: OrderForm): (r: Option<Error>)
    ensures r.None? <==> OrderAcceptable(verdict, f)
    ensures f.gr == "" ==> r == Some(Error(Validation, "No GR provided"))
    ensures f.gr != "" && f.deliveryDate.None? ==> r == Some(Error(Internal, "Server error"))
    ensures f.gr != "" && f.deliveryDate.Some? ==>
              && (verdict == Malformed ==> r == Some(Error(Validation, "Invalid delivery date format")))
              && (verdict == TooSoon ==>
                    r == Some(Error(Validation, "Delivery date must be at least 3 days from today")))
    ensures f.gr != "" && f.deliveryDate.Some? && verdict == Acceptable ==>
              && (BoxSize(f.boxSize).None? ==> r == Some(Error(Validation, "Invalid box size")))
              && (BoxSize(f.boxSize).Some? && !(2 <= |f.recipes| <= 5) ==>
                    r == Some(Error(Validation, "Must select between 2-5 recipes")))
              && (BoxSize(f.boxSize).Some? && 2 <= |f.recipes| <= 5
                  && (exists k :: 0 <= k < |f.recipes| && IsText(f.recipes[k])) ==>
                    r == Some(Error(Internal, "Server error")))
  {
    if f.gr == "" then
      Some(Error(Validation, "No GR provided"))
    else if f.deliveryDate.None? then
      Some(Error(Internal, "Server error"))
    else if verdict == Malformed then
      Some(Error(Validation, "Invalid delivery date format"))
    else if verdict == TooSoon then
      Some(Error(Validation, "Delivery date must be at least 3 days from today"))
    else if BoxSize(f.boxSize).None? then
      Some(Error(Validation, "Invalid box size"))
    else if |f.recipes| < 2 || |f.recipes| > 5 then
      Some(Error(Validation, "Must select between 2-5 recipes"))
    else if exists k :: 0 <= k < |f.recipes| && IsText(f.recipes[k]) then
      Some(Error(Internal, "Server error"))
    else
      None
  }

  /** Appends the new order and its event. */
  function PlaceOrder(st: Store, env: Env, date: string, box: nat, f: OrderForm): (r: (Store, Order))
    ensures |r.0.orders| == |st.orders| + 1 && r.0.orders[..|st.orders|] == st.orders
    ensures r.0.orders[|st.orders|] == r.1
    ensures && r.1.gr == f.gr && r.1.orderId == OrderIdFor(env) && r.1.status == "pending"
            && r.1.boxSize == box && r.1.recipes == f.recipes && r.1.payment == box * PriceSum(f.recipes)
    ensures r.0.activity == st.activity + [OrderCreatedEvent(f, env, date)]
    ensures && r.0.customers == st.customers && r.0.complaints == st.complaints
            && r.0.subscriptions == st.subscriptions && r.0.messages == st.messages
            && r.0.customersByGr == st.customersByGr && r.0.messagesByGr == st.messagesByGr
            && r.0.subscriptionsByGr == st.subscriptionsByGr
  {
    var o := NewOrder(f, env, date, box);
    (st.(orders := st.orders + [o], activity := st.activity + [OrderCreatedEvent(f, env, date)]), o)
  }

  /** `generate_order`: the checks, then the new order and its event. */
  function GenerateOrder(st: Store, env: Env, verdict: DateVerdict, f: OrderForm): (r: Result<(Store, Order)>)
    ensures r.Ok? <==> OrderAcceptable(verdict, f)
    ensures r.Err? ==> r.error == OrderProblem(verdict, f).value
    ensures r.Ok? ==> && r.value.0.orders == st.orders + [r.value.1]
                      && r.value.0.customers == st.customers && r.value.0.complaints == st.complaints
                      && r.value.0.subscriptions == st.subscriptions && r.value.0.messages == st.messages
                      && r.value.0.customersByGr == st.customersByGr && r.value.0.messagesByGr == st.messagesByGr
                      && r.value.0.subscriptionsByGr == st.subscriptionsByGr
                      && r.value.0.activity == st.activity + [OrderCreatedEvent(f, env, f.deliveryDate.value)]
    ensures r.Ok? ==> && r.value.1.status == "pending" && r.value.1.gr == f.gr
                      && r.value.1.orderId == OrderIdFor(env)
                      && r.value.1.payment == BoxSize(f.boxSize).value * PriceSum(f.recipes)
  {
    match OrderProblem(verdict, f)
    case Some(e) => Err(e)
    case None => Ok(PlaceOrder(st, env, f.deliveryDate.value, BoxSize(f.boxSize).value, f))
  }

  /** A new order under an identifier no stored order has keeps the store
      consistent. */
  lemma GenerateOrderValid(st: Store, env: Env, verdict: DateVerdict, f: OrderForm)
    requires Valid(st) && GenerateOrder(st, env, verdict, f).Ok?
    requires forall k :: 0 <= k < |st.orders| ==> st.orders[k].orderId != OrderIdFor(env)
    ensures Valid(GenerateOrder(st, env, verdict, f).value.0)
  {
    var o := GenerateOrder(st, env, verdict, f).value.1;
    AppendKeepsUnique(st.orders, OrderIdOf, o);
  }

  /** The new order shows on the account's payments page, as a pending
      payment of its price. */
  lemma GeneratedOrderIsPendingPayment(st: Store, env: Env, verdict: DateVerdict, f: OrderForm)
    requires GenerateOrder(st, env, verdict, f).Ok?
    ensures var (st', o) := GenerateOrder(st, env, verdict, f).value;
            && PaymentsFor(st', f.gr).Some?
            && EntryOf(o) in PaymentsFor(st', f.gr).value.log
            && EntryOf(o).status == "pending"
            && EntryOf(o).amount == o.payment
  {
    var (st', o) := GenerateOrder(st, env, verdict, f).value;
    assert st'.orders[|st.orders|] == o;
    NoneForAccount(st'.orders, GR(f.gr));
    PaymentsLogExact(st', f.gr, EntryOf(o));
    assert o in st'.orders;
  }

  lemma GenerateOrderPriceExample(env: Env)
    ensures var f := OrderForm("GR-001", Some("2030-01-10"), Int(2),
                               [RecipeObj("honey-garlic-chicken", None), RecipeObj("beef-tacos", None)]);
            var r := GenerateOrder(Load([], [], [], [], [], []), env, Acceptable, f);
            r.Ok? && r.value.1.payment == 2896
  {
    var rs := [RecipeObj("honey-garlic-chicken", None), RecipeObj("beef-tacos", None)];
    assert PriceSum(rs) == 1448 by {
      assert rs[1..] == [RecipeObj("beef-tacos", None)];
      assert rs[1..][1..] == [];
    }
  }

  // ---------------------------------------------------------------------------
  // Cancelling an order
  // ---------------------------------------------------------------------------

  function OrderDeletedEvent(o: Order, env: Env): Event {
    Event(o.gr, env.now, "order_deleted", "admin", "Order cancelled and removed",
          "Order " + o.orderId + " was cancelled and permanently removed (£" + FormatPounds(o.payment) + ")",
          None, None)
  }

  /** `cancel_order`: the first order with the identifier (compared as
      given) must be pending; it is removed, and the event is logged when
      the order names an account. */
  function CancelOrder(st: Store, env: Env, orderId: string): (r: Result<Store>)
    ensures orderId == "" ==> r == Err(Error(Validation, "Order ID is required"))
    ensures orderId != "" ==>
              (r.Ok? <==> exists k :: 0 <= k < |st.orders| && st.orders[k].orderId == orderId
                                      && FirstWithKey(st.orders, OrderIdOf, orderId) == Some(k)
                                      && st.orders[k].status == "pending")
    ensures orderId != "" && FirstWithKey(st.orders, OrderIdOf, orderId).None? ==>
              r == Err(Error(NotFound, "Order not found"))
    ensures orderId != "" && FirstWithKey(st.orders, OrderIdOf, orderId).Some?
            && st.orders[FirstWithKey(st.orders, OrderIdOf, orderId).value].status != "pending" ==>
              r == Err(Error(Conflict, "Only pending orders can be cancelled"))
    ensures r.Ok? ==> |r.value.orders| == |st.orders| - 1
    ensures r.Ok? ==> && r.value.customers == st.customers && r.value.complaints == st.complaints
                      && r.value.subscriptions == st.subscriptions && r.value.messages == st.messages
                      && r.value.customersByGr == st.customersByGr && r.value.messagesByGr == st.messagesByGr
                      && r.value.subscriptionsByGr == st.subscriptionsByGr
  {
    if orderId == "" then
      Fail(Validation, "Order ID is required")
    else
      match FirstWithKey(st.orders, OrderIdOf, orderId)
      case None => Fail(NotFound, "Order not found")
      case Some(i) =>
        var o := st.orders[i];
        if o.status != "pending" then
          Fail(Conflict, "Only pending orders can be cancelled")
        else
          Ok(st.(orders := st.orders[..i] + st.orders[i + 1..],
                 activity := if o.gr != "" then st.activity + [OrderDeletedEvent(o, env)] else st.activity))
  }

  /** What a successful cancellation does: exactly the first order with
      the identifier leaves the list, the others keep their order, and the
      event is logged exactly when that order names an account. */
  lemma CancelOrderEffect(st: Store, env: Env, orderId: string)
    requires CancelOrder(st, env, orderId).Ok?
    ensures var i := FirstWithKey(st.orders, OrderIdOf, orderId).value;
            var st' := CancelOrder(st, env, orderId).value;
            && st.orders[i].orderId == orderId && st.orders[i].status == "pending"
            && st'.orders == st.orders[..i] + st.orders[i + 1..]
            && multiset(st'.orders) + multiset{st.orders[i]} == multiset(st.orders)
            && (st.orders[i].gr != "" ==> st'.activity == st.activity + [OrderDeletedEvent(st.orders[i], env)])
            && (st.orders[i].gr == "" ==> st'.activity == st.activity)
  {
    var i := FirstWithKey(st.orders, OrderIdOf, orderId).value;
    RemoveAt(st.orders, i);
  }

  /** A cancellation keeps the store consistent. */
  lemma CancelOrderValid(st: Store, env: Env, orderId: string)
    requires Valid(st) && CancelOrder(st, env, orderId).Ok?
    ensures Valid(CancelOrder(st, env, orderId).value)
  {
    var i := FirstWithKey(st.orders, OrderIdOf, orderId).value;
    RemoveKeepsUnique(st.orders, OrderIdOf, i);
  }

  /** In a consistent store a cancelled order is gone: cancelling it again
      finds nothing. */
  lemma CancelTwiceNotFound(st: Store, env: Env, env': Env, orderId: string)
    requires Valid(st) && CancelOrder(st, env, orderId).Ok?
    ensures CancelOrder(CancelOrder(st, env, orderId).value, env', orderId) == Err(Error(NotFound, "Order not found"))
  {
    var i := FirstWithKey(st.orders, OrderIdOf, orderId).value;
    var rest := st.orders[..i] + st.orders[i + 1..];
    forall k | 0 <= k < |rest|
      ensures rest[k].orderId != orderId
    {
      if k < i {
        assert rest[k] == st.orders[k];
      } else {
        assert rest[k] == st.orders[k + 1];
      }
    }
  }

  /** Cancelling an order just generated, under a fresh identifier, gives
      back the order list as it was. */
  lemma GenerateThenCancel(st: Store, env: Env, env': Env, verdict: DateVerdict, f: OrderForm)
    requires GenerateOrder(st, env, verdict, f).Ok?
    requires forall k :: 0 <= k < |st.orders| ==> st.orders[k].orderId != OrderIdFor(env)
    requires OrderIdFor(env) != ""
    ensures var st1 := GenerateOrder(st, env, verdict, f).value.0;
            CancelOrder(st1, env', OrderIdFor(env)).Ok?
            && CancelOrder(st1, env', OrderIdFor(env)).value.orders == st.orders
  {
    var (st1, o) := GenerateOrder(st, env, verdict, f).value;
    var n := |st.orders|;
    assert st1.orders[n] == o;
    assert FirstWithKey(st1.orders, OrderIdOf, OrderIdFor(env)) == Some(n) by {
      assert forall k :: 0 <= k < n ==> st1.orders[k] == st.orders[k];
    }
    assert st1.orders[..n] + st1.orders[n + 1..] == st.orders;
  }
}

=== FILE: payments.dfy ===
/** The payments page, derived from the orders on every request: one log
    entry per order of the account, newest first, and a payment-method
    label chosen by the last three characters of the identifier as given. */
module Payments {
  import opened Results
  import opened Text
  import opened Seqs
  import opened Sorting
  import opened Normalise
  import opened Records

  datatype PaymentEntry = PaymentEntry(date: string, orderId: string, amount: int, status: string, txnId: string)

  datatype PaymentView = PaymentView(gr: string, payMethod: string, log: seq<PaymentEntry>)

  function EntryDate(p: PaymentEntry): string { p.date }

  function DashToUnderscore(c: char): char {
    if c == '-' then '_' else c
  }

  /** `f"txn_{order_id.lower().replace('-', '_')}"`. */
  function TxnId(orderId: string): (r: string)
    ensures |r| == 4 + |orderId| && r[..4] == "txn_"
    ensures forall k :: 0 <= k < |orderId| ==> r[4 + k] == DashToUnderscore(LowerChar(orderId[k]))
    ensures forall k :: 4 <= k < |r| ==> r[k] != '-'
  {
    "txn_" + MapChars(Lower(orderId), DashToUnderscore)
  }

  /** The log entry for one order: its date, id and amount, "paid" when
      the order is committed and "pending" in every other status. */
  function EntryOf(o: Order): (p: PaymentEntry)
    ensures p.amount == o.payment && p.orderId == o.orderId && p.date == o.orderDate
    ensures p.status == "paid" <==> o.status == "committed"
    ensures p.status == "paid" || p.status == "pending"
    ensures p.txnId == TxnId(o.orderId)
  {
    PaymentEntry(o.orderDate, o.orderId, o.payment,
                 if o.status == "committed" then "paid" else "pending",
                 TxnId(o.orderId))
  }

  function EntriesOf(os: seq<Order>): (r: seq<PaymentEntry>)
    ensures |r| == |os|
    ensures forall k :: 0 <= k < |r| ==> r[k] == EntryOf(os[k])
  {
    seq(|os|, k requires 0 <= k < |os| => EntryOf(os[k]))
  }

  /** `gr[-3:] if len(gr) >= 3 else "001"`, on the identifier as given,
      before any normalisation. */
  function MethodKey(gr: string): (r: string)
    ensures |gr| >= 3 ==> |r| == 3 && gr == gr[..|gr| - 3] + r
    ensures |gr| < 3 ==> r == "001"
  {
    if |gr| >= 3 then gr[|gr| - 3..] else "001"
  }

  function MethodLabel(key: string): string {
    match key
    case "001" => "Visa **** 1234"
    case "002" => "Mastercard **** 5678"
    case "003" => "Amex **** 9012"
    case "004" => "Visa **** 4455"
    case "005" => "Visa **** 7788"
    case "006" => "Apple Pay (Amex **** 3456)"
    case "007" => "Mastercard **** 1122"
    case _ => "Visa **** 0000"
  }

  /** `generate_payments_for_gr(gr)`. */
  function PaymentsFor(st: Store, gr: string): (r: Option<PaymentView>)
    ensures r.None? <==> forall k :: 0 <= k < |st.orders| ==> OrderAccount(st.orders[k]) != GR(gr)
    ensures r.Some? ==> r.value.gr == gr && r.value.payMethod == MethodLabel(MethodKey(gr))
    ensures r.Some? ==> SortedDesc(r.value.log, EntryDate)
    ensures r.Some? ==> multiset(r.value.log) == multiset(EntriesOf(KeepKey(st.orders, OrderAccount, GR(gr))))
  {
    var mine := KeepKey(st.orders, OrderAccount, GR(gr));
    NoneForAccount(st.orders, GR(gr));
    if mine == [] then
      None
    else
      Some(PaymentView(gr, MethodLabel(MethodKey(gr)), SortDesc(EntriesOf(mine), EntryDate)))
  }

  /** Entries with the same date keep the order of the account's orders
      in the stored list: the newest-first sort is stable. */
  lemma PaymentsForStable(st: Store, gr: string, d: string)
    requires PaymentsFor(st, gr).Some?
    ensures KeepKey(PaymentsFor(st, gr).value.log, EntryDate, d)
            == KeepKey(EntriesOf(KeepKey(st.orders, OrderAccount, GR(gr))), EntryDate, d)
  {
    SortDescStable(EntriesOf(KeepKey(st.orders, OrderAccount, GR(gr))), EntryDate, d);
  }

  /** The account has no orders exactly when its filtered list is empty. */
  lemma NoneForAccount(os: seq<Order>, g: string)
    ensures KeepKey(os, OrderAccount, g) == [] <==> forall k :: 0 <= k < |os| ==> OrderAccount(os[k]) != g
  {
    var mine := KeepKey(os, OrderAccount, g);
    KeepKeyMembers(os, OrderAccount, g);
    if mine != [] {
      assert mine[0] in os;
    } else {
      forall k | 0 <= k < |os|
        ensures OrderAccount(os[k]) != g
      {
        assert os[k] in os;
      }
    }
  }

  /** Each log entry comes from an order of the account and each such
      order gives an entry; the log is exactly as long as the account's
      order list, so no order is lost or doubled. */
  lemma PaymentsLogExact(st: Store, gr: string, p: PaymentEntry)
    requires PaymentsFor(st, gr).Some?
    ensures p in PaymentsFor(st, gr).value.log <==>
              exists o :: o in st.orders && GR(o.gr) == GR(gr) && p == EntryOf(o)
    ensures |PaymentsFor(st, gr).value.log| == |KeepKey(st.orders, OrderAccount, GR(gr))|
  {
    var mine := KeepKey(st.orders, OrderAccount, GR(gr));
    var log := PaymentsFor(st, gr).value.log;
    assert p in log <==> p in EntriesOf(mine) by {
      assert p in log <==> p in multiset(log);
      assert p in EntriesOf(mine) <==> p in multiset(EntriesOf(mine));
    }
    EntriesMembers(mine, p);
    KeepKeyMembers(st.orders, OrderAccount, GR(gr));
    assert |multiset(log)| == |multiset(EntriesOf(mine))|;
  }

  lemma EntriesMembers(os: seq<Order>, p: PaymentEntry)
    ensures p in EntriesOf(os) <==> exists o :: o in os && p == EntryOf(o)
  {
    if p in EntriesOf(os) {
      var k :| 0 <= k < |os| && EntriesOf(os)[k] == p;
      assert os[k] in os;
    }
    if exists o :: o in os && p == EntryOf(o) {
      var o :| o in os && p == EntryOf(o);
      var k :| 0 <= k < |os| && os[k] == o;
      assert EntriesOf(os)[k] == p;
    }
  }

  lemma MethodExamples()
    ensures MethodLabel(MethodKey("GR-002")) == "Mastercard **** 5678"
    ensures MethodLabel(MethodKey("ab")) == "Visa **** 1234"
    ensures MethodLabel(MethodKey("GR-099")) == "Visa **** 0000"
    ensures MethodLabel(MethodKey("GR-002 ")) == "Visa **** 0000"
  {
    assert "GR-002"[3..] == "002";
    assert "GR-099"[3..] == "099";
    assert "GR-002 "[4..] == "02 ";
  }
}

=== FILE: personal.dfy ===
/** The personal-details form: the sanitiser that checks and reformats
    the submitted fields, and the update that writes them onto the
    account's customer record and logs an audit event listing what
    changed, if anything did. */
module Personal {
  import opened Results
  import opened Text
  import opened Words
  import opened Seqs
  import opened Normalise
  import opened Email
  import opened Records
  import opened Audit

  /** The JSON body of the form; a key that is absent is the empty string. */
  datatype PersonalForm = PersonalForm(
    gr: string,
    firstName: string,
    lastName: string,
    email: string,
    phone: string,
    postcode: string,
    address: string,
    city: string)

  // ---------------------------------------------------------------------------
  // Phone numbers
  // ---------------------------------------------------------------------------

  /** Non-digits dropped; exactly eleven digits are accepted and stored as
      five digits, a space, and the other six. */
  function FormatPhone(raw: string): (r: Option<string>)
    ensures r.Some? <==> |Digits(raw)| == 11
    ensures r.Some? ==> |r.value| == 12 && r.value[5] == ' '
    ensures r.Some? ==> r.value[..5] + r.value[6..] == Digits(raw)
  {
    var d := Digits(raw);
    if |d| != 11 then None else Some(d[..5] + " " + d[5..])
  }

  /** The stored form keeps exactly the submitted digits, so submitting it
      again stores it unchanged. */
  lemma FormatPhoneStable(raw: string)
    requires FormatPhone(raw).Some?
    ensures Digits(FormatPhone(raw).value) == Digits(raw)
    ensures FormatPhone(FormatPhone(raw).value) == FormatPhone(raw)
  {
    var d := Digits(raw);
    DigitsAfter(d[..5], ' ', d[5..]);
    KeepAll(d[5..], IsDigit);
    assert d[..5] + d[5..] == d;
    assert d[..5] + " " + d[5..] == d[..5] + [' '] + d[5..];
  }

  /** A run of digits followed by a non-digit contributes just its digits. */
  lemma DigitsAfter(a: string, c: char, b: string)
    requires AllDigits(a) && !IsDigit(c)
    ensures Digits(a + [c] + b) == a + Digits(b)
  {
    KeepAppend(a + [c], b, IsDigit);
    KeepAppend(a, [c], IsDigit);
    KeepAll(a, IsDigit);
  }

  lemma FormatPhoneExample()
    ensures FormatPhone("0712 345 6789") == Some("07123 456789")
  {
    PhoneDigitsExample();
    PhoneSpaceExample();
  }

  lemma PhoneSpaceExample()
    ensures "07123456789"[..5] + " " + "07123456789"[5..] == "07123 456789"
  {
  }

  lemma PhoneDigitsExample()
    ensures Digits("0712 345 6789") == "07123456789"
  {
    PhoneSplitExample();
    SpacedDigitsExample();
  }

  lemma PhoneSplitExample()
    ensures "0712 345 6789" == "0712" + [' '] + ("345" + [' '] + "6789")
  {
  }

  lemma SpacedDigitsExample()
    ensures Digits("0712" + [' '] + ("345" + [' '] + "6789")) == "07123456789"
  {
    DigitsAfter("0712", ' ', "345" + [' '] + "6789");
    TailDigitsExample();
  }

  lemma TailDigitsExample()
    ensures Digits("345" + [' '] + "6789") == "3456789"
  {
    DigitsAfter("345", ' ', "6789");
    KeepAll("6789", IsDigit);
  }

  lemma FormatPhoneShortExample()
    ensures FormatPhone("(0712) 345-678") == None
  {
    ShortSplitExample();
    DigitsAfter([], '(', "0712" + [')'] + ([] + [' '] + ("345" + ['-'] + "678")));
    DigitsAfter("0712", ')', [] + [' '] + ("345" + ['-'] + "678"));
    DigitsAfter([], ' ', "345" + ['-'] + "678");
    DigitsAfter("345", '-', "678");
    KeepAll("678", IsDigit);
  }

  lemma ShortSplitExample()
    ensures "(0712) 345-678" == [] + ['('] + ("0712" + [')'] + ([] + [' '] + ("345" + ['-'] + "678")))
  {
  }

  // ---------------------------------------------------------------------------
  // Postcodes
  // ---------------------------------------------------------------------------

  /** Trimmed, upper-cased, blanks removed. */
  function CompactPostcode(raw: string): (c: string)
    ensures forall k :: 0 <= k < |c| ==> c[k] != ' '
  {
    RemoveBlanks(Upper(Strip(raw)))
  }

  /** Accepted at five, six or seven characters (nothing else is checked)
      and re-spaced by length: two, three or four characters, a space, the
      rest. */
  function FormatPostcode(raw: string): (r: Option<string>)
    ensures r.Some? <==> 5 <= |CompactPostcode(raw)| <= 7
    ensures r.Some? ==> var c := CompactPostcode(raw);
                        r.value == c[..|c| - 3] + " " + c[|c| - 3..]
  {
    var p := CompactPostcode(raw);
    if |p| == 5 then Some(p[..2] + " " + p[2..])
    else if |p| == 6 then Some(p[..3] + " " + p[3..])
    else if |p| == 7 then Some(p[..4] + " " + p[4..])
    else None
  }

  /** Removing the inserted space gives back the compacted postcode. */
  lemma FormatPostcodeCompacts(raw: string)
    requires FormatPostcode(raw).Some?
    ensures RemoveBlanks(FormatPostcode(raw).value) == CompactPostcode(raw)
  {
    var c := CompactPostcode(raw);
    var n := |c| - 3;
    RemoveBlanksJoin(c[..n], c[n..]);
    assert c[..n] + c[n..] == c;
  }

  /** Two blank-free parts joined by one space lose exactly that space. */
  lemma RemoveBlanksJoin(a: string, b: string)
    requires forall k :: 0 <= k < |a| ==> a[k] != ' '
    requires forall k :: 0 <= k < |b| ==> b[k] != ' '
    ensures RemoveBlanks(a + " " + b) == a + b
  {
    KeepAppend(a + " ", b, NotBlank);
    KeepAppend(a, " ", NotBlank);
    KeepAll(a, NotBlank);
    KeepAll(b, NotBlank);
    assert Keep(" ", NotBlank) == [];
  }

  /** Upper-casing acts character by character. */
  lemma UpperAt(s: string, t: string)
    requires |s| == |t| && forall k :: 0 <= k < |s| ==> UpperChar(s[k]) == t[k]
    ensures Upper(s) == t
  {
  }

  lemma FormatPostcodeExample()
    ensures FormatPostcode("sw1a 1aa") == Some("SW1A 1AA")
  {
    CompactExample();
    var c := "SW1A1AA";
    assert c[..4] == "SW1A";
    assert c[4..] == "1AA";
    assert "SW1A" + " " + "1AA" == "SW1A 1AA";
  }

  lemma CompactExample()
    ensures CompactPostcode("sw1a 1aa") == "SW1A1AA"
  {
    TrimmedExample();
    UpperExample();
    BlanksExample();
  }

  lemma TrimmedExample()
    ensures Strip("sw1a 1aa") == "sw1a 1aa"
  {
    StripLiteral("sw1a 1aa");
  }

  lemma UpperExample()
    ensures Upper("sw1a 1aa") == "SW1A 1AA"
  {
    UpperAt("sw1a 1aa", "SW1A 1AA");
  }

  lemma BlanksExample()
    ensures RemoveBlanks("SW1A 1AA") == "SW1A1AA"
  {
    assert "SW1A 1AA" == "SW1A" + " " + "1AA";
    RemoveBlanksJoin("SW1A", "1AA");
  }

  lemma FormatPostcodeLongExample()
    ensures FormatPostcode("EC1A1BBX") == None
  {
    LongCompactExample();
  }

  lemma LongCompactExample()
    ensures |CompactPostcode("EC1A1BBX")| == 8
  {
    LongTrimmedExample();
    UpperAt("EC1A1BBX", "EC1A1BBX");
    LongBlanksExample();
  }

  lemma LongTrimmedExample()
    ensures Strip("EC1A1BBX") == "EC1A1BBX"
  {
    StripLiteral("EC1A1BBX");
  }

  /** A text whose first and last characters are letters or digits is
      left alone by `strip()`. */
  lemma StripLiteral(s: string)
    requires |s| > 0 && (IsAsciiLetter(s[0]) || IsDigit(s[0]))
    requires IsAsciiLetter(s[|s| - 1]) || IsDigit(s[|s| - 1])
    ensures Strip(s) == s
  {
    StripFixesTrimmed(s);
  }

  lemma LongBlanksExample()
    ensures RemoveBlanks("EC1A1BBX") == "EC1A1BBX"
  {
    KeepAll("EC1A1BBX", NotBlank);
  }

  // ---------------------------------------------------------------------------
  // The other fields
  // ---------------------------------------------------------------------------

  /** `gr.strip().upper().replace(' ', '')`. */
  function CleanGr(gr: string): (r: string)
    ensures GR(r) == r
  {
    var u := Upper(Strip(gr));
    TrimmedCase(Strip(gr));
    UpperIdempotent(Strip(gr));
    TrimmedRemoveBlanks(u);
    StripFixesTrimmed(RemoveBlanks(u));
    UpperOfBlankFree(u);
    RemoveBlanks(u)
  }

  lemma UpperOfBlankFree(u: string)
    requires Upper(u) == u
    ensures Upper(RemoveBlanks(u)) == RemoveBlanks(u)
  {
    forall c: char
      ensures NotBlank(UpperChar(c)) <==> NotBlank(c)
    {
    }
    KeepMap(u, NotBlank, UpperChar);
  }

  /** Address and city: trimmed, and when non-empty re-spaced word by word
      with each word capitalised. */
  function CleanWords(s: string): (r: string)
    ensures Trimmed(r)
  {
    var t := Strip(s);
    if t == "" then "" else CapitalizeWords(t)
  }

  // ---------------------------------------------------------------------------
  // The sanitiser
  // ---------------------------------------------------------------------------

  /** The first required field that is missing or blank, in the order the
      form checks them. */
  function MissingField(f: PersonalForm): (r: Option<string>)
    ensures r.None? <==> Strip(f.firstName) != "" && Strip(f.lastName) != "" && Strip(f.email) != ""
                         && Strip(f.phone) != "" && Strip(f.postcode) != ""
    ensures r == Some("first_name") <==> Strip(f.firstName) == ""
    ensures r == Some("last_name") <==> Strip(f.firstName) != "" && Strip(f.lastName) == ""
    ensures r == Some("email") <==> Strip(f.firstName) != "" && Strip(f.lastName) != "" && Strip(f.email) == ""
    ensures r == Some("phone") <==> Strip(f.firstName) != "" && Strip(f.lastName) != "" && Strip(f.email) != ""
                                    && Strip(f.phone) == ""
    ensures r == Some("postcode") <==> Strip(f.firstName) != "" && Strip(f.lastName) != "" && Strip(f.email) != ""
                                       && Strip(f.phone) != "" && Strip(f.postcode) == ""
  {
    if Strip(f.firstName) == "" then Some("first_name")
    else if Strip(f.lastName) == "" then Some("last_name")
    else if Strip(f.email) == "" then Some("email")
    else if Strip(f.phone) == "" then Some("phone")
    else if Strip(f.postcode) == "" then Some("postcode")
    else None
  }

  function CleanEmail(e: string): string {
    Lower(Strip(e))
  }

  /** Every check the form applies, as one condition. */
  predicate Acceptable(f: PersonalForm) {
    && f.gr != ""
    && MissingField(f).None?
    && Accepts(CleanEmail(f.email))
    && FormatPhone(f.phone).Some?
    && FormatPostcode(f.postcode).Some?
  }

  /** The checks and clean-ups of the form, in the order the form applies
      them; the result carries the cleaned identifier and fields. */
  function Sanitise(f: PersonalForm): (r: Result<Customer>)
    ensures r.Ok? <==> Acceptable(f)
    ensures r.Err? ==> r.error.kind == Validation
    ensures r.Ok? ==> && GR(r.value.gr) == r.value.gr
                      && r.value.firstName == Capitalize(Strip(f.firstName))
                      && r.value.lastName == Capitalize(Strip(f.lastName))
                      && Accepts(r.value.email)
                      && Digits(r.value.phone) == Digits(f.phone) && |r.value.phone| == 12
                      && RemoveBlanks(r.value.postcode) == CompactPostcode(f.postcode)
                      && Trimmed(r.value.address) && Trimmed(r.value.city)
    ensures f.gr == "" ==> r == Fail(Validation, "GR is required")
    ensures f.gr != "" && MissingField(f).Some? ==>
              r == Fail(Validation, "Missing required field: " + MissingField(f).value)
    ensures f.gr != "" && MissingField(f).None? && '@' !in CleanEmail(f.email) ==>
              r == Fail(Validation, "Email address must contain an @ symbol")
    ensures f.gr != "" && MissingField(f).None? && '@' in CleanEmail(f.email) && !Accepts(CleanEmail(f.email)) ==>
              r == Fail(Validation, "Please enter a valid email address")
    ensures f.gr != "" && MissingField(f).None? && Accepts(CleanEmail(f.email)) && FormatPhone(f.phone).None? ==>
              r == Fail(Validation, "Phone number must be exactly 11 digits")
    ensures f.gr != "" && MissingField(f).None? && Accepts(CleanEmail(f.email)) && FormatPhone(f.phone).Some?
            && FormatPostcode(f.postcode).None? ==>
              r == Fail(Validation, "Invalid postcode format. Please use formats like SW1A 1AA, B1 1BB, or M1 2AB")
  {
    AtCheckSubsumed(f);
    if f.gr == "" then
      Fail(Validation, "GR is required")
    else if MissingField(f).Some? then
      Fail(Validation, "Missing required field: " + MissingField(f).value)
    else
      var email := CleanEmail(f.email);
      if '@' !in email then
        Fail(Validation, "Email address must contain an @ symbol")
      else if !Accepts(email) then
        Fail(Validation, "Please enter a valid email address")
      else
        match FormatPhone(f.phone)
        case None => Fail(Validation, "Phone number must be exactly 11 digits")
        case Some(_) =>
          match FormatPostcode(f.postcode)
          case None =>
            Fail(Validation, "Invalid postcode format. Please use formats like SW1A 1AA, B1 1BB, or M1 2AB")
          case Some(_) =>
            FormatPhoneStable(f.phone);
            FormatPostcodeCompacts(f.postcode);
            Ok(Cleaned(f))
  }

  /** The record the accepted form describes. */
  function Cleaned(f: PersonalForm): Customer
    requires FormatPhone(f.phone).Some? && FormatPostcode(f.postcode).Some?
  {
    Customer(CleanGr(f.gr),
             Capitalize(Strip(f.firstName)),
             Capitalize(Strip(f.lastName)),
             CleanEmail(f.email),
             FormatPhone(f.phone).value,
             FormatPostcode(f.postcode).value,
             CleanWords(f.address),
             CleanWords(f.city))
  }

  /** The `@` test never decides on its own: an address the pattern
      accepts always holds an `@`, so only the pattern's verdict matters. */
  lemma AtCheckSubsumed(f: PersonalForm)
    ensures Accepts(CleanEmail(f.email)) ==> '@' in CleanEmail(f.email)
  {
    if Accepts(CleanEmail(f.email)) {
      AcceptedHasAt(CleanEmail(f.email));
    }
  }

  /** The form that would resubmit a stored record as it is. */
  function FormOf(c: Customer): PersonalForm {
    PersonalForm(c.gr, c.firstName, c.lastName, c.email, c.phone, c.postcode, c.address, c.city)
  }

  /** The cleaned record is a fixed point of the sanitiser: submitting the
      stored values again is accepted and stores them unchanged. (A blank
      identifier cleans to the empty string, which the form refuses.) */
  lemma SanitiseFixedPoint(f: PersonalForm)
    requires Sanitise(f).Ok? && Sanitise(f).value.gr != ""
    ensures Sanitise(FormOf(Sanitise(f).value)) == Sanitise(f)
  {
    SanitiseAccepted(f);
    var c := Cleaned(f);
    CleanedStable(f);
    SanitiseAccepted(FormOf(c));
  }

  /** An acceptable form sanitises to the record it describes. */
  lemma SanitiseAccepted(f: PersonalForm)
    requires Acceptable(f)
    ensures Sanitise(f) == Ok(Cleaned(f))
  {
    AcceptedHasAt(CleanEmail(f.email));
  }

  lemma CleanedStable(f: PersonalForm)
    requires Acceptable(f) && CleanGr(f.gr) != ""
    ensures Acceptable(FormOf(Cleaned(f)))
    ensures Cleaned(FormOf(Cleaned(f))) == Cleaned(f)
  {
    CleanedAcceptable(f);
    CleanedSame(f);
  }

  lemma CleanedAcceptable(f: PersonalForm)
    requires Acceptable(f) && CleanGr(f.gr) != ""
    ensures Acceptable(FormOf(Cleaned(f)))
  {
    var c := Cleaned(f);
    CleanedComplete(f);
    EmailStable(f.email);
    PhoneStable(f.phone);
    PostcodeStable(f.postcode);
  }

  lemma CleanedComplete(f: PersonalForm)
    requires Acceptable(f)
    ensures MissingField(FormOf(Cleaned(f))).None?
  {
    var c := Cleaned(f);
    NameStable(f.firstName);
    NameStable(f.lastName);
    EmailStable(f.email);
    PhoneStable(f.phone);
    PostcodeStable(f.postcode);
    AcceptedHasAt(c.email);
  }

  lemma CleanedSame(f: PersonalForm)
    requires Acceptable(f)
    ensures FormatPhone(Cleaned(f).phone).Some? && FormatPostcode(Cleaned(f).postcode).Some?
    ensures Cleaned(FormOf(Cleaned(f))) == Cleaned(f)
  {
    CleanGrStable(f.gr);
    NameStable(f.firstName);
    NameStable(f.lastName);
    EmailStable(f.email);
    PhoneStable(f.phone);
    PostcodeStable(f.postcode);
    CleanWordsStable(f.address);
    CleanWordsStable(f.city);
  }

  lemma CleanGrStable(gr: string)
    ensures CleanGr(CleanGr(gr)) == CleanGr(gr)
  {
    var x := CleanGr(gr);
    assert Upper(Strip(x)) == x;
    KeepAll(x, NotBlank);
  }

  lemma NameStable(n: string)
    requires Strip(n) != ""
    ensures var t := Capitalize(Strip(n)); Strip(t) == t && t != "" && Capitalize(Strip(t)) == t
  {
    var t := Capitalize(Strip(n));
    CapitalizeFacts(Strip(n));
    StripFixesTrimmed(t);
  }

  lemma EmailStable(e: string)
    ensures var x := CleanEmail(e); Strip(x) == x && CleanEmail(x) == x
  {
    var x := CleanEmail(e);
    TrimmedCase(Strip(e));
    StripFixesTrimmed(x);
    LowerIdempotent(Strip(e));
  }

  lemma PhoneStable(raw: string)
    requires FormatPhone(raw).Some?
    ensures var v := FormatPhone(raw).value; Strip(v) != "" && FormatPhone(v) == Some(v)
  {
    var v := FormatPhone(raw).value;
    FormatPhoneStable(raw);
    StripEmptyIffAllSpace(v);
    var d := Digits(raw);
    assert v[0] == d[0] && IsDigit(d[0]);
  }

  lemma PostcodeStable(raw: string)
    requires FormatPostcode(raw).Some?
    ensures var v := FormatPostcode(raw).value; Strip(v) != "" && FormatPostcode(v) == Some(v)
  {
    var c := CompactPostcode(raw);
    var v := FormatPostcode(raw).value;
    var n := |c| - 3;
    assert CompactPostcode(v) == c by {
      CompactTrimmed(raw);
      assert v[0] == c[0] && v[|v| - 1] == c[|c| - 1];
      StripFixesTrimmed(v);
      UpperAt(v, v);
      FormatPostcodeCompacts(raw);
    }
    StripFixesTrimmed(v);
  }

  /** The compacted postcode has no whitespace at its ends and no lower
      case letters. */
  lemma CompactTrimmed(raw: string)
    ensures var c := CompactPostcode(raw); Trimmed(c) && Upper(c) == c
    ensures forall k :: 0 <= k < |CompactPostcode(raw)| ==> UpperChar(CompactPostcode(raw)[k]) == CompactPostcode(raw)[k]
  {
    var u := Upper(Strip(raw));
    TrimmedCase(Strip(raw));
    TrimmedRemoveBlanks(u);
    UpperIdempotent(Strip(raw));
    UpperOfBlankFree(u);
    var c := CompactPostcode(raw);
    assert forall k :: 0 <= k < |c| ==> Upper(c)[k] == UpperChar(c[k]);
  }

  lemma CleanWordsStable(s: string)
    ensures CleanWords(CleanWords(s)) == CleanWords(s)
  {
    var r := CleanWords(s);
    StripFixesTrimmed(r);
    if Strip(s) != "" {
      CapitalizeWordsIdempotent(Strip(s));
    }
  }

  // ---------------------------------------------------------------------------
  // The update
  // ---------------------------------------------------------------------------

  /** The seven compared fields, in the order the change lines list them. */
  function PersonalFields(before: Customer, after: Customer): (fs: seq<Field>)
    ensures |fs| == 7
  {
    [ Field("first_name", "First name", Str(before.firstName), Str(after.firstName)),
      Field("last_name", "Last name", Str(before.lastName), Str(after.lastName)),
      Field("email", "Email", Str(before.email), Str(after.email)),
      Field("phone", "Phone", Str(before.phone), Str(after.phone)),
      Field("postcode", "Postcode", Str(before.postcode), Str(after.postcode)),
      Field("address", "Address", Str(before.address), Str(after.address)),
      Field("city", "City", Str(before.city), Str(after.city)) ]
  }

  /** For two records of the same identifier, the seven compared fields
      all agree exactly when the records are equal. */
  lemma PersonalFieldsSame(s: Customer, t: Customer)
    requires s.gr == t.gr
    ensures Changed(PersonalFields(s, t)) == [] <==> s == t
  {
    var fs := PersonalFields(s, t);
    ChangedEmptyIff(fs);
    if s != t {
      assert !(&& fs[0].before == fs[0].after && fs[1].before == fs[1].after
               && fs[2].before == fs[2].after && fs[3].before == fs[3].after
               && fs[4].before == fs[4].after && fs[5].before == fs[5].after
               && fs[6].before == fs[6].after);
    }
  }

  /** The record with the seven cleaned fields written over it; the stored
      identifier is left as it was. */
  function Overwrite(c: Customer, d: Customer): (r: Customer)
    ensures r.gr == c.gr
    ensures r.(gr := d.gr) == d
  {
    c.(firstName := d.firstName, lastName := d.lastName, email := d.email, phone := d.phone,
       postcode := d.postcode, address := d.address, city := d.city)
  }

  function PersonalEvent(gr: string, env: Env, changes: seq<string>): Event {
    Event(gr, env.now, "personal_updated", "admin", "Personal details updated",
          DetailText(|changes|), Some(changes), None)
  }

  /** The lookup and write of `update_personal`, given the cleaned form:
      the account's first customer record takes the seven cleaned fields,
      and an event listing the changes is logged when any field changed. */
  function ApplyPersonal(st: Store, env: Env, d: Customer): (r: Result<(Store, Customer)>)
    ensures r.Ok? <==> exists k :: 0 <= k < |st.customers| && CustomerAccount(st.customers[k]) == GR(d.gr)
    ensures r.Err? ==> r.error == Error(NotFound, "Customer not found")
    ensures r.Ok? ==> && r.value.0.orders == st.orders && r.value.0.complaints == st.complaints
                      && r.value.0.subscriptions == st.subscriptions && r.value.0.messages == st.messages
                      && |r.value.0.customers| == |st.customers|
                      && CustomerAccount(r.value.1) == GR(d.gr)
  {
    match FirstWithKey(st.customers, CustomerAccount, GR(d.gr))
    case None => Fail(NotFound, "Customer not found")
    case Some(i) => Ok(WriteCustomer(st, env, i, d))
  }

  /** Writes the cleaned fields over record `i` and logs the changes. */
  function WriteCustomer(st: Store, env: Env, i: nat, d: Customer): (r: (Store, Customer))
    requires i < |st.customers|
    ensures r.1.gr == st.customers[i].gr && r.1.(gr := d.gr) == d
    ensures r.0.customers == st.customers[i := r.1]
    ensures r.0.customersByGr == st.customersByGr[CustomerAccount(st.customers[i]) := r.1]
    ensures && r.0.orders == st.orders && r.0.complaints == st.complaints
            && r.0.subscriptions == st.subscriptions && r.0.messages == st.messages
            && r.0.messagesByGr == st.messagesByGr && r.0.subscriptionsByGr == st.subscriptionsByGr
    ensures |r.0.activity| == |st.activity| + (if r.1 == st.customers[i] then 0 else 1)
    ensures r.0.activity[..|st.activity|] == st.activity
  {
    var before := st.customers[i];
    var after := Overwrite(before, d);
    PersonalFieldsSame(before, after);
    var changes := ChangeLines(PersonalFields(before, after));
    var activity := if changes == [] then st.activity else st.activity + [PersonalEvent(d.gr, env, changes)];
    (st.(customers := st.customers[i := after],
         customersByGr := st.customersByGr[CustomerAccount(before) := after],
         activity := activity),
     after)
  }

  /** Writing the same fields over the same record again is a no-op. */
  lemma WriteCustomerAgain(st: Store, env: Env, env': Env, i: nat, d: Customer)
    requires i < |st.customers|
    ensures WriteCustomer(WriteCustomer(st, env, i, d).0, env', i, d) == WriteCustomer(st, env, i, d)
  {
    var (st1, c) := WriteCustomer(st, env, i, d);
    assert Overwrite(c, d) == c;
    ChangedEmptyIff(PersonalFields(c, c));
    assert st1.customers[i := c] == st1.customers;
    assert st1.customersByGr[CustomerAccount(c) := c] == st1.customersByGr;
  }

  /** `update_personal`: the form is sanitised first and its error, if
      any, is the reply; otherwise the cleaned fields are written. */
  function UpdatePersonal(st: Store, env: Env, f: PersonalForm): (r: Result<(Store, Customer)>)
    ensures !Acceptable(f) ==> r.Err? && r.error.kind == Validation
    ensures !Acceptable(f) ==> r == Err(Sanitise(f).error)
    ensures Acceptable(f) ==> r == ApplyPersonal(st, env, Sanitise(f).value)
  {
    var d :- Sanitise(f);
    ApplyPersonal(st, env, d)
  }

  /** On success exactly the account's record changes, to the cleaned
      fields, and one event listing the changed fields is logged exactly
      when some field changed. */
  lemma ApplyPersonalEffect(st: Store, env: Env, d: Customer)
    requires ApplyPersonal(st, env, d).Ok?
    ensures var i := FirstWithKey(st.customers, CustomerAccount, GR(d.gr)).value;
            var (st', c) := ApplyPersonal(st, env, d).value;
            var fs := PersonalFields(st.customers[i], c);
            && CustomerAccount(st.customers[i]) == GR(d.gr)
            && c == Overwrite(st.customers[i], d)
            && st'.customers == st.customers[i := c]
            && (Changed(fs) == [] ==> st'.activity == st.activity)
            && (Changed(fs) != [] ==>
                  st'.activity == st.activity + [PersonalEvent(d.gr, env, ChangeLines(fs))]
                  && |ChangeLines(fs)| == |DiffPositions(fs)|)
  {
    var i := FirstWithKey(st.customers, CustomerAccount, GR(d.gr)).value;
    var c := ApplyPersonal(st, env, d).value.1;
    ChangedCount(PersonalFields(st.customers[i], c));
  }

  /** A successful update keeps the store consistent. */
  lemma ApplyPersonalValid(st: Store, env: Env, d: Customer)
    requires Valid(st) && ApplyPersonal(st, env, d).Ok?
    ensures Valid(ApplyPersonal(st, env, d).value.0)
  {
    var i := FirstWithKey(st.customers, CustomerAccount, GR(d.gr)).value;
    var c := ApplyPersonal(st, env, d).value.1;
    ReplaceKeepsIndex(st.customersByGr, st.customers, CustomerAccount, i, c);
  }

  /** Writing the same cleaned fields a second time changes nothing and
      logs nothing: the record already holds them. */
  lemma ApplyPersonalResubmit(st: Store, env: Env, env': Env, d: Customer)
    requires ApplyPersonal(st, env, d).Ok?
    ensures ApplyPersonal(ApplyPersonal(st, env, d).value.0, env', d) == ApplyPersonal(st, env, d)
  {
    var g := GR(d.gr);
    var i := FirstWithKey(st.customers, CustomerAccount, g).value;
    var c := Overwrite(st.customers[i], d);
    FirstWithKeyReplace(st.customers, CustomerAccount, g, i, c);
    WriteCustomerAgain(st, env, env', i, d);
  }

  /** Submitting the same personal-details form twice: the second
      submission changes nothing and logs nothing. */
  lemma UpdatePersonalResubmit(st: Store, env: Env, env': Env, f: PersonalForm)
    requires UpdatePersonal(st, env, f).Ok?
    ensures UpdatePersonal(UpdatePersonal(st, env, f).value.0, env', f) == UpdatePersonal(st, env, f)
  {
    ApplyPersonalResubmit(st, env, env', Sanitise(f).value);
  }

  /** A successful personal-details update keeps the store consistent. */
  lemma UpdatePersonalValid(st: Store, env: Env, f: PersonalForm)
    requires Valid(st) && UpdatePersonal(st, env, f).Ok?
    ensures Valid(UpdatePersonal(st, env, f).value.0)
  {
    ApplyPersonalValid(st, env, Sanitise(f).value);
  }
}

=== FILE: queries.dfy ===
/** The read side: the per-account lists every page shows, the activity
    page's filters, the dashboard search, the customer banner and the
    message thread lookup. None of these changes the store. */
module Queries {
  import opened Results
  import opened Text
  import opened Seqs
  import opened Sorting
  import opened Normalise
  import opened Records

  /** `orders_for(gr)`: the account's orders, in store order. */
  function OrdersFor(st: Store, gr: string): (r: seq<Order>)
    ensures forall k :: 0 <= k < |r| ==> OrderAccount(r[k]) == GR(gr)
  {
    KeepKey(st.orders, OrderAccount, GR(gr))
  }

  /** `complaints_for(gr)`: the account's complaints, in store order. */
  function ComplaintsFor(st: Store, gr: string): (r: seq<Complaint>)
    ensures forall k :: 0 <= k < |r| ==> ComplaintAccount(r[k]) == GR(gr)
  {
    KeepKey(st.complaints, ComplaintAccount, GR(gr))
  }

  /** The per-account lists hold exactly the records whose normalised
      account equals the normalised argument. */
  lemma AccountListsExact(st: Store, gr: string)
    ensures forall o :: o in OrdersFor(st, gr) <==> o in st.orders && GR(o.gr) == GR(gr)
    ensures forall c :: c in ComplaintsFor(st, gr) <==> c in st.complaints && GR(c.gr) == GR(gr)
  {
    KeepKeyMembers(st.orders, OrderAccount, GR(gr));
    KeepKeyMembers(st.complaints, ComplaintAccount, GR(gr));
  }

  /** `activity_for(gr)`: the account's events, newest first; events with
      the same time keep their logged order (Python's sort is stable). */
  function ActivityFor(st: Store, gr: string): (r: seq<Event>)
    ensures multiset(r) == multiset(KeepKey(st.activity, EventAccount, GR(gr)))
    ensures SortedDesc(r, EventTime)
  {
    SortDesc(KeepKey(st.activity, EventAccount, GR(gr)), EventTime)
  }

  /** The account's events are exactly its logged events. */
  lemma ActivityForMembers(st: Store, gr: string)
    ensures forall e :: e in ActivityFor(st, gr) <==> e in st.activity && GR(e.gr) == GR(gr)
  {
    var mine := KeepKey(st.activity, EventAccount, GR(gr));
    var r := ActivityFor(st, gr);
    KeepKeyMembers(st.activity, EventAccount, GR(gr));
    assert forall e :: e in r <==> e in multiset(r);
    assert forall e :: e in mine <==> e in multiset(mine);
  }

  /** Events that share a timestamp appear in the order they were logged. */
  lemma ActivityForStable(st: Store, gr: string, t: string)
    ensures KeepKey(ActivityFor(st, gr), EventTime, t)
            == KeepKey(KeepKey(st.activity, EventAccount, GR(gr)), EventTime, t)
  {
    SortDescStable(KeepKey(st.activity, EventAccount, GR(gr)), EventTime, t);
  }

  /** An optional filter: everything when `v` is blank, else the events
      whose field is `v`. Filtering keeps the newest-first order. */
  function Narrow(es: seq<Event>, field: Event -> string, v: string): (r: seq<Event>)
    ensures v != "" ==> forall k :: 0 <= k < |r| ==> field(r[k]) == v
    ensures forall e :: e in r <==> e in es && (v == "" || field(e) == v)
  {
    KeepKeyMembers(es, field, v);
    if v == "" then es else KeepKey(es, field, v)
  }

  lemma NarrowSorted(es: seq<Event>, field: Event -> string, v: string)
    requires SortedDesc(es, EventTime)
    ensures SortedDesc(Narrow(es, field, v), EventTime)
  {
    KeepKeySorted(es, EventTime, field, v);
  }

  /** The activity page: the account's events (none without an account),
      then the optional category and actor filters. */
  function ActivityPage(st: Store, gr: string, category: string, actor: string): (r: seq<Event>)
    ensures SortedDesc(r, EventTime)
    ensures forall e :: e in r <==>
              && gr != ""
              && e in st.activity && GR(e.gr) == GR(gr)
              && (category == "" || e.category == category)
              && (actor == "" || e.actor == actor)
  {
    var events := if gr == "" then [] else ActivityFor(st, gr);
    ActivityForMembers(st, gr);
    var byCategory := Narrow(events, EventCategory, category);
    NarrowSorted(events, EventCategory, category);
    NarrowSorted(byCategory, EventActor, actor);
    Narrow(byCategory, EventActor, actor)
  }

  /** One row of the dashboard's partial search: `q` (already normalised)
      occurs in the chosen field, normalised. */
  predicate TextHit(field: string, qn: string, c: Customer) {
    || (field == "full_name" && Contains(Norm(c.firstName + " " + c.lastName), qn))
    || (field == "email" && Contains(Norm(c.email), qn))
    || (field == "phone" && Contains(Norm(c.phone), qn))
    || (field == "postcode" && Contains(Norm(c.postcode), qn))
  }

  function TextSearch(cs: seq<Customer>, field: string, qn: string): (r: seq<Customer>)
    ensures forall c :: c in r <==> c in cs && TextHit(field, qn, c)
  {
    if cs == [] then
      []
    else
      (if TextHit(field, qn, cs[0]) then [cs[0]] else []) + TextSearch(cs[1..], field, qn)
  }

  /** The dashboard search: with both a field and a query, an exact GR
      match for "gr" and a normalised substring match otherwise; nothing
      when either is blank. */
  function Search(st: Store, field: string, q: string): (r: seq<Customer>)
    ensures Strip(field) == "" || Strip(q) == "" ==> r == []
  {
    SearchStripped(st, Strip(field), Strip(q))
  }

  function SearchStripped(st: Store, b: string, t: string): seq<Customer> {
    if b == "" || t == "" then
      []
    else if b == "gr" then
      KeepKey(st.customers, CustomerAccount, GR(t))
    else
      TextSearch(st.customers, b, Norm(t))
  }

  /** Who the search finds, for each kind of search. */
  lemma SearchExact(st: Store, field: string, q: string, c: Customer)
    requires Strip(field) != "" && Strip(q) != ""
    ensures Strip(field) == "gr" ==> (c in Search(st, field, q) <==> c in st.customers && GR(c.gr) == GR(q))
    ensures Strip(field) != "gr" ==>
              (c in Search(st, field, q) <==> c in st.customers && TextHit(Strip(field), Norm(q), c))
  {
    KeepKeyMembers(st.customers, CustomerAccount, GR(Strip(q)));
    GRIgnoresStrip(q);
    NormIgnoresStrip(q);
  }

  lemma GRIgnoresStrip(q: string)
    ensures GR(Strip(q)) == GR(q)
  {
    StripIdempotent(q);
  }

  lemma NormIgnoresStrip(q: string)
    ensures Norm(Strip(q)) == Norm(q)
  {
    StripIdempotent(q);
  }

  /** The letter case of the query never changes what the search finds. */
  lemma SearchIgnoresQueryCase(st: Store, field: string, q: string)
    ensures Search(st, field, Upper(q)) == Search(st, field, q)
    ensures Search(st, field, Lower(q)) == Search(st, field, q)
  {
    SearchUpper(st, field, q);
    SearchLower(st, field, q);
  }

  lemma SearchUpper(st: Store, field: string, q: string)
    ensures Search(st, field, Upper(q)) == Search(st, field, q)
  {
    StripUpper(q);
    SearchStrippedUpper(st, Strip(field), Strip(q));
  }

  lemma SearchLower(st: Store, field: string, q: string)
    ensures Search(st, field, Lower(q)) == Search(st, field, q)
  {
    StripLower(q);
    SearchStrippedLower(st, Strip(field), Strip(q));
  }

  lemma SearchStrippedUpper(st: Store, b: string, t: string)
    ensures SearchStripped(st, b, Upper(t)) == SearchStripped(st, b, t)
  {
    var u := Upper(t);
    assert |u| == |t|;
    if t == "" {
      assert u == [];
    } else if b == "" {
    } else if b == "gr" {
      GRIgnoresCase(t);
      assert SearchStripped(st, b, u) == KeepKey(st.customers, CustomerAccount, GR(u));
    } else {
      NormIgnoresCase(t);
      assert SearchStripped(st, b, u) == TextSearch(st.customers, b, Norm(u));
    }
  }

  lemma SearchStrippedLower(st: Store, b: string, t: string)
    ensures SearchStripped(st, b, Lower(t)) == SearchStripped(st, b, t)
  {
    var u := Lower(t);
    assert |u| == |t|;
    if t == "" {
      assert u == [];
    } else if b == "" {
    } else if b == "gr" {
      GRIgnoresCase(t);
      assert SearchStripped(st, b, u) == KeepKey(st.customers, CustomerAccount, GR(u));
    } else {
      NormIgnoresCase(t);
      assert SearchStripped(st, b, u) == TextSearch(st.customers, b, Norm(u));
    }
  }

  /** What the banner at the top of each page shows for an account. */
  datatype CustomerInfo = CustomerInfo(name: string, gr: string, postcode: string, subscriptionStatus: string)

  /** `get_customer_info(gr)`: looked up through the dictionaries; the
      subscription status reads "Unknown" without a subscription. */
  function InfoFor(st: Store, gr: string): (r: Option<CustomerInfo>)
    ensures r.Some? <==> GR(gr) in st.customersByGr
  {
    var g := GR(gr);
    if g !in st.customersByGr then
      None
    else
      var c := st.customersByGr[g];
      var status := if g in st.subscriptionsByGr then st.subscriptionsByGr[g].status else "Unknown";
      Some(CustomerInfo(c.firstName + " " + c.lastName, c.gr, c.postcode, status))
  }

  /** In a consistent store the banner exists exactly for the accounts
      that have a customer record, and shows that record. */
  lemma InfoForExact(st: Store, gr: string)
    requires Valid(st)
    ensures InfoFor(st, gr).Some? <==> exists k :: 0 <= k < |st.customers| && CustomerAccount(st.customers[k]) == GR(gr)
    ensures forall k :: 0 <= k < |st.customers| && CustomerAccount(st.customers[k]) == GR(gr) ==>
              InfoFor(st, gr).value.gr == st.customers[k].gr
              && InfoFor(st, gr).value.postcode == st.customers[k].postcode
  {
    IndexAnswers(st.customersByGr, st.customers, CustomerAccount, GR(gr));
  }

  /** The messages page: the account's thread, or an empty log. */
  function MessagesFor(st: Store, gr: string): (r: seq<string>)
    ensures gr == "" ==> r == []
    ensures gr != "" && GR(gr) in st.messagesByGr ==> r == st.messagesByGr[GR(gr)].log
  {
    if gr == "" then []
    else if GR(gr) in st.messagesByGr then st.messagesByGr[GR(gr)].log
    else []
  }

  /** In a consistent store the messages shown are those of the thread
      whose account matches, and none when no thread does. */
  lemma MessagesForExact(st: Store, gr: string)
    requires Valid(st) && gr != ""
    ensures forall k :: 0 <= k < |st.messages| && ThreadAccount(st.messages[k]) == GR(gr) ==>
              MessagesFor(st, gr) == st.messages[k].log
    ensures (forall k :: 0 <= k < |st.messages| ==> ThreadAccount(st.messages[k]) != GR(gr)) ==>
              MessagesFor(st, gr) == []
  {
  }
}

=== FILE: records.dfy ===
/** The records the back office keeps in memory, loaded once from its JSON
    files: customers, orders, message threads, complaints, subscriptions
    and the activity log, plus the three lookup dictionaries keyed on the
    normalised account identifier ("GR"). A string field that JSON leaves
    out or sets to `""` is the empty string here, and a `null` string is
    not represented; amounts of money are whole pence. */
module Records {
  import opened Results
  import opened Seqs
  import opened Normalise

  datatype Customer = Customer(
    gr: string,
    firstName: string,
    lastName: string,
    email: string,
    phone: string,
    postcode: string,
    address: string,
    city: string)

  /** One entry of an order's `recipes` list: a JSON object with an `id`
      (empty when absent) and perhaps a `name`, or a bare string. */
  datatype RecipeEntry =
    | RecipeObj(id: string, name: Option<string>)
    | RecipeText(text: string)

  datatype Order = Order(
    gr: string,
    orderId: string,
    orderDate: string,
    status: string,
    boxSize: int,
    recipes: seq<RecipeEntry>,
    payment: int,
    courier: Option<string>)

  datatype Complaint = Complaint(
    complaintId: string,
    gr: string,
    orderId: string,
    recipe: string,
    issue: string,
    compensationType: string,
    compensation: int,
    status: string,
    date: string,
    createdBy: string,
    modifiedDate: Option<string>,
    modifiedBy: Option<string>)

  datatype Subscription = Subscription(
    gr: string,
    status: string,
    frequency: string,
    recipes: int,
    boxSize: int,
    deliveryDay: string)

  datatype MessageThread = MessageThread(gr: string, log: seq<string>)

  /** A JSON value of a request as a handler receives it: `null`, a
      boolean, a whole number, a string, or an array/object. */
  datatype Scalar = Null | Bool(b: bool) | Int(i: int) | Text(s: string) | Compound

  /** A JSON value an audit entry records: text or a whole number. */
  datatype Value = Str(s: string) | Num(n: int)

  /** One entry of an event's `details` object: `{key: {"old", "new"}}`. */
  datatype FieldChange = FieldChange(key: string, before: Value, after: Value)

  /** An activity-log entry; `changes` and `details` are present only on
      the events that carry them. */
  datatype Event = Event(
    gr: string,
    time: string,
    category: string,
    actor: string,
    description: string,
    detail: string,
    changes: Option<seq<string>>,
    details: Option<seq<FieldChange>>)

  /** The values a command takes from the process rather than the request:
      the current time as `%Y-%m-%dT%H:%M:%SZ`, today as `%Y%m%d`, and the
      first eight characters of a fresh UUID, upper-cased. */
  datatype Env = Env(now: string, dateStamp: string, token: string)

  // Every account match goes through GR; these name the keys the lists
  // are matched on.
  function CustomerAccount(c: Customer): string { GR(c.gr) }
  function OrderAccount(o: Order): string { GR(o.gr) }
  function ComplaintAccount(c: Complaint): string { GR(c.gr) }
  function SubscriptionAccount(s: Subscription): string { GR(s.gr) }
  function ThreadAccount(m: MessageThread): string { GR(m.gr) }
  function EventAccount(e: Event): string { GR(e.gr) }
  function OrderIdOf(o: Order): string { o.orderId }
  function ComplaintIdOf(c: Complaint): string { c.complaintId }
  function EventTime(e: Event): string { e.time }
  function EventCategory(e: Event): string { e.category }
  function EventActor(e: Event): string { e.actor }

  datatype Store = Store(
    customers: seq<Customer>,
    orders: seq<Order>,
    messages: seq<MessageThread>,
    complaints: seq<Complaint>,
    subscriptions: seq<Subscription>,
    activity: seq<Event>,
    customersByGr: map<string, Customer>,
    messagesByGr: map<string, MessageThread>,
    subscriptionsByGr: map<string, Subscription>)

  /** The state at start-up: the six lists as loaded and the three
      dictionaries built from them. */
  function Load(customers: seq<Customer>, orders: seq<Order>, messages: seq<MessageThread>,
                complaints: seq<Complaint>, subscriptions: seq<Subscription>,
                activity: seq<Event>): (st: Store)
    ensures st.customersByGr.Keys == KeySet(customers, CustomerAccount)
    ensures st.messagesByGr.Keys == KeySet(messages, ThreadAccount)
    ensures st.subscriptionsByGr.Keys == KeySet(subscriptions, SubscriptionAccount)
  {
    Store(customers, orders, messages, complaints, subscriptions, activity,
          BuildIndex(customers, CustomerAccount),
          BuildIndex(messages, ThreadAccount),
          BuildIndex(subscriptions, SubscriptionAccount))
  }

  /** The store is consistent: at most one customer, thread and
      subscription per account, each dictionary answering exactly the
      accounts of its list with their records, and order and complaint
      identifiers unique. */
  ghost predicate Valid(st: Store) {
    && UniqueKeys(st.customers, CustomerAccount)
    && IndexOf(st.customersByGr, st.customers, CustomerAccount)
    && UniqueKeys(st.messages, ThreadAccount)
    && IndexOf(st.messagesByGr, st.messages, ThreadAccount)
    && UniqueKeys(st.subscriptions, SubscriptionAccount)
    && IndexOf(st.subscriptionsByGr, st.subscriptions, SubscriptionAccount)
    && UniqueKeys(st.orders, OrderIdOf)
    && UniqueKeys(st.complaints, ComplaintIdOf)
  }

  /** Loading data whose accounts and identifiers are unique gives a
      consistent store. */
  lemma LoadValid(customers: seq<Customer>, orders: seq<Order>, messages: seq<MessageThread>,
                  complaints: seq<Complaint>, subscriptions: seq<Subscription>,
                  activity: seq<Event>)
    requires UniqueKeys(customers, CustomerAccount)
    requires UniqueKeys(messages, ThreadAccount)
    requires UniqueKeys(subscriptions, SubscriptionAccount)
    requires UniqueKeys(orders, OrderIdOf)
    requires UniqueKeys(complaints, ComplaintIdOf)
    ensures Valid(Load(customers, orders, messages, complaints, subscriptions, activity))
  {
    BuildIndexFaithful(customers, CustomerAccount);
    BuildIndexFaithful(messages, ThreadAccount);
    BuildIndexFaithful(subscriptions, SubscriptionAccount);
  }
}

=== FILE: results.dfy ===
/** Failure-carrying values shared by every command of the back office.

    The Flask handlers answer with an HTTP status and an error text; here a
    command returns `Ok(value)` or `Err(error)`, and the error names its kind
    (400 for bad input, 404 for a missing record, 400 for a violated domain
    precondition, 500 for a Python exception) together with the text the
    handler sends back. */
module Results {

  datatype Option<+T> = None | Some(value: T) {
    function GetOr(default: T): T {
      match this
      case Some(v) => v
      case None => default
    }
  }

  /** The failure kinds of the handlers: bad or missing input (HTTP 400),
      an absent account, order, complaint or subscription (HTTP 404), a
      domain precondition that does not hold (HTTP 400 in the handlers), and
      a Python exception caught by the generic handler (HTTP 500). */
  datatype ErrorKind = Validation | NotFound | Conflict | Internal

  datatype Error = Error(kind: ErrorKind, reason: string)

  datatype Result<+T> = Ok(value: T) | Err(error: Error) {
    predicate IsFailure() {
      Err?
    }

    function PropagateFailure<U>(): Result<U>
      requires Err?
    {
      Err(error)
    }

    function Extract(): T
      requires Ok?
    {
      value
    }
  }

  function Fail<T>(kind: ErrorKind, reason: string): Result<T> {
    Err(Error(kind, reason))
  }
}

=== FILE: seqs.dfy ===
/** The collection shapes the handlers use over their in-memory lists:
    list comprehensions filtered on one key, the `for i, x in enumerate(xs):
    if ...: break` search for the first match, and the dictionaries built
    with `{key(x): x for x in xs}` that serve as lookup indices. */
module Seqs {
  import opened Results

  /** `[x for x in s if key(x) == k]`. */
  function KeepKey<T(!new), K(==)>(s: seq<T>, key: T -> K, k: K): (r: seq<T>)
    ensures |r| <= |s|
    ensures forall i :: 0 <= i < |r| ==> key(r[i]) == k
  {
    if s == [] then [] else (if key(s[0]) == k then [s[0]] else []) + KeepKey(s[1..], key, k)
  }

  /** `[x for x in s if key(x) != k]`. */
  function DropKey<T(!new), K(==)>(s: seq<T>, key: T -> K, k: K): (r: seq<T>)
    ensures |r| <= |s|
    ensures forall i :: 0 <= i < |r| ==> key(r[i]) != k
  {
    if s == [] then [] else (if key(s[0]) != k then [s[0]] else []) + DropKey(s[1..], key, k)
  }

  lemma HeadTail<T>(s: seq<T>)
    requires s != []
    ensures [s[0]] + s[1..] == s
    ensures |s| == 1 ==> s == [s[0]]
  {
  }

  lemma AppendAssoc<T>(a: seq<T>, b: seq<T>, c: seq<T>)
    ensures a + (b + c) == (a + b) + c
  {
    assert forall i :: 0 <= i < |a| + |b| + |c| ==> (a + (b + c))[i] == ((a + b) + c)[i];
  }

  /** Filtering a list that starts with `x`. */
  lemma KeepKeyCons<T(!new), K>(x: T, rest: seq<T>, key: T -> K, k: K)
    ensures KeepKey([x] + rest, key, k) == (if key(x) == k then [x] else []) + KeepKey(rest, key, k)
  {
    var s := [x] + rest;
    assert s[0] == x && s[1..] == rest;
  }

  /** Exactly the elements of `s` with key `k` survive the filter. */
  lemma {:induction false} KeepKeyMembers<T(!new), K>(s: seq<T>, key: T -> K, k: K)
    ensures forall x :: x in KeepKey(s, key, k) <==> x in s && key(x) == k
    decreases |s|
  {
    if s != [] {
      KeepKeyMembers(s[1..], key, k);
      assert s == [s[0]] + s[1..];
    }
  }

  /** Exactly the elements of `s` without key `k` survive the filter. */
  lemma {:induction false} DropKeyMembers<T(!new), K>(s: seq<T>, key: T -> K, k: K)
    ensures forall x :: x in DropKey(s, key, k) <==> x in s && key(x) != k
    decreases |s|
  {
    if s != [] {
      DropKeyMembers(s[1..], key, k);
      assert s == [s[0]] + s[1..];
    }
  }

  /** Filtering distributes over concatenation: it keeps the relative order
      of what it keeps. */
  lemma {:induction false} KeepKeyAppend<T(!new), K>(a: seq<T>, b: seq<T>, key: T -> K, k: K)
    ensures KeepKey(a + b, key, k) == KeepKey(a, key, k) + KeepKey(b, key, k)
    decreases |a|
  {
    if a == [] {
      assert a + b == b;
    } else {
      assert (a + b)[0] == a[0];
      assert (a + b)[1..] == a[1..] + b;
      KeepKeyAppend(a[1..], b, key, k);
    }
  }

  lemma {:induction false} DropKeyAppend<T(!new), K>(a: seq<T>, b: seq<T>, key: T -> K, k: K)
    ensures DropKey(a + b, key, k) == DropKey(a, key, k) + DropKey(b, key, k)
    decreases |a|
  {
    if a == [] {
      assert a + b == b;
    } else {
      assert (a + b)[0] == a[0];
      assert (a + b)[1..] == a[1..] + b;
      DropKeyAppend(a[1..], b, key, k);
    }
  }

  /** Keeping and dropping one key split a list without loss: every element
      goes to exactly one side. */
  lemma {:induction false} KeepDropPartition<T(!new), K>(s: seq<T>, key: T -> K, k: K)
    ensures multiset(KeepKey(s, key, k)) + multiset(DropKey(s, key, k)) == multiset(s)
    ensures |KeepKey(s, key, k)| + |DropKey(s, key, k)| == |s|
    decreases |s|
  {
    if s != [] {
      KeepDropPartition(s[1..], key, k);
      assert s == [s[0]] + s[1..];
    }
  }

  lemma {:induction false} KeepKeyAll<T(!new), K>(s: seq<T>, key: T -> K, k: K)
    requires forall i :: 0 <= i < |s| ==> key(s[i]) == k
    ensures KeepKey(s, key, k) == s
    decreases |s|
  {
    if s != [] {
      KeepKeyAll(s[1..], key, k);
      assert s == [s[0]] + s[1..];
    }
  }

  lemma {:induction false} DropKeyNone<T(!new), K>(s: seq<T>, key: T -> K, k: K)
    requires forall i :: 0 <= i < |s| ==> key(s[i]) != k
    ensures DropKey(s, key, k) == s
    decreases |s|
  {
    if s != [] {
      DropKeyNone(s[1..], key, k);
      assert s == [s[0]] + s[1..];
    }
  }

  /** Filtering on a key twice, or on a second key, is the same as on
      the first key when both agree. */
  lemma {:induction false} KeepKeyOfKept<T(!new), K>(s: seq<T>, key: T -> K, k: K)
    ensures KeepKey(KeepKey(s, key, k), key, k) == KeepKey(s, key, k)
  {
    var r := KeepKey(s, key, k);
    assert forall i :: 0 <= i < |r| ==> r[i] in r;
    KeepKeyAll(r, key, k);
  }

  /** Dropping one key leaves the elements of every other key as they
      were, in the same order, and none of the dropped key. */
  lemma {:induction false} KeepAfterDrop<T(!new), K>(s: seq<T>, key: T -> K, k: K, j: K)
    ensures KeepKey(DropKey(s, key, k), key, j) == if j == k then [] else KeepKey(s, key, j)
    decreases |s|
  {
    if s != [] {
      KeepAfterDrop(s[1..], key, k, j);
      var rest := DropKey(s[1..], key, k);
      if key(s[0]) != k {
        assert DropKey(s, key, k) == [s[0]] + rest;
        KeepKeyAppend([s[0]], rest, key, j);
      } else {
        assert DropKey(s, key, k) == rest;
        assert KeepKey(s, key, j) == (if key(s[0]) == j then [s[0]] else []) + KeepKey(s[1..], key, j);
      }
    }
  }

  /** `r` is `s` with some elements left out and the rest in their
      original order. */
  predicate IsSubsequence<T(==)>(r: seq<T>, s: seq<T>)
    decreases |s|
  {
    if r == [] then true
    else if s == [] then false
    else (r[0] == s[0] && IsSubsequence(r[1..], s[1..])) || IsSubsequence(r, s[1..])
  }

  /** Dropping a key keeps the other elements in their original order. */
  lemma {:induction false} DropKeySubsequence<T(!new), K>(s: seq<T>, key: T -> K, k: K)
    ensures IsSubsequence(DropKey(s, key, k), s)
    decreases |s|
  {
    if s != [] {
      var rest := DropKey(s[1..], key, k);
      DropKeySubsequence(s[1..], key, k);
      if key(s[0]) != k {
        var r := [s[0]] + rest;
        assert DropKey(s, key, k) == r;
        assert r[0] == s[0] && r[1..] == rest;
      } else {
        assert DropKey(s, key, k) == rest;
      }
    }
  }

  /** The index of the first element whose key is `k`: the loop
      `for i, x in enumerate(s): if key(x) == k: ...; break`. */
  function FirstWithKey<T, K(==)>(s: seq<T>, key: T -> K, k: K): (r: Option<nat>)
    ensures r.None? <==> forall i :: 0 <= i < |s| ==> key(s[i]) != k
    ensures r.Some? ==> r.value < |s| && key(s[r.value]) == k
    ensures r.Some? ==> forall j :: 0 <= j < r.value ==> key(s[j]) != k
  {
    if s == [] then
      None
    else if key(s[0]) == k then
      Some(0)
    else
      match FirstWithKey(s[1..], key, k)
      case None => None
      case Some(i) => Some(i + 1)
  }

  /** Replacing the first match by an element with the same key leaves it
      the first match. */
  lemma FirstWithKeyReplace<T, K>(s: seq<T>, key: T -> K, k: K, i: nat, v: T)
    requires FirstWithKey(s, key, k) == Some(i)
    requires key(v) == k
    ensures FirstWithKey(s[i := v], key, k) == Some(i)
  {
    var s' := s[i := v];
    assert key(s'[i]) == k;
    var r := FirstWithKey(s', key, k);
    assert r.Some?;
    assert forall j :: 0 <= j < i ==> key(s'[j]) != k;
  }

  /** The keys present in `s`. */
  function KeySet<T, K>(s: seq<T>, key: T -> K): set<K> {
    set i | 0 <= i < |s| :: key(s[i])
  }

  /** No two elements of `s` share a key. */
  ghost predicate UniqueKeys<T, K>(s: seq<T>, key: T -> K) {
    forall i, j :: 0 <= i < j < |s| ==> key(s[i]) != key(s[j])
  }

  /** `m` answers every key of `s` with the element holding it, and
      knows no other key. */
  ghost predicate IndexOf<T, K>(m: map<K, T>, s: seq<T>, key: T -> K) {
    && m.Keys == KeySet(s, key)
    && forall i :: 0 <= i < |s| ==> key(s[i]) in m && m[key(s[i])] == s[i]
  }

  /** What a lookup in an index of `s` answers. */
  lemma IndexAnswers<T, K>(m: map<K, T>, s: seq<T>, key: T -> K, g: K)
    requires IndexOf(m, s, key)
    ensures g in m <==> exists k :: 0 <= k < |s| && key(s[k]) == g
    ensures forall k :: 0 <= k < |s| && key(s[k]) == g ==> g in m && m[g] == s[k]
  {
    if g in m {
      assert g in KeySet(s, key);
    }
  }

  /** `{key(x): x for x in s}`: a later element with the same key
      overwrites an earlier one. */
  function BuildIndex<T, K>(s: seq<T>, key: T -> K): (m: map<K, T>)
    ensures m.Keys == KeySet(s, key)
    ensures forall i :: 0 <= i < |s| && LastWithKey(s, key, i) ==> key(s[i]) in m && m[key(s[i])] == s[i]
    decreases |s|
  {
    if s == [] then
      map[]
    else
      var n := |s| - 1;
      var m := BuildIndex(s[..n], key);
      BuildIndexStep(s, key, m);
      m[key(s[n]) := s[n]]
  }

  /** No element after position `i` has the key of `s[i]`. */
  ghost predicate LastWithKey<T, K>(s: seq<T>, key: T -> K, i: int)
    requires 0 <= i < |s|
  {
    forall j :: i < j < |s| ==> key(s[j]) != key(s[i])
  }

  lemma BuildIndexStep<T, K>(s: seq<T>, key: T -> K, m: map<K, T>)
    requires s != []
    requires m.Keys == KeySet(s[..|s| - 1], key)
    requires forall i :: 0 <= i < |s| - 1 && LastWithKey(s[..|s| - 1], key, i)
                         ==> key(s[i]) in m && m[key(s[i])] == s[i]
    ensures m[key(s[|s| - 1]) := s[|s| - 1]].Keys == KeySet(s, key)
    ensures forall i :: 0 <= i < |s| && LastWithKey(s, key, i)
                        ==> m[key(s[|s| - 1]) := s[|s| - 1]][key(s[i])] == s[i]
  {
    var n := |s| - 1;
    var p := s[..n];
    assert forall i :: 0 <= i < n ==> p[i] == s[i];
    assert KeySet(s, key) == KeySet(p, key) + {key(s[n])};
    forall i | 0 <= i < n && LastWithKey(s, key, i)
      ensures m[key(s[n]) := s[n]][key(s[i])] == s[i]
    {
      assert LastWithKey(p, key, i);
    }
  }

  /** With unique keys the comprehension is a faithful index. */
  lemma BuildIndexFaithful<T, K>(s: seq<T>, key: T -> K)
    requires UniqueKeys(s, key)
    ensures IndexOf(BuildIndex(s, key), s, key)
  {
  }

  /** Replacing one element by another with the same key, and updating the
      index entry for that key, keeps the index faithful and the keys
      unique. */
  lemma ReplaceKeepsIndex<T, K>(m: map<K, T>, s: seq<T>, key: T -> K, i: nat, v: T)
    requires IndexOf(m, s, key) && UniqueKeys(s, key)
    requires i < |s| && key(v) == key(s[i])
    ensures IndexOf(m[key(v) := v], s[i := v], key)
    ensures UniqueKeys(s[i := v], key)
  {
    var s' := s[i := v];
    assert KeySet(s', key) == KeySet(s, key) by {
      assert forall j :: 0 <= j < |s| ==> key(s'[j]) == key(s[j]);
    }
  }

  /** Removing the element at `i`: the rest keep their order and nothing
      else is lost. */
  lemma RemoveAt<T>(s: seq<T>, i: nat)
    requires i < |s|
    ensures |s[..i] + s[i + 1..]| == |s| - 1
    ensures forall j :: 0 <= j < i ==> (s[..i] + s[i + 1..])[j] == s[j]
    ensures forall j :: i < j < |s| ==> (s[..i] + s[i + 1..])[j - 1] == s[j]
    ensures multiset(s[..i] + s[i + 1..]) + multiset{s[i]} == multiset(s)
  {
    assert s == s[..i] + [s[i]] + s[i + 1..];
  }

  /** Replacing one element by another with the same key keeps keys
      unique. */
  lemma ReplaceKeepsUnique<T, K>(s: seq<T>, key: T -> K, i: nat, v: T)
    requires UniqueKeys(s, key) && i < |s| && key(v) == key(s[i])
    ensures UniqueKeys(s[i := v], key)
  {
    assert forall j :: 0 <= j < |s| ==> key(s[i := v][j]) == key(s[j]);
  }

  /** Removing one element keeps the others' keys unique. */
  lemma RemoveKeepsUnique<T, K>(s: seq<T>, key: T -> K, i: nat)
    requires UniqueKeys(s, key) && i < |s|
    ensures UniqueKeys(s[..i] + s[i + 1..], key)
  {
    var r := s[..i] + s[i + 1..];
    assert forall j :: 0 <= j < |r| ==> r[j] == (if j < i then s[j] else s[j + 1]);
  }

  /** Appending an element with a fresh key keeps keys unique. */
  lemma AppendKeepsUnique<T, K>(s: seq<T>, key: T -> K, v: T)
    requires UniqueKeys(s, key)
    requires forall j :: 0 <= j < |s| ==> key(s[j]) != key(v)
    ensures UniqueKeys(s + [v], key)
  {
  }

  /** Filtering keeps keys unique. */
  lemma {:induction false} DropKeepsUnique<T(!new), K, L>(s: seq<T>, key: T -> K, sel: T -> L, l: L)
    requires UniqueKeys(s, key)
    ensures UniqueKeys(DropKey(s, sel, l), key)
    decreases |s|
  {
    if s != [] {
      DropKeepsUnique(s[1..], key, sel, l);
      var rest := DropKey(s[1..], sel, l);
      DropKeyMembers(s[1..], sel, l);
      forall j | 0 <= j < |rest|
        ensures key(rest[j]) != key(s[0])
      {
        assert rest[j] in s[1..];
      }
    }
  }
}

=== FILE: sorting.dfy ===
/** `sorted(xs, key=..., reverse=True)` on string keys: Python's sort is
    stable, and with `reverse=True` elements with equal keys still keep
    their original relative order. Modelled as an insertion sort whose
    result is non-increasing, a permutation of the input, and stable. */
module Sorting {
  import opened Text
  import opened Seqs

  /** No element is followed by one with a strictly larger key. */
  ghost predicate SortedDesc<T>(s: seq<T>, key: T -> string) {
    forall i, j :: 0 <= i < j < |s| ==> !LexLess(key(s[i]), key(s[j]))
  }

  /** Places `x` after every element whose key is at least its own. */
  function Insert<T>(t: seq<T>, x: T, key: T -> string): (r: seq<T>)
    ensures multiset(r) == multiset(t) + multiset{x}
    decreases |t|
  {
    if t == [] || LexLess(key(t[0]), key(x)) then
      [x] + t
    else
      assert t == [t[0]] + t[1..];
      [t[0]] + Insert(t[1..], x, key)
  }

  /** The sorted order of keys is a total preorder on elements. */
  lemma KeyOrder(a: string, b: string, c: string)
    ensures !LexLess(a, b) && !LexLess(b, c) ==> !LexLess(a, c)
    ensures LexLess(a, b) ==> !LexLess(b, a)
    ensures !LexLess(a, b) ==> LexLess(b, a) || a == b
  {
    LexLessAsymmetric(a, b);
    LexLessTotal(a, b);
    LexLessTotal(b, c);
    LexLessTotal(a, c);
    if LexLess(a, c) && !LexLess(a, b) && !LexLess(b, c) {
      if LexLess(b, a) {
        LexLessTransitive(b, a, c);
        LexLessAsymmetric(b, c);
      }
    }
  }

  lemma {:induction false} InsertSorted<T>(t: seq<T>, x: T, key: T -> string)
    requires SortedDesc(t, key)
    ensures SortedDesc(Insert(t, x, key), key)
    decreases |t|
  {
    if t == [] {
    } else if LexLess(key(t[0]), key(x)) {
      AboveHead(t, x, key);
      ConsSorted(x, t, key);
    } else {
      InsertSorted(t[1..], x, key);
      var rest := Insert(t[1..], x, key);
      forall j | 0 <= j < |rest|
        ensures !LexLess(key(t[0]), key(rest[j]))
      {
        assert rest[j] in multiset(rest);
        if rest[j] != x {
          assert rest[j] in t[1..];
          var m :| 0 <= m < |t[1..]| && t[1..][m] == rest[j];
          assert t[m + 1] == rest[j];
        }
      }
      ConsSorted(t[0], rest, key);
    }
  }

  /** An element no smaller than everything after it heads a sorted list. */
  lemma ConsSorted<T>(x: T, rest: seq<T>, key: T -> string)
    requires SortedDesc(rest, key)
    requires forall j :: 0 <= j < |rest| ==> !LexLess(key(x), key(rest[j]))
    ensures SortedDesc([x] + rest, key)
  {
    var r := [x] + rest;
    forall i, j | 0 <= i < j < |r|
      ensures !LexLess(key(r[i]), key(r[j]))
    {
      assert r[j] == rest[j - 1];
      if i > 0 {
        assert r[i] == rest[i - 1];
      }
    }
  }

  /** A key above the head of a sorted list is above all of it. */
  lemma AboveHead<T>(t: seq<T>, x: T, key: T -> string)
    requires SortedDesc(t, key) && t != [] && LexLess(key(t[0]), key(x))
    ensures forall j :: 0 <= j < |t| ==> !LexLess(key(x), key(t[j]))
  {
    forall j | 0 <= j < |t|
      ensures !LexLess(key(x), key(t[j]))
    {
      if j == 0 {
        LexLessAsymmetric(key(t[0]), key(x));
      } else {
        NotAbove(key(t[0]), key(x), key(t[j]));
      }
    }
  }

  lemma NotAbove(a: string, b: string, c: string)
    requires LexLess(a, b) && !LexLess(a, c)
    ensures !LexLess(b, c)
  {
    if LexLess(b, c) {
      LexLessTransitive(a, b, c);
    }
  }

  /** `sorted(s, key=key, reverse=True)`. */
  function SortDesc<T>(s: seq<T>, key: T -> string): (r: seq<T>)
    ensures multiset(r) == multiset(s)
    ensures SortedDesc(r, key)
    decreases |s|
  {
    if s == [] then
      []
    else
      var n := |s| - 1;
      var prefix := SortDesc(s[..n], key);
      InsertSorted(prefix, s[n], key);
      assert s == s[..n] + [s[n]];
      Insert(prefix, s[n], key)
  }

  lemma {:induction false} KeepKeyNone<T(!new)>(s: seq<T>, key: T -> string, k: string)
    requires forall i :: 0 <= i < |s| ==> key(s[i]) != k
    ensures KeepKey(s, key, k) == []
    decreases |s|
  {
    if s != [] {
      KeepKeyNone(s[1..], key, k);
    }
  }

  /** In a sorted list headed by a key below `b`, every key is below `b`. */
  lemma AllBelow<T>(t: seq<T>, key: T -> string, b: string)
    requires SortedDesc(t, key) && t != [] && LexLess(key(t[0]), b)
    ensures forall i :: 0 <= i < |t| ==> key(t[i]) != b
  {
    forall i | 0 < i < |t|
      ensures key(t[i]) != b
    {
      KeyOrder(key(t[i]), key(t[0]), b);
      assert !LexLess(key(t[0]), key(t[i]));
      LexLessTotal(key(t[0]), key(t[i]));
      if LexLess(key(t[i]), key(t[0])) {
        LexLessTransitive(key(t[i]), key(t[0]), b);
        LexLessIrreflexive(b);
      }
    }
    LexLessIrreflexive(b);
  }

  lemma InsertStableFront<T(!new)>(t: seq<T>, x: T, key: T -> string, k: string)
    requires SortedDesc(t, key) && t != [] && LexLess(key(t[0]), key(x))
    ensures KeepKey([x] + t, key, k) == KeepKey(t, key, k) + KeepKey([x], key, k)
  {
    KeepKeyAppend([x], t, key, k);
    if key(x) == k {
      AllBelow(t, key, key(x));
      KeepKeyNone(t, key, k);
    }
  }

  lemma {:induction false} InsertStable<T(!new)>(t: seq<T>, x: T, key: T -> string, k: string)
    requires SortedDesc(t, key)
    ensures KeepKey(Insert(t, x, key), key, k) == KeepKey(t, key, k) + KeepKey([x], key, k)
    decreases |t|
  {
    if t == [] {
      assert [x] + t == [x];
    } else if LexLess(key(t[0]), key(x)) {
      InsertStableFront(t, x, key, k);
    } else {
      InsertStable(t[1..], x, key, k);
      ConsKeep(t, Insert(t[1..], x, key), [x], key, k);
    }
  }

  /** Filtering `[t[0]] + rest`, where `rest` filters like `t[1..] + u`. */
  lemma ConsKeep<T(!new), K>(t: seq<T>, rest: seq<T>, u: seq<T>, key: T -> K, k: K)
    requires t != []
    requires KeepKey(rest, key, k) == KeepKey(t[1..], key, k) + KeepKey(u, key, k)
    ensures KeepKey([t[0]] + rest, key, k) == KeepKey(t, key, k) + KeepKey(u, key, k)
  {
    var h := if key(t[0]) == k then [t[0]] else [];
    var a := KeepKey(t[1..], key, k);
    var b := KeepKey(u, key, k);
    KeepKeyCons(t[0], rest, key, k);
    assert KeepKey([t[0]] + rest, key, k) == h + (a + b);
    KeepKeyCons(t[0], t[1..], key, k);
    assert [t[0]] + t[1..] == t;
    assert KeepKey(t, key, k) == h + a;
    AppendAssoc(h, a, b);
  }

  /** Elements with equal keys keep their original relative order. */
  lemma {:induction false} SortDescStable<T(!new)>(s: seq<T>, key: T -> string, k: string)
    ensures KeepKey(SortDesc(s, key), key, k) == KeepKey(s, key, k)
    decreases |s|
  {
    if s != [] {
      var n := |s| - 1;
      SortDescStable(s[..n], key, k);
      InsertStable(SortDesc(s[..n], key), s[n], key, k);
      assert s == s[..n] + [s[n]];
      KeepKeyAppend(s[..n], [s[n]], key, k);
    }
  }

  /** Filtering a sorted list, on any key, leaves it sorted. */
  lemma {:induction false} KeepKeySorted<T(!new), K>(s: seq<T>, key: T -> string, sel: T -> K, k: K)
    requires SortedDesc(s, key)
    ensures SortedDesc(KeepKey(s, sel, k), key)
    decreases |s|
  {
    if s != [] {
      KeepKeySorted(s[1..], key, sel, k);
      var rest := KeepKey(s[1..], sel, k);
      var r := KeepKey(s, sel, k);
      if sel(s[0]) == k {
        assert r == [s[0]] + rest;
        KeepKeyMembers(s[1..], sel, k);
        forall j | 0 <= j < |rest|
          ensures !LexLess(key(s[0]), key(rest[j]))
        {
          assert rest[j] in s[1..];
          var m :| 0 <= m < |s[1..]| && s[1..][m] == rest[j];
          assert s[m + 1] == rest[j];
        }
        assert forall i, j :: 0 < i < j < |r| ==> r[i] == rest[i - 1] && r[j] == rest[j - 1];
      } else {
        assert r == rest;
      }
    }
  }
}

=== FILE: subscriptions.dfy ===
/** The subscription form: any of status, frequency, recipes per box, box
    size and delivery day may be sent; absent keys keep their stored
    values, and the two counts go through Python's `int()`. A field-by-field
    comparison feeds the audit event, logged only when something changed. */
module Subscriptions {
  import opened Results
  import opened Text
  import opened Numbers
  import opened Seqs
  import opened Normalise
  import opened Records
  import opened Audit

  /** What `int(v)` does: a number, a ValueError, or a TypeError. */
  datatype Conversion = Converted(n: int) | ValueErr | TypeErr

  /** Python's `int()` on a JSON scalar: booleans are 0 and 1, numbers pass
      through, strings are parsed, and `None`, lists and dicts are refused
      with a TypeError. */
  function ToInt(v: Scalar): (r: Conversion)
    ensures r.Converted? <==> v.Bool? || v.Int? || (v.Text? && ParseInt(v.s).Some?)
    ensures r.TypeErr? <==> v.Null? || v.Compound?
    ensures v.Int? ==> r == Converted(v.i)
    ensures v.Text? && r.Converted? ==> ParseInt(v.s) == Some(r.n)
  {
    match v
    case Null => TypeErr
    case Bool(b) => Converted(if b then 1 else 0)
    case Int(i) => Converted(i)
    case Text(s) => (match ParseInt(s) case Some(n) => Converted(n) case None => ValueErr)
    case Compound => TypeErr
  }

  /** A whole number written as text converts back to itself. */
  lemma ToIntOfText(n: int)
    ensures ToInt(Text(IntToString(n))) == Converted(n)
  {
    ParseIntRoundTrip(n);
  }

  /** The JSON body; `None` is an absent key. */
  datatype SubscriptionForm = SubscriptionForm(
    gr: string,
    status: Option<string>,
    frequency: Option<string>,
    recipes: Option<Scalar>,
    boxSize: Option<Scalar>,
    deliveryDay: Option<string>)

  /** `int(data.get(key, stored))`: the stored value when the key is
      absent, else the conversion; a ValueError answers 400 with "Invalid
      data format", any other exception 500 with "Server error". */
  function Count(sent: Option<Scalar>, stored: int): (r: Result<int>)
    ensures sent.None? ==> r == Ok(stored)
    ensures sent.Some? ==> (r.Ok? <==> ToInt(sent.value).Converted?)
    ensures sent.Some? && r.Ok? ==> r.value == ToInt(sent.value).n
    ensures r.Err? ==> (r.error.kind == Validation <==> ToInt(sent.value).ValueErr?)
  {
    match sent
    case None => Ok(stored)
    case Some(v) =>
      match ToInt(v)
      case Converted(n) => Ok(n)
      case ValueErr => Fail(Validation, "Invalid data format")
      case TypeErr => Fail(Internal, "Server error")
  }

  /** Whether a sent count converts; an absent one keeps the stored value. */
  predicate Converts(sent: Option<Scalar>) {
    sent.None? || ToInt(sent.value).Converted?
  }

  /** The reply to a count `int()` refuses: 400 "Invalid data format" for a
      ValueError, 500 "Server error" for anything else. */
  function ConversionError(v: Scalar): (e: Error)
    requires !ToInt(v).Converted?
    ensures e.kind == Validation <==> v.Text? && ParseInt(v.s).None?
    ensures e.kind == Internal <==> v.Null? || v.Compound?
  {
    if ToInt(v).ValueErr? then Error(Validation, "Invalid data format") else Error(Internal, "Server error")
  }

  /** The five compared fields, in the order the change lines list them. */
  function SubscriptionFields(before: Subscription, after: Subscription): (fs: seq<Field>)
    ensures |fs| == 5
  {
    [ Field("status", "Status", Str(before.status), Str(after.status)),
      Field("frequency", "Frequency", Str(before.frequency), Str(after.frequency)),
      Field("recipes", "Recipes", Num(before.recipes), Num(after.recipes)),
      Field("box_size", "Box size", Num(before.boxSize), Num(after.boxSize)),
      Field("delivery_day", "Delivery day", Str(before.deliveryDay), Str(after.deliveryDay)) ]
  }

  /** The reply of a successful update: the record and the change lines. */
  datatype SubscriptionReply = SubscriptionReply(subscription: Subscription, changes: seq<string>)

  function SubscriptionEvent(gr: string, env: Env, fs: seq<Field>): Event {
    Event(gr, env.now, "subscription_update", "admin", "Subscription updated",
          DetailText(|ChangeLines(fs)|), Some(ChangeLines(fs)), Some(ChangeDetails(fs)))
  }

  /** The record with the form applied, once both counts have converted. */
  function Applied(s: Subscription, f: SubscriptionForm, recipes: int, boxSize: int): (r: Subscription)
    ensures r.gr == s.gr && r.recipes == recipes && r.boxSize == boxSize
    ensures r.status == f.status.GetOr(s.status)
    ensures r.frequency == f.frequency.GetOr(s.frequency)
    ensures r.deliveryDay == f.deliveryDay.GetOr(s.deliveryDay)
  {
    s.(status := f.status.GetOr(s.status),
       frequency := f.frequency.GetOr(s.frequency),
       recipes := recipes,
       boxSize := boxSize,
       deliveryDay := f.deliveryDay.GetOr(s.deliveryDay))
  }

  /** Stores the updated record at position `i` and in the index, and logs
      the changes when there are any. */
  function Commit(st: Store, env: Env, gr: string, i: nat, after: Subscription): (r: (Store, SubscriptionReply))
    requires i < |st.subscriptions|
    ensures r.0.subscriptions == st.subscriptions[i := after]
    ensures r.0.subscriptionsByGr == st.subscriptionsByGr[GR(gr) := after]
    ensures && r.0.customers == st.customers && r.0.orders == st.orders
            && r.0.complaints == st.complaints && r.0.messages == st.messages
            && r.0.customersByGr == st.customersByGr && r.0.messagesByGr == st.messagesByGr
    ensures r.1.subscription == after
    ensures r.1.changes == ChangeLines(SubscriptionFields(st.subscriptions[i], after))
    ensures r.1.changes == [] <==> after.(gr := st.subscriptions[i].gr) == st.subscriptions[i]
    ensures |r.0.activity| == |st.activity| + (if r.1.changes == [] then 0 else 1)
    ensures r.0.activity[..|st.activity|] == st.activity
  {
    var fs := SubscriptionFields(st.subscriptions[i], after);
    var changes := ChangeLines(fs);
    SubscriptionFieldsSame(st.subscriptions[i], after);
    (st.(subscriptions := st.subscriptions[i := after],
         subscriptionsByGr := st.subscriptionsByGr[GR(gr) := after],
         activity := if changes == [] then st.activity else st.activity + [SubscriptionEvent(gr, env, fs)]),
     SubscriptionReply(after, changes))
  }

  /** The five compared fields all agree exactly when the records agree
      apart from the account. */
  lemma SubscriptionFieldsSame(s: Subscription, t: Subscription)
    ensures Changed(SubscriptionFields(s, t)) == [] <==> t.(gr := s.gr) == s
  {
    var fs := SubscriptionFields(s, t);
    ChangedEmptyIff(fs);
    if t.(gr := s.gr) != s {
      assert !(fs[0].before == fs[0].after && fs[1].before == fs[1].after && fs[2].before == fs[2].after
               && fs[3].before == fs[3].after && fs[4].before == fs[4].after);
    }
  }

  /** `update_subscription`, with every check made before anything is
      written: an error leaves the store as it was. */
  function UpdateSubscription(st: Store, env: Env, f: SubscriptionForm): (r: Result<(Store, SubscriptionReply)>)
    ensures f.gr == "" ==> r == Err(Error(Validation, "No GR provided"))
    ensures f.gr != "" ==>
              (r.Ok? <==> && (exists k :: 0 <= k < |st.subscriptions| && SubscriptionAccount(st.subscriptions[k]) == GR(f.gr))
                          && Converts(f.recipes) && Converts(f.boxSize))
    ensures f.gr != "" && FirstWithKey(st.subscriptions, SubscriptionAccount, GR(f.gr)).None? ==>
              r == Err(Error(NotFound, "Subscription not found"))
    ensures f.gr != "" && FirstWithKey(st.subscriptions, SubscriptionAccount, GR(f.gr)).Some? ==>
              && (!Converts(f.recipes) ==> r == Err(ConversionError(f.recipes.value)))
              && (Converts(f.recipes) && !Converts(f.boxSize) ==> r == Err(ConversionError(f.boxSize.value)))
    ensures r.Ok? ==> && r.value.0.customers == st.customers && r.value.0.orders == st.orders
                      && r.value.0.complaints == st.complaints && r.value.0.messages == st.messages
                      && r.value.0.customersByGr == st.customersByGr && r.value.0.messagesByGr == st.messagesByGr
                      && |r.value.0.subscriptions| == |st.subscriptions|
  {
    if f.gr == "" then
      Fail(Validation, "No GR provided")
    else
      match FirstWithKey(st.subscriptions, SubscriptionAccount, GR(f.gr))
      case None => Fail(NotFound, "Subscription not found")
      case Some(i) =>
        var s := st.subscriptions[i];
        var recipes :- Count(f.recipes, s.recipes);
        var boxSize :- Count(f.boxSize, s.boxSize);
        Ok(Commit(st, env, f.gr, i, Applied(s, f, recipes, boxSize)))
  }

  /** How a successful update is computed: the account's first
      subscription, both counts converted, the form applied and committed. */
  lemma UpdateSubscriptionShape(st: Store, env: Env, f: SubscriptionForm)
    requires UpdateSubscription(st, env, f).Ok?
    ensures var i := FirstWithKey(st.subscriptions, SubscriptionAccount, GR(f.gr));
            && f.gr != "" && i.Some?
            && var s := st.subscriptions[i.value];
               && Count(f.recipes, s.recipes).Ok? && Count(f.boxSize, s.boxSize).Ok?
               && UpdateSubscription(st, env, f)
                  == Ok(Commit(st, env, f.gr, i.value,
                               Applied(s, f, Count(f.recipes, s.recipes).value, Count(f.boxSize, s.boxSize).value)))
  {
  }

  /** On success: the account's first subscription takes every sent field
      and keeps every absent one, and exactly one event is logged when some
      field changed, none otherwise. */
  lemma UpdateSubscriptionEffect(st: Store, env: Env, f: SubscriptionForm)
    requires UpdateSubscription(st, env, f).Ok?
    ensures var i := FirstWithKey(st.subscriptions, SubscriptionAccount, GR(f.gr)).value;
            var s := st.subscriptions[i];
            var (st', reply) := UpdateSubscription(st, env, f).value;
            var t := reply.subscription;
            && SubscriptionAccount(s) == GR(f.gr)
            && st'.subscriptions == st.subscriptions[i := t]
            && t.gr == s.gr
            && t.status == f.status.GetOr(s.status)
            && t.frequency == f.frequency.GetOr(s.frequency)
            && t.deliveryDay == f.deliveryDay.GetOr(s.deliveryDay)
            && (f.recipes.None? ==> t.recipes == s.recipes)
            && (f.recipes.Some? ==> t.recipes == ToInt(f.recipes.value).n)
            && (f.boxSize.None? ==> t.boxSize == s.boxSize)
            && (f.boxSize.Some? ==> t.boxSize == ToInt(f.boxSize.value).n)
            && (reply.changes == [] <==> s == t)
            && (reply.changes == [] ==> st'.activity == st.activity)
            && (reply.changes != [] ==> st'.activity == st.activity + [SubscriptionEvent(f.gr, env, SubscriptionFields(s, t))])
  {
    UpdateSubscriptionShape(st, env, f);
    var i := FirstWithKey(st.subscriptions, SubscriptionAccount, GR(f.gr)).value;
    var s := st.subscriptions[i];
    var t := Applied(s, f, Count(f.recipes, s.recipes).value, Count(f.boxSize, s.boxSize).value);
    CommitEffect(st, env, f.gr, i, t);
  }

  /** Committing logs one event exactly when the record changed. */
  lemma CommitEffect(st: Store, env: Env, gr: string, i: nat, t: Subscription)
    requires i < |st.subscriptions| && t.gr == st.subscriptions[i].gr
    ensures var (st', reply) := Commit(st, env, gr, i, t);
            && (reply.changes == [] <==> st.subscriptions[i] == t)
            && (reply.changes == [] ==> st'.activity == st.activity)
            && (reply.changes != [] ==>
                  st'.activity == st.activity + [SubscriptionEvent(gr, env, SubscriptionFields(st.subscriptions[i], t))])
  {
    var fs := SubscriptionFields(st.subscriptions[i], t);
    ChangedEmptyIff(fs);
    var s := st.subscriptions[i];
    if s != t {
      assert !(fs[0].before == fs[0].after && fs[1].before == fs[1].after && fs[2].before == fs[2].after
               && fs[3].before == fs[3].after && fs[4].before == fs[4].after);
    }
  }

  /** A successful update keeps the store consistent. */
  lemma UpdateSubscriptionValid(st: Store, env: Env, f: SubscriptionForm)
    requires Valid(st) && UpdateSubscription(st, env, f).Ok?
    ensures Valid(UpdateSubscription(st, env, f).value.0)
  {
    UpdateSubscriptionShape(st, env, f);
    var i := FirstWithKey(st.subscriptions, SubscriptionAccount, GR(f.gr)).value;
    var s := st.subscriptions[i];
    var t := Applied(s, f, Count(f.recipes, s.recipes).value, Count(f.boxSize, s.boxSize).value);
    ReplaceKeepsIndex(st.subscriptionsByGr, st.subscriptions, SubscriptionAccount, i, t);
  }

  /** Sending the same form again changes nothing, logs nothing and reports
      no changes. */
  lemma UpdateSubscriptionResubmit(st: Store, env: Env, env': Env, f: SubscriptionForm)
    requires UpdateSubscription(st, env, f).Ok?
    ensures var (st1, reply) := UpdateSubscription(st, env, f).value;
            UpdateSubscription(st1, env', f) == Ok((st1, SubscriptionReply(reply.subscription, [])))
  {
    UpdateSubscriptionShape(st, env, f);
    var g := GR(f.gr);
    var i := FirstWithKey(st.subscriptions, SubscriptionAccount, g).value;
    var s := st.subscriptions[i];
    var t := Applied(s, f, Count(f.recipes, s.recipes).value, Count(f.boxSize, s.boxSize).value);
    var st1 := Commit(st, env, f.gr, i, t).0;
    FirstWithKeyReplace(st.subscriptions, SubscriptionAccount, g, i, t);
    AppliedAgain(t, f);
    CommitStored(st, env, f.gr, i, t);
    CommitUnchanged(st1, env', f.gr, i);
    UpdateSubscriptionAt(st1, env', f, i);
  }

  /** After a commit the record sits at its position and in the index. */
  lemma CommitStored(st: Store, env: Env, gr: string, i: nat, t: Subscription)
    requires i < |st.subscriptions|
    ensures var st1 := Commit(st, env, gr, i, t).0;
            st1.subscriptions[i] == t && st1.subscriptionsByGr[GR(gr) := t] == st1.subscriptionsByGr
  {
  }

  /** The converse of the shape lemma: where the account's first
      subscription is at `i` and both counts convert, the update commits
      the applied form there. */
  lemma UpdateSubscriptionAt(st: Store, env: Env, f: SubscriptionForm, i: nat)
    requires f.gr != "" && FirstWithKey(st.subscriptions, SubscriptionAccount, GR(f.gr)) == Some(i)
    requires Count(f.recipes, st.subscriptions[i].recipes).Ok? && Count(f.boxSize, st.subscriptions[i].boxSize).Ok?
    ensures var s := st.subscriptions[i];
            UpdateSubscription(st, env, f)
            == Ok(Commit(st, env, f.gr, i, Applied(s, f, Count(f.recipes, s.recipes).value, Count(f.boxSize, s.boxSize).value)))
  {
  }

  /** Applying a form to the record it produced gives that record back. */
  lemma AppliedAgain(t: Subscription, f: SubscriptionForm)
    requires f.recipes.Some? ==> ToInt(f.recipes.value).Converted?
    requires f.boxSize.Some? ==> ToInt(f.boxSize.value).Converted?
    requires t.status == f.status.GetOr(t.status) && t.frequency == f.frequency.GetOr(t.frequency)
    requires t.deliveryDay == f.deliveryDay.GetOr(t.deliveryDay)
    requires f.recipes.Some? ==> t.recipes == ToInt(f.recipes.value).n
    requires f.boxSize.Some? ==> t.boxSize == ToInt(f.boxSize.value).n
    ensures Count(f.recipes, t.recipes) == Ok(t.recipes)
    ensures Count(f.boxSize, t.boxSize) == Ok(t.boxSize)
    ensures Applied(t, f, t.recipes, t.boxSize) == t
  {
  }

  /** Committing the record already stored changes nothing and reports no
      changes. */
  lemma CommitUnchanged(st1: Store, env: Env, gr: string, i: nat)
    requires i < |st1.subscriptions|
    requires st1.subscriptionsByGr[GR(gr) := st1.subscriptions[i]] == st1.subscriptionsByGr
    ensures Commit(st1, env, gr, i, st1.subscriptions[i]) == (st1, SubscriptionReply(st1.subscriptions[i], []))
  {
    var t := st1.subscriptions[i];
    ChangedEmptyIff(SubscriptionFields(t, t));
    assert st1.subscriptions[i := t] == st1.subscriptions;
  }

  // ---------------------------------------------------------------------------
  // The handler as written
  // ---------------------------------------------------------------------------

  /** The handler's own sequence of writes into the stored record: status
      and frequency first, then each count as it converts, then the
      delivery day. A conversion that fails stops the sequence with the
      earlier writes already made; the error comes back alongside the
      partly written record. */
  function AssignInPlace(s: Subscription, f: SubscriptionForm): (r: (Subscription, Option<Error>))
    ensures r.1.None? <==> Count(f.recipes, s.recipes).Ok? && Count(f.boxSize, s.boxSize).Ok?
    ensures r.0.status == f.status.GetOr(s.status) && r.0.frequency == f.frequency.GetOr(s.frequency)
  {
    var s1 := s.(status := f.status.GetOr(s.status), frequency := f.frequency.GetOr(s.frequency));
    match Count(f.recipes, s.recipes)
    case Err(e) => (s1, Some(e))
    case Ok(recipes) =>
      var s2 := s1.(recipes := recipes);
      match Count(f.boxSize, s.boxSize)
      case Err(e) => (s2, Some(e))
      case Ok(boxSize) => (s2.(boxSize := boxSize, deliveryDay := f.deliveryDay.GetOr(s.deliveryDay)), None)
  }

  /** `update_subscription` as the source writes it: the reply and the
      state the memory is left in. The list element is written in place
      before the conversions can fail. */
  function UpdateSubscriptionAsWritten(st: Store, env: Env, f: SubscriptionForm): (r: (Store, Result<SubscriptionReply>))
    ensures f.gr == "" ==> r == (st, Fail(Validation, "No GR provided"))
    ensures f.gr != "" && FirstWithKey(st.subscriptions, SubscriptionAccount, GR(f.gr)).None? ==>
              r == (st, Fail(NotFound, "Subscription not found"))
    ensures r.1.Ok? ==> GR(f.gr) in r.0.subscriptionsByGr && r.0.subscriptionsByGr[GR(f.gr)] == r.1.value.subscription
  {
    if f.gr == "" then
      (st, Fail(Validation, "No GR provided"))
    else
      match FirstWithKey(st.subscriptions, SubscriptionAccount, GR(f.gr))
      case None => (st, Fail(NotFound, "Subscription not found"))
      case Some(i) => WriteInPlace(st, env, f, i)
  }

  /** Whether the index entry for the form's account is the stored record
      `i` itself, so that a write into the record shows through it. Object
      identity is not modelled; an equal record stands in for it. */
  predicate SharesEntry(st: Store, f: SubscriptionForm, i: nat)
    requires i < |st.subscriptions|
  {
    GR(f.gr) in st.subscriptionsByGr && st.subscriptionsByGr[GR(f.gr)] == st.subscriptions[i]
  }

  /** The in-place writes into record `i`, and what follows them. On a
      refused count the record keeps the writes made so far, the index
      entry shows them only when it is that record, and nothing is
      logged; otherwise the written record is committed. */
  function WriteInPlace(st: Store, env: Env, f: SubscriptionForm, i: nat): (r: (Store, Result<SubscriptionReply>))
    requires i < |st.subscriptions|
    ensures var w := AssignInPlace(st.subscriptions[i], f);
            w.1.Some? ==> && r.1 == Err(w.1.value)
                          && r.0.subscriptions == st.subscriptions[i := w.0]
                          && r.0.activity == st.activity
                          && r.0.subscriptionsByGr.Keys == st.subscriptionsByGr.Keys
                          && (SharesEntry(st, f, i) ==> r.0.subscriptionsByGr[GR(f.gr)] == w.0)
                          && (forall g :: g in st.subscriptionsByGr && !(g == GR(f.gr) && SharesEntry(st, f, i)) ==>
                                            r.0.subscriptionsByGr[g] == st.subscriptionsByGr[g])
    ensures var w := AssignInPlace(st.subscriptions[i], f);
            w.1.None? ==> && r.1.Ok? && r.1.value.subscription == w.0
                          && r.0.subscriptions == st.subscriptions[i := w.0]
                          && r.0.subscriptionsByGr == st.subscriptionsByGr[GR(f.gr) := w.0]
    ensures && r.0.customers == st.customers && r.0.orders == st.orders
            && r.0.complaints == st.complaints && r.0.messages == st.messages
            && r.0.customersByGr == st.customersByGr && r.0.messagesByGr == st.messagesByGr
  {
    var w := AssignInPlace(st.subscriptions[i], f);
    if w.1.Some? then
      var byGr := if SharesEntry(st, f, i) then st.subscriptionsByGr[GR(f.gr) := w.0] else st.subscriptionsByGr;
      (st.(subscriptions := st.subscriptions[i := w.0], subscriptionsByGr := byGr), Err(w.1.value))
    else
      var c := Commit(st, env, f.gr, i, w.0);
      (c.0, Ok(c.1))
  }

  /** In a consistent store the index entry is the record the handler
      finds, so a refused count leaves the list and the index showing the
      same partly written record. */
  lemma AsWrittenIndexFollows(st: Store, env: Env, f: SubscriptionForm)
    requires Valid(st) && f.gr != ""
    requires FirstWithKey(st.subscriptions, SubscriptionAccount, GR(f.gr)).Some?
    ensures var i := FirstWithKey(st.subscriptions, SubscriptionAccount, GR(f.gr)).value;
            UpdateSubscriptionAsWritten(st, env, f).0.subscriptionsByGr[GR(f.gr)]
              == UpdateSubscriptionAsWritten(st, env, f).0.subscriptions[i]
  {
    var i := FirstWithKey(st.subscriptions, SubscriptionAccount, GR(f.gr)).value;
    assert SharesEntry(st, f, i);
  }

  /** Once the counts convert, the in-place writes produce the corrected
      handler's record; otherwise they fail with the corrected handler's
      error. */
  lemma AssignInPlaceAgrees(s: Subscription, f: SubscriptionForm)
    ensures var w := AssignInPlace(s, f);
            && (w.1.None? ==> w.0 == Applied(s, f, Count(f.recipes, s.recipes).value, Count(f.boxSize, s.boxSize).value))
            && (Count(f.recipes, s.recipes).Err? ==> w.1 == Some(Count(f.recipes, s.recipes).error))
            && (Count(f.recipes, s.recipes).Ok? && Count(f.boxSize, s.boxSize).Err? ==>
                  w.1 == Some(Count(f.boxSize, s.boxSize).error))
  {
  }

  /** The handler as written and the corrected one give the same reply in
      every case, and where they succeed they leave the same state. */
  lemma AsWrittenAgrees(st: Store, env: Env, f: SubscriptionForm)
    ensures UpdateSubscription(st, env, f).Ok? ==>
              UpdateSubscriptionAsWritten(st, env, f) == (UpdateSubscription(st, env, f).value.0, Ok(UpdateSubscription(st, env, f).value.1))
    ensures UpdateSubscription(st, env, f).Err? ==>
              UpdateSubscriptionAsWritten(st, env, f).1 == Err(UpdateSubscription(st, env, f).error)
  {
    if f.gr != "" {
      match FirstWithKey(st.subscriptions, SubscriptionAccount, GR(f.gr))
      case None =>
      case Some(i) =>
        var s := st.subscriptions[i];
        AssignInPlaceAgrees(s, f);
        if Count(f.recipes, s.recipes).Ok? && Count(f.boxSize, s.boxSize).Ok? {
          UpdateSubscriptionAt(st, env, f, i);
        }
    }
  }

  /** The discrepancy: a status sent together with a count that does not
      convert is refused with 400, yet the stored status has already
      changed. The corrected handler refuses the same form and writes
      nothing. */
  lemma AsWrittenPartialWrite(st: Store, env: Env, f: SubscriptionForm)
    requires f.gr != ""
    requires exists k :: 0 <= k < |st.subscriptions| && SubscriptionAccount(st.subscriptions[k]) == GR(f.gr)
    requires f.status.Some? && f.recipes.Some? && ToInt(f.recipes.value).ValueErr?
    ensures UpdateSubscriptionAsWritten(st, env, f).1 == Err(Error(Validation, "Invalid data format"))
    ensures var i := FirstWithKey(st.subscriptions, SubscriptionAccount, GR(f.gr)).value;
            UpdateSubscriptionAsWritten(st, env, f).0.subscriptions[i].status == f.status.value
    ensures UpdateSubscription(st, env, f) == Err(Error(Validation, "Invalid data format"))
  {
  }

  /** A concrete instance: pausing a subscription while typing "x" for the
      recipe count. */
  lemma PartialWriteExample(env: Env)
    ensures var sub := Subscription("GR-001", "active", "weekly", 3, 2, "Monday");
            var st := Load([], [], [], [], [sub], []);
            var f := SubscriptionForm("GR-001", Some("paused"), None, Some(Text("x")), None, None);
            var (st', reply) := UpdateSubscriptionAsWritten(st, env, f);
            && reply.Err? && reply.error.kind == Validation
            && st'.subscriptions[0].status == "paused"
            && st.subscriptions[0].status == "active"
  {
    var sub := Subscription("GR-001", "active", "weekly", 3, 2, "Monday");
    var st := Load([], [], [], [], [sub], []);
    var f := SubscriptionForm("GR-001", Some("paused"), None, Some(Text("x")), None, None);
    NotANumber();
    assert SubscriptionAccount(st.subscriptions[0]) == GR(f.gr);
    AsWrittenPartialWrite(st, env, f);
  }

  lemma NotANumber()
    ensures ToInt(Text("x")) == ValueErr
  {
    StripFixesTrimmed("x");
    assert ParseInt("x") == None;
  }
}

=== FILE: text.dfy ===
/** Character-level string operations with Python's meaning: `str.strip()`,
    `upper()`, `lower()`, `capitalize()`, removal of one character, digit
    filtering, the `in` substring test, and the lexicographic order `<` of
    Python strings. Case mapping covers ASCII letters only. */
module Text {

  /** Python's `str.isspace()`: the characters `strip()` and `split()` treat
      as whitespace. */
  predicate IsSpace(c: char) {
    ('\t' <= c <= '\r') || ('\U{1C}' <= c <= ' ') || c == '\U{85}' || c == '\U{A0}'
    || c == '\U{1680}' || ('\U{2000}' <= c <= '\U{200A}') || c == '\U{2028}'
    || c == '\U{2029}' || c == '\U{202F}' || c == '\U{205F}' || c == '\U{3000}'
  }

  predicate IsDigit(c: char) {
    '0' <= c <= '9'
  }

  predicate IsAsciiLetter(c: char) {
    ('a' <= c <= 'z') || ('A' <= c <= 'Z')
  }

  predicate NotBlank(c: char) {
    c != ' '
  }

  predicate AllSpace(s: string) {
    forall k :: 0 <= k < |s| ==> IsSpace(s[k])
  }

  predicate NoSpace(s: string) {
    forall k :: 0 <= k < |s| ==> !IsSpace(s[k])
  }

  predicate AllDigits(s: string) {
    forall k :: 0 <= k < |s| ==> IsDigit(s[k])
  }

  /** Neither end of `s` is whitespace: what `strip()` leaves behind. */
  predicate Trimmed(s: string) {
    s == [] || (!IsSpace(s[0]) && !IsSpace(s[|s| - 1]))
  }

  // ---------------------------------------------------------------------------
  // strip()
  // ---------------------------------------------------------------------------

  lemma AllSpaceConcat(a: string, b: string)
    requires AllSpace(a) && AllSpace(b)
    ensures AllSpace(a + b)
  {
    forall k | 0 <= k < |a + b|
      ensures IsSpace((a + b)[k])
    {
      if k < |a| {
        assert (a + b)[k] == a[k];
      } else {
        assert (a + b)[k] == b[k - |a|];
      }
    }
  }

  /** A suffix of `s[1..]` with only whitespace before it is a suffix of
      `s` with only whitespace before it, when `s` starts with whitespace. */
  lemma SpaceThenSuffix(s: string, r: string)
    requires s != [] && IsSpace(s[0])
    requires |r| <= |s| - 1 && r == s[1..][|s| - 1 - |r|..]
    requires AllSpace(s[1..][..|s| - 1 - |r|])
    ensures r == s[|s| - |r|..] && AllSpace(s[..|s| - |r|])
  {
    var n := |s| - |r|;
    assert s[..n] == [s[0]] + s[1..][..n - 1];
    AllSpaceConcat([s[0]], s[1..][..n - 1]);
  }

  /** `s.lstrip()`: the suffix of `s` left after its leading whitespace. */
  function StripLeft(s: string): (r: string)
    ensures |r| <= |s| && r == s[|s| - |r|..]
    ensures AllSpace(s[..|s| - |r|])
    ensures r == [] || !IsSpace(r[0])
  {
    if s != [] && IsSpace(s[0]) then
      var r := StripLeft(s[1..]);
      SpaceThenSuffix(s, r);
      r
    else s
  }

  /** `s.rstrip()`: the prefix of `s` left after its trailing whitespace. */
  function StripRight(s: string): (r: string)
    ensures |r| <= |s| && r == s[..|r|]
    ensures AllSpace(s[|r|..])
    ensures r == [] || !IsSpace(r[|r| - 1])
  {
    if s != [] && IsSpace(s[|s| - 1]) then
      var r := StripRight(s[..|s| - 1]);
      assert s[|r|..] == s[..|s| - 1][|r|..] + [s[|s| - 1]];
      AllSpaceConcat(s[..|s| - 1][|r|..], [s[|s| - 1]]);
      r
    else s
  }

  /** `s.strip()`: `lstrip()` then `rstrip()`, with no whitespace left at
      either end. Written as its own recursion so that a literal argument
      evaluates in one pass. */
  function Strip(s: string): (r: string)
    ensures Trimmed(r)
    ensures |r| <= |s|
    decreases |s|
  {
    if s != [] && IsSpace(s[0]) then
      Strip(s[1..])
    else
      var r := StripRight(s);
      assert r != [] ==> r[0] == s[0];
      r
  }

  /** `strip()` is `rstrip()` after `lstrip()`. */
  lemma {:induction false} StripBoth(s: string)
    ensures Strip(s) == StripRight(StripLeft(s))
    decreases |s|
  {
    if s != [] && IsSpace(s[0]) {
      StripBoth(s[1..]);
    }
  }

  lemma StripLeftOfTrimmed(s: string)
    requires s == [] || !IsSpace(s[0])
    ensures StripLeft(s) == s
  {
  }

  lemma StripRightOfTrimmed(s: string)
    requires s == [] || !IsSpace(s[|s| - 1])
    ensures StripRight(s) == s
  {
  }

  /** `strip()` changes nothing on a string that has no whitespace at its
      ends, and only on such strings. */
  lemma StripFixesTrimmed(s: string)
    ensures Strip(s) == s <==> Trimmed(s)
  {
    StripBoth(s);
    if Trimmed(s) {
      StripLeftOfTrimmed(s);
      StripRightOfTrimmed(s);
    }
  }

  lemma StripIdempotent(s: string)
    ensures Strip(Strip(s)) == Strip(s)
  {
    StripFixesTrimmed(Strip(s));
  }

  /** A string strips to nothing exactly when it is all whitespace. */
  lemma StripEmptyIffAllSpace(s: string)
    ensures Strip(s) == [] <==> AllSpace(s)
  {
    StripBoth(s);
    if AllSpace(s) {
      AllSpaceStripsLeft(s);
    } else if Strip(s) == [] {
      StrippedEmptyIsSpace(s);
    }
  }

  lemma AllSpaceStripsLeft(s: string)
    requires AllSpace(s)
    ensures StripLeft(s) == []
  {
  }

  lemma StrippedEmptyIsSpace(s: string)
    requires Strip(s) == []
    ensures AllSpace(s)
  {
    StripBoth(s);
    var t := StripLeft(s);
    assert StripRight(t) == [];
    assert AllSpace(t[0..]);
    assert t[0..] == t;
    assert t == [];
    assert s[..|s|] == s;
  }

  lemma {:induction false} StripLeftSpacePrefix(a: string, s: string)
    requires AllSpace(a)
    ensures StripLeft(a + s) == StripLeft(s)
    decreases |a|
  {
    if a != [] {
      assert (a + s)[0] == a[0];
      assert (a + s)[1..] == a[1..] + s;
      StripLeftSpacePrefix(a[1..], s);
    } else {
      assert a + s == s;
    }
  }

  lemma {:induction false} StripRightSpaceSuffix(s: string, b: string)
    requires AllSpace(b)
    ensures StripRight(s + b) == StripRight(s)
    decreases |b|
  {
    if b != [] {
      var n := |b| - 1;
      assert (s + b)[|s + b| - 1] == b[n];
      assert (s + b)[..|s + b| - 1] == s + b[..n];
      StripRightSpaceSuffix(s, b[..n]);
    } else {
      assert s + b == s;
    }
  }

  lemma {:induction false} StripLeftAppend(s: string, b: string)
    requires !AllSpace(s)
    ensures StripLeft(s + b) == StripLeft(s) + b
    decreases |s|
  {
    assert (s + b)[0] == s[0];
    if IsSpace(s[0]) {
      assert (s + b)[1..] == s[1..] + b;
      assert !AllSpace(s[1..]) by {
        var k :| 0 <= k < |s| && !IsSpace(s[k]);
        assert s[1..][k - 1] == s[k];
      }
      StripLeftAppend(s[1..], b);
    }
  }

  /** Whitespace added around a string does not change what `strip()`
      returns. */
  lemma StripMargins(a: string, s: string, b: string)
    requires AllSpace(a) && AllSpace(b)
    ensures Strip(a + s + b) == Strip(s)
  {
    StripBoth(a + s + b);
    StripBoth(s);
    assert a + s + b == a + (s + b);
    StripLeftSpacePrefix(a, s + b);
    if AllSpace(s) {
      BlankMargins(s, b);
    } else {
      StripLeftAppend(s, b);
      StripRightSpaceSuffix(StripLeft(s), b);
    }
  }

  lemma BlankMargins(s: string, b: string)
    requires AllSpace(s) && AllSpace(b)
    ensures StripLeft(s + b) == [] && Strip(s) == []
  {
    StripBoth(s);
    AllSpaceConcat(s, b);
    AllSpaceStripsLeft(s + b);
    AllSpaceStripsLeft(s);
  }

  // ---------------------------------------------------------------------------
  // Case mapping
  // ---------------------------------------------------------------------------

  function UpperChar(c: char): char {
    if 'a' <= c <= 'z' then (c as int - 32) as char else c
  }

  function LowerChar(c: char): char {
    if 'A' <= c <= 'Z' then (c as int + 32) as char else c
  }

  lemma CaseCharFacts(c: char)
    ensures UpperChar(UpperChar(c)) == UpperChar(c)
    ensures LowerChar(LowerChar(c)) == LowerChar(c)
    ensures UpperChar(LowerChar(c)) == UpperChar(c)
    ensures LowerChar(UpperChar(c)) == LowerChar(c)
    ensures IsSpace(UpperChar(c)) <==> IsSpace(c)
    ensures IsSpace(LowerChar(c)) <==> IsSpace(c)
  {
  }

  /** Applies `f` to every character. */
  function MapChars(s: string, f: char -> char): (r: string)
    ensures |r| == |s|
  {
    seq(|s|, i requires 0 <= i < |s| => f(s[i]))
  }

  function Upper(s: string): string {
    MapChars(s, UpperChar)
  }

  function Lower(s: string): string {
    MapChars(s, LowerChar)
  }

  /** Python's `capitalize()`: first character upper case, the rest lower. */
  function Capitalize(w: string): (r: string)
    ensures |r| == |w|
  {
    if w == [] then [] else [UpperChar(w[0])] + Lower(w[1..])
  }

  /** A character map that never turns whitespace into non-whitespace or
      back. */
  ghost predicate KeepsSpaces(f: char -> char) {
    forall c {:trigger f(c)} :: IsSpace(f(c)) <==> IsSpace(c)
  }

  lemma CaseMapsKeepSpaces()
    ensures KeepsSpaces(UpperChar) && KeepsSpaces(LowerChar)
  {
    forall c: char
      ensures (IsSpace(UpperChar(c)) <==> IsSpace(c)) && (IsSpace(LowerChar(c)) <==> IsSpace(c))
    {
      CaseCharFacts(c);
    }
  }

  lemma MapCharsAppend(a: string, b: string, f: char -> char)
    ensures MapChars(a + b, f) == MapChars(a, f) + MapChars(b, f)
  {
  }

  lemma MapCharsSlice(s: string, i: nat, j: nat, f: char -> char)
    requires i <= j <= |s|
    ensures MapChars(s[i..j], f) == MapChars(s, f)[i..j]
  {
  }

  lemma {:induction false} StripLeftMap(s: string, f: char -> char)
    requires KeepsSpaces(f)
    ensures StripLeft(MapChars(s, f)) == MapChars(StripLeft(s), f)
    decreases |s|
  {
    if s != [] {
      var m := MapChars(s, f);
      assert m[0] == f(s[0]);
      assert IsSpace(m[0]) <==> IsSpace(s[0]);
      if IsSpace(s[0]) {
        MapCharsSlice(s, 1, |s|, f);
        assert m[1..] == MapChars(s[1..], f);
        StripLeftMap(s[1..], f);
      }
    }
  }

  lemma {:induction false} StripRightMap(s: string, f: char -> char)
    requires KeepsSpaces(f)
    ensures StripRight(MapChars(s, f)) == MapChars(StripRight(s), f)
    decreases |s|
  {
    if s != [] {
      var m := MapChars(s, f);
      assert m[|s| - 1] == f(s[|s| - 1]);
      assert IsSpace(m[|s| - 1]) <==> IsSpace(s[|s| - 1]);
      if IsSpace(s[|s| - 1]) {
        MapCharsSlice(s, 0, |s| - 1, f);
        assert m[..|s| - 1] == MapChars(s[..|s| - 1], f);
        StripRightMap(s[..|s| - 1], f);
      }
    }
  }

  /** Stripping and case mapping commute. */
  lemma StripMap(s: string, f: char -> char)
    requires KeepsSpaces(f)
    ensures Strip(MapChars(s, f)) == MapChars(Strip(s), f)
  {
    StripBoth(s);
    StripBoth(MapChars(s, f));
    StripLeftMap(s, f);
    StripRightMap(StripLeft(s), f);
  }

  lemma StripUpper(s: string)
    ensures Strip(Upper(s)) == Upper(Strip(s))
  {
    CaseMapsKeepSpaces();
    StripMap(s, UpperChar);
  }

  lemma StripLower(s: string)
    ensures Strip(Lower(s)) == Lower(Strip(s))
  {
    CaseMapsKeepSpaces();
    StripMap(s, LowerChar);
  }

  lemma UpperIdempotent(s: string)
    ensures Upper(Upper(s)) == Upper(s)
  {
    forall i | 0 <= i < |s|
      ensures Upper(Upper(s))[i] == Upper(s)[i]
    {
      CaseCharFacts(s[i]);
    }
  }

  lemma LowerIdempotent(s: string)
    ensures Lower(Lower(s)) == Lower(s)
  {
    forall i | 0 <= i < |s|
      ensures Lower(Lower(s))[i] == Lower(s)[i]
    {
      CaseCharFacts(s[i]);
    }
  }

  /** Upper-casing forgets any earlier lower-casing, and the other way round. */
  lemma CaseMapsAbsorb(s: string)
    ensures Upper(Lower(s)) == Upper(s)
    ensures Lower(Upper(s)) == Lower(s)
  {
    forall i | 0 <= i < |s|
      ensures Upper(Lower(s))[i] == Upper(s)[i] && Lower(Upper(s))[i] == Lower(s)[i]
    {
      CaseCharFacts(s[i]);
    }
  }

  lemma TrimmedMap(s: string, f: char -> char)
    requires KeepsSpaces(f)
    requires Trimmed(s)
    ensures Trimmed(MapChars(s, f))
  {
    if s != [] {
      assert MapChars(s, f)[0] == f(s[0]);
      assert MapChars(s, f)[|s| - 1] == f(s[|s| - 1]);
    }
  }

  lemma TrimmedCase(s: string)
    requires Trimmed(s)
    ensures Trimmed(Upper(s)) && Trimmed(Lower(s))
  {
    CaseMapsKeepSpaces();
    TrimmedMap(s, UpperChar);
    TrimmedMap(s, LowerChar);
  }

  lemma NoSpaceCase(s: string)
    requires NoSpace(s)
    ensures NoSpace(Upper(s)) && NoSpace(Lower(s))
  {
    forall k | 0 <= k < |s|
      ensures !IsSpace(Upper(s)[k]) && !IsSpace(Lower(s)[k])
    {
      CaseCharFacts(s[k]);
    }
  }

  /** `capitalize()` maps words to words and trimmed text to trimmed text,
      and applying it twice is applying it once. */
  lemma CapitalizeFacts(w: string)
    ensures Capitalize(Capitalize(w)) == Capitalize(w)
    ensures NoSpace(w) ==> NoSpace(Capitalize(w))
    ensures Trimmed(w) ==> Trimmed(Capitalize(w))
  {
    if w != [] {
      CapitalizeTwice(w);
      if NoSpace(w) {
        CapitalizeNoSpace(w);
      }
      if Trimmed(w) {
        CapitalizeTrimmed(w);
      }
    }
  }

  lemma CapitalizeTwice(w: string)
    requires w != []
    ensures Capitalize(Capitalize(w)) == Capitalize(w)
  {
    var c := Capitalize(w);
    assert c[1..] == Lower(w[1..]);
    LowerIdempotent(w[1..]);
    CaseCharFacts(w[0]);
    assert c[0] == UpperChar(w[0]);
    assert Capitalize(c) == [UpperChar(c[0])] + Lower(c[1..]);
  }

  lemma CapitalizeNoSpace(w: string)
    requires w != [] && NoSpace(w)
    ensures NoSpace(Capitalize(w))
  {
    var c := Capitalize(w);
    CaseCharFacts(w[0]);
    NoSpaceCase(w[1..]);
    forall k | 0 <= k < |c|
      ensures !IsSpace(c[k])
    {
      if k > 0 {
        assert c[k] == Lower(w[1..])[k - 1];
      }
    }
  }

  lemma CapitalizeTrimmed(w: string)
    requires w != [] && Trimmed(w)
    ensures Trimmed(Capitalize(w))
  {
    var c := Capitalize(w);
    CaseCharFacts(w[0]);
    CaseCharFacts(w[|w| - 1]);
    if |w| > 1 {
      assert c[|w| - 1] == LowerChar(w[|w| - 1]);
    }
  }

  // ---------------------------------------------------------------------------
  // Keeping the characters that satisfy a test
  // ---------------------------------------------------------------------------

  /** The characters of `s` that satisfy `keep`, in order. */
  function Keep(s: string, keep: char -> bool): (r: string)
    ensures |r| <= |s|
    ensures forall k :: 0 <= k < |r| ==> keep(r[k])
  {
    if s == [] then [] else (if keep(s[0]) then [s[0]] else []) + Keep(s[1..], keep)
  }

  /** Python's `s.replace(' ', '')`. */
  function RemoveBlanks(s: string): (r: string)
    ensures forall k :: 0 <= k < |r| ==> r[k] != ' '
  {
    Keep(s, NotBlank)
  }

  /** The effect of `re.sub(r'[^\d]', '', s)` on ASCII digits. */
  function Digits(s: string): (r: string)
    ensures AllDigits(r)
  {
    Keep(s, IsDigit)
  }

  lemma {:induction false} KeepAppend(a: string, b: string, keep: char -> bool)
    ensures Keep(a + b, keep) == Keep(a, keep) + Keep(b, keep)
    decreases |a|
  {
    if a != [] {
      var head := if keep(a[0]) then [a[0]] else [];
      assert (a + b)[0] == a[0];
      assert (a + b)[1..] == a[1..] + b;
      assert Keep(a + b, keep) == head + Keep(a[1..] + b, keep);
      KeepAppend(a[1..], b, keep);
      assert Keep(a, keep) == head + Keep(a[1..], keep);
    } else {
      assert a + b == b;
    }
  }

  /** Keeping characters that all pass the test changes nothing. */
  lemma {:induction false} KeepAll(s: string, keep: char -> bool)
    requires forall k :: 0 <= k < |s| ==> keep(s[k])
    ensures Keep(s, keep) == s
    decreases |s|
  {
    if s != [] {
      KeepAll(s[1..], keep);
    }
  }

  lemma {:induction false} KeepNone(s: string, keep: char -> bool)
    requires forall k :: 0 <= k < |s| ==> !keep(s[k])
    ensures Keep(s, keep) == []
    decreases |s|
  {
    if s != [] {
      KeepNone(s[1..], keep);
    }
  }

  lemma {:induction false} KeepMap(s: string, keep: char -> bool, f: char -> char)
    requires forall c {:trigger f(c)} :: keep(f(c)) <==> keep(c)
    ensures Keep(MapChars(s, f), keep) == MapChars(Keep(s, keep), f)
    decreases |s|
  {
    if s != [] {
      assert MapChars(s, f) == [f(s[0])] + MapChars(s[1..], f);
      KeepMap(s[1..], keep, f);
    }
  }

  /** Removing blanks keeps a trimmed string trimmed: its end characters
      are not blanks and survive. */
  lemma TrimmedRemoveBlanks(s: string)
    requires Trimmed(s)
    ensures Trimmed(RemoveBlanks(s))
  {
    if s != [] {
      assert s == [s[0]] + s[1..];
      KeepAppend([s[0]], s[1..], NotBlank);
      var n := |s| - 1;
      assert s == s[..n] + [s[n]];
      KeepAppend(s[..n], [s[n]], NotBlank);
      var r := RemoveBlanks(s);
      assert r[0] == s[0];
      assert r[|r| - 1] == s[n];
    }
  }

  // ---------------------------------------------------------------------------
  // Substrings: Python's `needle in haystack`
  // ---------------------------------------------------------------------------

  predicate OccursAt(h: string, n: string, i: int) {
    0 <= i && i + |n| <= |h| && h[i..i + |n|] == n
  }

  function Contains(h: string, n: string): (b: bool)
    ensures b <==> exists i :: OccursAt(h, n, i)
    decreases |h|
  {
    if |n| <= |h| && h[..|n|] == n then
      assert OccursAt(h, n, 0);
      true
    else if h == [] then
      false
    else
      var b := Contains(h[1..], n);
      if b then
        var i :| OccursAt(h[1..], n, i);
        assert OccursAt(h, n, i + 1) by {
          assert h[i + 1..i + 1 + |n|] == h[1..][i..i + |n|];
        }
        true
      else
        assert forall i :: !OccursAt(h, n, i) by {
          forall i | OccursAt(h, n, i)
            ensures false
          {
            assert i != 0;
            assert h[1..][i - 1..i - 1 + |n|] == h[i..i + |n|];
            assert OccursAt(h[1..], n, i - 1);
          }
        }
        false
  }

  // ---------------------------------------------------------------------------
  // Python's string order: code-point lexicographic, prefix first
  // ---------------------------------------------------------------------------

  predicate LexLess(a: string, b: string)
    decreases |a|
  {
    if a == [] then b != []
    else if b == [] then false
    else if a[0] < b[0] then true
    else if a[0] == b[0] then LexLess(a[1..], b[1..])
    else false
  }

  lemma LexLessIrreflexive(a: string)
    ensures !LexLess(a, a)
  {
  }

  lemma {:induction false} LexLessTransitive(a: string, b: string, c: string)
    requires LexLess(a, b) && LexLess(b, c)
    ensures LexLess(a, c)
    decreases |a|
  {
    if a != [] && b != [] && c != [] && a[0] == b[0] && b[0] == c[0] {
      LexLessTransitive(a[1..], b[1..], c[1..]);
    }
  }

  /** Any two strings are equal or ordered one way. */
  lemma {:induction false} LexLessTotal(a: string, b: string)
    ensures a == b || LexLess(a, b) || LexLess(b, a)
    decreases |a|
  {
    if a != [] && b != [] && a[0] == b[0] {
      LexLessTotal(a[1..], b[1..]);
      if a[1..] == b[1..] {
        assert a == [a[0]] + a[1..] && b == [b[0]] + b[1..];
      }
    }
  }

  lemma {:induction false} LexLessAsymmetric(a: string, b: string)
    ensures !(LexLess(a, b) && LexLess(b, a))
    decreases |a|
  {
    if a != [] && b != [] && a[0] == b[0] {
      LexLessAsymmetric(a[1..], b[1..]);
    }
  }
}

=== FILE: words.dfy ===
/** Python's `str.split()` (no separator: runs of whitespace separate words
    and the ends are ignored), `' '.join(words)`, and the word-by-word
    capitalisation the personal-details form applies to address and city. */
module Words {
  import opened Text
  import opened Seqs

  /** The longest prefix of `s` that holds no whitespace. */
  function TakeWord(s: string): (w: string)
    ensures |w| <= |s| && w == s[..|w|]
    ensures NoSpace(w)
    ensures |w| == |s| || IsSpace(s[|w|])
    ensures s != [] && !IsSpace(s[0]) ==> w != []
  {
    if s == [] || IsSpace(s[0]) then [] else [s[0]] + TakeWord(s[1..])
  }

  /** Every entry is a non-empty run of non-whitespace characters. */
  predicate AreWords(ws: seq<string>) {
    forall i :: 0 <= i < |ws| ==> ws[i] != [] && NoSpace(ws[i])
  }

  /** `s.split()`. */
  function Split(s: string): (ws: seq<string>)
    ensures AreWords(ws)
    decreases |s|
  {
    var t := StripLeft(s);
    if t == [] then
      []
    else
      var w := TakeWord(t);
      var rest := Split(t[|w|..]);
      WordsCons(w, rest);
      [w] + rest
  }

  lemma WordsCons(w: string, rest: seq<string>)
    requires w != [] && NoSpace(w) && AreWords(rest)
    ensures AreWords([w] + rest)
  {
    var ws := [w] + rest;
    forall i | 0 <= i < |ws|
      ensures ws[i] != [] && NoSpace(ws[i])
    {
      if i > 0 {
        assert ws[i] == rest[i - 1];
      }
    }
  }

  /** `' '.join(ws)`. */
  function Join(ws: seq<string>): string {
    if ws == [] then [] else if |ws| == 1 then ws[0] else ws[0] + " " + Join(ws[1..])
  }

  /** Words joined by single blanks have no whitespace at either end. */
  lemma {:induction false} JoinTrimmed(ws: seq<string>)
    requires AreWords(ws)
    ensures Trimmed(Join(ws))
    ensures ws != [] ==> Join(ws) != []
  {
    if |ws| > 1 {
      JoinTrimmed(ws[1..]);
      var j := Join(ws);
      var rest := Join(ws[1..]);
      assert j == ws[0] + " " + rest;
      assert j[0] == ws[0][0];
      assert j[|j| - 1] == rest[|rest| - 1];
    }
  }

  lemma {:induction false} TakeWordExact(w: string, rest: string)
    requires NoSpace(w)
    requires rest == [] || IsSpace(rest[0])
    ensures TakeWord(w + rest) == w
    decreases |w|
  {
    if w == [] {
      assert w + rest == rest;
    } else {
      assert (w + rest)[0] == w[0];
      assert (w + rest)[1..] == w[1..] + rest;
      TakeWordExact(w[1..], rest);
      assert w == [w[0]] + w[1..];
    }
  }

  /** Splitting undoes joining: `' '.join(ws).split() == ws` for words. */
  lemma {:induction false} SplitJoin(ws: seq<string>)
    requires AreWords(ws)
    ensures Split(Join(ws)) == ws
    decreases |ws|
  {
    if ws == [] {
      assert Join(ws) == [] && StripLeft([]) == [];
    } else if |ws| == 1 {
      SplitJoinOne(ws);
    } else {
      WordsTail(ws);
      SplitJoin(ws[1..]);
      SplitJoinStep(ws);
    }
  }

  lemma SplitJoinOne(ws: seq<string>)
    requires |ws| == 1 && AreWords(ws)
    ensures Split(Join(ws)) == ws
  {
    var w := ws[0];
    assert Join(ws) == w;
    SplitWordFirst(w, []);
    assert w + [] == w;
    assert StripLeft([]) == [];
    assert Split([]) == [];
    assert [w] + [] == [w];
    HeadTail(ws);
  }

  /** One more word in front of words that split back correctly. */
  lemma SplitJoinStep(ws: seq<string>)
    requires |ws| > 1 && AreWords(ws)
    requires Split(Join(ws[1..])) == ws[1..]
    ensures Split(Join(ws)) == ws
  {
    var rest := Join(ws[1..]);
    assert Join(ws) == ws[0] + (" " + rest);
    SplitWordFirst(ws[0], " " + rest);
    SplitSkipsSpace(" " + rest);
    assert (" " + rest)[1..] == rest;
    HeadTail(ws);
  }

  lemma WordsTail(ws: seq<string>)
    requires ws != [] && AreWords(ws)
    ensures AreWords(ws[1..])
  {
    forall i | 0 <= i < |ws| - 1
      ensures ws[1..][i] != [] && NoSpace(ws[1..][i])
    {
      assert ws[1..][i] == ws[i + 1];
    }
  }

  /** A word followed by whitespace or nothing is the first word. */
  lemma SplitWordFirst(w: string, tail: string)
    requires w != [] && NoSpace(w)
    requires tail == [] || IsSpace(tail[0])
    ensures Split(w + tail) == [w] + Split(tail)
  {
    var s := w + tail;
    assert s[0] == w[0];
    assert StripLeft(s) == s;
    TakeWordExact(w, tail);
    assert s[|w|..] == tail;
  }

  /** Leading whitespace does not change the words. */
  lemma SplitSkipsSpace(s: string)
    requires s != [] && IsSpace(s[0])
    ensures Split(s) == Split(s[1..])
  {
    assert StripLeft(s) == StripLeft(s[1..]);
  }

  function CapitalizeAll(ws: seq<string>): (r: seq<string>)
    ensures |r| == |ws|
  {
    seq(|ws|, i requires 0 <= i < |ws| => Capitalize(ws[i]))
  }

  /** `' '.join(word.capitalize() for word in s.split())`. */
  function CapitalizeWords(s: string): (r: string)
    ensures Trimmed(r)
  {
    var ws := CapitalizeAll(Split(s));
    CapitalizeWordsAreWords(Split(s));
    JoinTrimmed(ws);
    Join(ws)
  }

  lemma CapitalizeWordsAreWords(ws: seq<string>)
    requires AreWords(ws)
    ensures AreWords(CapitalizeAll(ws))
  {
    forall i | 0 <= i < |ws|
      ensures CapitalizeAll(ws)[i] != [] && NoSpace(CapitalizeAll(ws)[i])
    {
      CapitalizeFacts(ws[i]);
    }
  }

  /** The words of the capitalised text are the capitalised words of the
      input, so capitalising twice is capitalising once. */
  lemma CapitalizeWordsIdempotent(s: string)
    ensures Split(CapitalizeWords(s)) == CapitalizeAll(Split(s))
    ensures CapitalizeWords(CapitalizeWords(s)) == CapitalizeWords(s)
  {
    var ws := Split(s);
    var cs := CapitalizeAll(ws);
    CapitalizeWordsAreWords(ws);
    SplitJoin(cs);
    forall i | 0 <= i < |cs|
      ensures CapitalizeAll(cs)[i] == cs[i]
    {
      CapitalizeFacts(ws[i]);
    }
    assert CapitalizeAll(cs) == cs;
  }
}
